=== FILE: README.md ===
# A model of the game engine's recorder, replayer and game rules

This project models, in Dafny, the core of a small 2D Java game engine:

- the **recorder** (`RecordingService`, `RecordingConfig`) that writes a game session as JSON lines: a header, input lines and periodic keyframes;
- the **minimal JSON scanner** (`RecordingJson`) and the **replay loader and scene** (`ReplayScene`) that read the recording back and animate proxy objects between keyframes;
- the **game rules**:
  - `GameScene`: shooting, bombs, collisions, score, spawning and game over;
  - `GameLogic`: player steering, clamping, bouncing and the physics batching;
  - the `HealthComponent` and `BombComponent` components;
  - `EntityFactory`, which builds the replay's visuals.

Every operation is a pure function over immutable datatypes. Floats are modelled as reals.

The Java library calls the code relies on are parameters of the model:

| Java call | model parameter |
|---|---|
| `DecimalFormat.format` | `format` |
| `Double.parseDouble` | `parseD` |
| `Float.parseFloat` | `parseF` |
| `Vector2.normalize` | `normalize` |
| the random spawn position | `spawnAt` |
| reading a recording file | `readLines` |

The writer thread is the `Drain` step. It moves lines from the queue to the written log.

The main results:

- **Keyframe round trip** (`KeyframeRoundTrip.KeyframeLineRoundTrip`, `KeyframeRoundTrip.KeyframeIds`): a keyframe line the recorder writes is read back by the replayer's scanners. Each recordable object appears under its id, with the position, render data and health it had, up to number formatting. Header and input lines are never mistaken for keyframes.
- **Scanner round trips** (`RecordingJson.SplitTopLevelJoin`, `RecordingJson.ExtractArrayOfBracketed`, `RecordingJson.StripQuotesOfQuoted`, the `CodecRoundTrip.FieldOf…` lemmas): `field` finds the value written under a key, whatever the rest of the object holds.
- **Keyframe order** (`RecordingService.RecordingStampsOrdered`): over a recording with non-negative frame times, the `t` of the keyframe lines offered to the queue never decreases, the final keyframe of `stop` included.
- **Game invariants** (`GameScene.Tick`):
  - a frame keeps health within bounds;
  - every active enemy stays alive and vulnerable;
  - every point scored is exactly one kill.
- **Physics batching** (`GameLogic.BatchesPartition`): the batches cover every object exactly once, with no more batches than worker threads.
- **Replay** (`ReplayScene.SyncObjects`, `ReplayLoader.Load`, `ReplayScene.AdvanceStaysInRecording`):
  - syncing proxies does not depend on the map's iteration order;
  - loading sorts keyframes stably by time;
  - the replay clock never leaves the recording.

The files:

| file | module | what it holds |
|---|---|---|
| `wrappers.dfy` | `Wrappers` | `Option`, `Result` |
| `java_string.dfy` | `JavaString` | `trim`, `indexOf`, `split` and number rendering, with Java's semantics |
| `selection.dfy` | `Selection` | the indices a filter keeps, in order, and the elements picked at them |
| `recording_json.dfy` | `RecordingJson` | the scanner |
| `record_format.dfy` | `RecordFormat` | the shape of a written line |
| `codec_round_trip.dfy` | `CodecRoundTrip` | what `field` reads from a rendered object |
| `geometry.dfy` | `Geometry` | vectors, colours, render types, interpolation, distance, overlap |
| `health.dfy`, `bomb.dfy` | `Health`, `Bomb` | the components |
| `entity_factory.dfy` | `EntityFactory` | replay visuals |
| `recording_config.dfy` | `RecordingConfig` | the defaults |
| `game_logic.dfy` | `GameLogic` | input, clamping, bouncing, batching |
| `game_scene.dfy` | `GameScene` | one frame of the game |
| `recording_service.dfy` | `RecordingService` | the recorder |
| `replay_loader.dfy` | `ReplayLoader` | `loadRecording` |
| `replay_scene.dfy` | `ReplayScene` | the replay scene |
| `keyframe_round_trip.dfy` | `KeyframeRoundTrip` | writer-to-reader round trip |

## Model

| member | source | states |
|---|---|---|
| Health.New | src/main/java/com/gameengine/components/HealthComponent.java:11-16 | a new health component is full (current equals max) and not invincible, with its timer at 0 |
| Health.Update | src/main/java/com/gameengine/components/HealthComponent.java:22-29 | only an invincible component changes: its timer runs down by the frame time and invincibility holds exactly while the timer stays positive; the health values never change |
| Health.TakeDamage | src/main/java/com/gameengine/components/HealthComponent.java:34-41 | an invincible component ignores damage; otherwise health drops by the damage, floored at 0, and non-negative damage never raises it |
| Health.SetInvincible | src/main/java/com/gameengine/components/HealthComponent.java:43-46 | the component becomes invincible for exactly the given duration, with its health untouched |
| Health.DamageAdds | src/main/java/com/gameengine/components/HealthComponent.java:34-41 | on a vulnerable component, two hits of non-negative damage equal one hit of their sum, so the floor at 0 does not depend on how damage is split |
| Health.InvincibleBlocks | src/main/java/com/gameengine/components/HealthComponent.java:34-46 | once made invincible, any damage leaves the component unchanged |
| Health.RunVulnerable | src/main/java/com/gameengine/components/HealthComponent.java:22-29 | frames never change a vulnerable component |
| Health.InvincibilityExpires | src/main/java/com/gameengine/components/HealthComponent.java:22-29 | over several frames of non-negative length, invincibility survives exactly while the initial timer exceeds the total elapsed time, and the timer then equals the initial value less that total |
| Bomb.New | src/main/java/com/gameengine/components/BombComponent.java:17-23 | a new bomb is travelling to its target with 1.5 s of arming time and 0.5 s of explosion effect time |
| Bomb.Update | src/main/java/com/gameengine/components/BombComponent.java:28-30 | the component's own update leaves the bomb unchanged; the scene drives its states |
| Geometry.TypeOf | src/main/java/com/gameengine/example/ReplayScene.java:241-245 | reading a render type name gives the constant with exactly that name, and nothing for null or any other text, in both directions |
| Geometry.Lerp | src/main/java/com/gameengine/example/ReplayScene.java:283-287 | interpolation gives the first point at factor 0, the second at factor 1, and a point between the two for any factor in [0, 1] |
| EntityFactory.CreatePlayerVisual | src/main/java/com/gameengine/example/EntityFactory.java:13-42 | the player visual is the named player figure, with no transform and no health of its own |
| EntityFactory.CreateRenderableVisual | src/main/java/com/gameengine/example/EntityFactory.java:44-58 | the visual has the given name and colour, is visible, stands at (0,0), and has the named render type, falling back to a rectangle for an unknown or missing name; each side is `max(1, ·)`: kept when at least 1, exactly 1 otherwise |
| EntityFactory.RenderableVisualOfRender | src/main/java/com/gameengine/example/EntityFactory.java:44-58 | a render rebuilt from its type name, sizes and colour is that render, made visible, whenever both sides are at least 1 |
| RecordingConfig.Default | src/main/java/com/gameengine/recording/RecordingConfig.java:5-12 | the default configuration keeps the output path and has a 0.05 s keyframe interval, 30 samples per second, 2 decimals and a queue of 4096 lines |
| GameLogic.Axis | src/main/java/com/gameengine/core/GameLogic.java:64-77 | an axis moves only when exactly one of its two directions is held, towards that direction |
| GameLogic.Direction | src/main/java/com/gameengine/core/GameLogic.java:64-77 | each axis of the input direction is zero exactly when both or neither of its keys (letter or arrow) are held |
| GameLogic.ClampTo | src/main/java/com/gameengine/core/GameLogic.java:85-90 | clamping lands in [0, bound], keeps a value already there, and sends values below and above to the matching end |
| GameLogic.FirstWithTransform | src/main/java/com/gameengine/core/GameLogic.java:55-62 | the player is the first object with a transform: no earlier object has one |
| GameLogic.HandlePlayerInput | src/main/java/com/gameengine/core/GameLogic.java:54-91 | only the player changes, and only if it has physics; each coordinate of its position is then clamped (kept when in range, 0 below, 780 or 580 above), its velocity becomes 200 times the normalised held direction, and without a held direction it keeps its velocity |
| GameLogic.HandlePlayerInputIdempotent | src/main/java/com/gameengine/core/GameLogic.java:54-91 | handling the same held keys a second time changes nothing more: the player stays the first object with a transform and its clamped position and velocity are fixed points |
| GameLogic.Bounce | src/main/java/com/gameengine/core/GameLogic.java:137-160 | a bouncing body with a transform is moved to the clamp of its position into [0,785] x [0,585]; each velocity component flips exactly when the body touches or passes that axis's edge, and is kept otherwise; non-bouncing bodies and bodies without a transform are untouched |
| GameLogic.BounceTwice | src/main/java/com/gameengine/core/GameLogic.java:137-160 | two bounce steps in a row restore the velocity and leave the clamped position alone, so a body resting on an edge reverses its velocity every frame |
| GameLogic.ThreadCount | src/main/java/com/gameengine/core/GameLogic.java:101-102 | the worker count is exactly max(2, processors - 1): at least both, and equal to one of them |
| GameLogic.BatchSize | src/main/java/com/gameengine/core/GameLogic.java:103 | a batch holds at least one component, and the batches of all workers together cover every component |
| GameLogic.Ranges | src/main/java/com/gameengine/core/GameLogic.java:108-111 | every batch is a non-empty range within the component list |
| GameLogic.RangesTile | src/main/java/com/gameengine/core/GameLogic.java:108-111 | the batches tile the list from the start index contiguously, leaving no gap and no overlap |
| GameLogic.TilesExactlyOnce | src/main/java/com/gameengine/core/GameLogic.java:108-111 | every index lies in exactly one batch |
| GameLogic.Ascending | src/main/java/com/gameengine/core/GameLogic.java:108-111 | later batches start where earlier ones end or later |
| GameLogic.BatchesPartition | src/main/java/com/gameengine/core/GameLogic.java:101-130 | for any number of processors and components, every component is handled by exactly one batch and there are never more batches than workers |
| GameScene.NewEnemy | src/main/java/com/gameengine/example/GameScene.java:442-457 | a new enemy is active at its spawn position with full health of 50 |
| GameScene.Initial | src/main/java/com/gameengine/example/GameScene.java:39-51 | a new game starts not over, with score 0, three enemies and the player at (400,300) with full health of 100, and satisfies the game invariant |
| GameScene.ActiveCountUpdate | src/main/java/com/gameengine/example/GameScene.java:98-105 | replacing one enemy changes the active count by the difference of their activity |
| GameScene.HealOnKill | src/main/java/com/gameengine/example/GameScene.java:296-302 | a kill heals the player by 10, never above the maximum and never downwards |
| GameScene.Kill | src/main/java/com/gameengine/example/GameScene.java:341-349 | a kill deactivates exactly that enemy, adds 10 points, heals the player, and lowers the active count by one |
| GameScene.CombatKeepsOk | src/main/java/com/gameengine/example/GameScene.java:264-380 | a combat step keeps the game invariant: player health in bounds, active enemies alive and vulnerable, score a whole number of kills |
| GameScene.CombatTransitive | src/main/java/com/gameengine/example/GameScene.java:264-380 | two combat steps in a row are one combat step, so the score stays paid for by kills across the whole frame |
| GameScene.CoolDown | src/main/java/com/gameengine/example/GameScene.java:87-88 | a cooldown decreases by the frame time only while positive |
| GameScene.Gate | src/main/java/com/gameengine/example/GameScene.java:211-213 | a weapon fires exactly when its button was just pressed and its cooldown has run out, and firing resets the cooldown to the reload time |
| GameScene.Shoot | src/main/java/com/gameengine/example/GameScene.java:211-235 | a left click fires a fireball from the player towards the mouse at speed 500 exactly when the gate opens; nothing else in the world changes |
| GameScene.ShootBomb | src/main/java/com/gameengine/example/GameScene.java:237-262 | a right click fires a bomb from the player towards the mouse at speed 300 exactly when the gate opens; nothing else in the world changes |
| GameScene.BlastDamage | src/main/java/com/gameengine/example/GameScene.java:290-295 | an explosion deals 50 within radius 75, 20 within radius 150, and nothing beyond |
| GameScene.BlastFrom | src/main/java/com/gameengine/example/GameScene.java:284-306 | an explosion damages every active enemy by distance, kills those left with no health and pays 10 points and a heal for each, without touching fireballs or bombs |
| GameScene.BlastOne | src/main/java/com/gameengine/example/GameScene.java:286-304 | the explosion handles one enemy at a time, changing only that enemy |
| GameScene.StepBomb | src/main/java/com/gameengine/example/GameScene.java:273-311 | a bomb changes only itself: travelling within 10 of its target it stops and arms; arming counts down and explodes at 0, blasting the enemies; exploding counts down its effect and is then destroyed |
| GameScene.UpdateBombs | src/main/java/com/gameengine/example/GameScene.java:264-314 | all bombs take their step in creation order, as a combat step |
| GameScene.FirstHit | src/main/java/com/gameengine/example/GameScene.java:329-338 | a fireball hits the first active enemy whose box it overlaps, and none before it |
| GameScene.Hit | src/main/java/com/gameengine/example/GameScene.java:338-352 | a hit deals 30 damage to that enemy alone, deactivates it exactly when its health is gone, and destroys the fireball; bombs stay as they were |
| GameScene.FireballStep | src/main/java/com/gameengine/example/GameScene.java:325-355 | an active fireball that overlaps an enemy deals 30 damage, kills at 0 health, and is destroyed; otherwise nothing changes |
| GameScene.FireballsFrom | src/main/java/com/gameengine/example/GameScene.java:325-355 | every fireball takes its turn in creation order, as a combat step |
| GameScene.PlayerHitsFrom | src/main/java/com/gameengine/example/GameScene.java:366-377 | the first enemy touching the player's box deals 50 damage and makes the player invincible for 2 s; later touches that frame only reset the timer; the game is over once health reaches 0; positions never change |
| GameScene.PlayerHits | src/main/java/com/gameengine/example/GameScene.java:357-380 | a vulnerable player touched by any active enemy is damaged and made invincible; an invincible or untouched player is unchanged |
| GameScene.Collisions | src/main/java/com/gameengine/example/GameScene.java:316-380 | collisions keep the invariant and can only lower the active enemy count, by exactly one tenth of the points they add |
| GameScene.Spawn | src/main/java/com/gameengine/example/GameScene.java:98-105 | past 2 s the clock restarts and a new enemy joins unless 50 are already active; before that nothing changes |
| GameScene.RemoveOffscreen | src/main/java/com/gameengine/example/GameScene.java:382-392 | exactly the fireballs outside the 800 x 600 screen are destroyed |
| GameScene.Steer | src/main/java/com/gameengine/example/GameScene.java:90 | steering moves only the player, keeping it inside [0,780] x [0,580] |
| GameScene.Prepare | src/main/java/com/gameengine/example/GameScene.java:85-92 | the clock and cooldowns advance and the weapons fire through their gates; enemies, score and health are untouched and the invariant holds |
| GameScene.Fight | src/main/java/com/gameengine/example/GameScene.java:94-96 | bombs then collisions keep the invariant, and every point is a kill |
| GameScene.Finish | src/main/java/com/gameengine/example/GameScene.java:98-107 | spawning only appends enemies and cleanup only destroys fireballs; the invariant holds |
| GameScene.Play | src/main/java/com/gameengine/example/GameScene.java:85-107 | a played frame sets both cooldowns through their gates, never removes enemies, keeps the invariant, and every point scored is a kill among the enemies present at its start |
| GameScene.Tick | src/main/java/com/gameengine/example/GameScene.java:66-108 | a finished game restarts on Space, goes to the menu on ESC, and otherwise only ticks the player's invincibility; a running game goes to the menu on ESC and otherwise plays a frame; the invariant is preserved |
| RecordingService.New | src/main/java/com/gameengine/recording/RecordingService.java:28-37 | a new service is idle with both clocks at 0, an empty queue and log, and max(0, decimals) digits; a capacity below 1 is refused |
| RecordingService.Offer | src/main/java/com/gameengine/recording/RecordingService.java:188-192 | a line joins the queue only when there is room; a full queue drops it, and the capacity bound is kept |
| RecordingService.OfferAll | src/main/java/com/gameengine/recording/RecordingService.java:86-104 | offering several lines only appends to the queue, appends all of them when they fit, and keeps the capacity bound |
| RecordingService.Drain | src/main/java/com/gameengine/recording/RecordingService.java:46-61 | the writer moves lines from the head of the queue to the file in order, losing and reordering nothing |
| RecordingService.Start | src/main/java/com/gameengine/recording/RecordingService.java:43-67 | starting while recording does nothing; a writer that cannot open fails; otherwise recording starts with the header offered and the keyframe clock at 0, keeping the elapsed clock |
| RecordingService.RecordableObjects | src/main/java/com/gameengine/recording/RecordingService.java:133-137 | a keyframe holds exactly the active objects with a transform |
| RecordingService.EntityMembers | src/main/java/com/gameengine/recording/RecordingService.java:144-176 | an entity carries its id, then its x and y formatted, then its render data (CUSTOM type when it has no render component), then its health data |
| RecordingService.EntityKeys | src/main/java/com/gameengine/recording/RecordingService.java:151-176 | an entity carries `v` only when invisible, size and colour exactly with a render component, `hp` and `maxHp` exactly with health, and `inv` only when invincible |
| RecordingService.LookMembers | src/main/java/com/gameengine/recording/RecordingService.java:151-168 | without a render component only the CUSTOM type is written; with one, its type name and the keys of its look |
| RecordingService.LifeMembers | src/main/java/com/gameengine/recording/RecordingService.java:171-176 | health is written exactly when the object has a health component |
| RecordingService.GlobalMembers | src/main/java/com/gameengine/recording/RecordingService.java:112-127 | the global block appears exactly for a game scene whose fields could be read, under the key `global` |
| RecordingService.KeyframeMembers | src/main/java/com/gameengine/recording/RecordingService.java:107-131 | a keyframe is typed, stamped with the formatted time, and ends with its entity array |
| RecordingService.KeyframeLine | src/main/java/com/gameengine/recording/RecordingService.java:182-185 | a keyframe is written exactly when the scene has a recordable object, and is then the rendered keyframe object |
| RecordingService.Emitted | src/main/java/com/gameengine/recording/RecordingService.java:86-104 | a frame yields an input line exactly when keys were just pressed, then a keyframe line exactly when both clocks are due and the scene has a recordable object |
| RecordingService.Update | src/main/java/com/gameengine/recording/RecordingService.java:80-105 | an idle service ignores updates; a recording one advances both clocks, remembers the scene, offers the frame's lines, and restarts the keyframe clock exactly when a keyframe line was produced |
| RecordingService.Stop | src/main/java/com/gameengine/recording/RecordingService.java:69-78 | stopping while idle does nothing; otherwise a last keyframe of the last scene seen is offered, if any, and recording ends with the clocks kept |
| RecordingService.KeyframeStamp | src/main/java/com/gameengine/recording/RecordingService.java:80-109 | a frame's keyframe line, when `update` produces one, is the line for the scene stamped with the clock after the frame, and it is the last line the frame offers; otherwise the frame offers at most its input line |
| RecordingService.Run | src/main/java/com/gameengine/recording/RecordingService.java:80-84 | over frames with non-negative times the recording clock never goes back, and the queue stays within its capacity |
| RecordingService.StopStamp | src/main/java/com/gameengine/recording/RecordingService.java:69-75 | `stop` offers one final keyframe, stamped with the current clock, exactly when recording with a last scene that has a recordable object; otherwise the queue is unchanged |
| RecordingService.StampsOrdered | src/main/java/com/gameengine/recording/RecordingService.java:80-109 | with non-negative frame times, the t values of the keyframe lines offered over a run never decrease and lie between the clock values before and after the run |
| RecordingService.RecordingStampsOrdered | src/main/java/com/gameengine/recording/RecordingService.java:69-109 | over a whole recording, frames then `stop`, the t values of all keyframe lines offered to the queue, the final one included, never decrease |
| ReplayLoader.ColorPieces | src/main/java/com/gameengine/example/ReplayScene.java:214-217 | a colour is read only from text starting with `[`, as comma-free pieces of the text up to the first `]` |
| ReplayLoader.ParseColor | src/main/java/com/gameengine/example/ReplayScene.java:214-226 | fewer than three pieces, or no colour at all, leave white; otherwise each channel comes from its piece while every piece so far parses, and the channels after the first failure stay 1 |
| ReplayLoader.ParseChannels | src/main/java/com/gameengine/example/ReplayScene.java:218-224 | each channel is the parsed piece exactly when it and every piece before it parse; the fourth is read only when present |
| ReplayLoader.ColorRoundTrip | src/main/java/com/gameengine/example/ReplayScene.java:214-226 | a colour written as four comma-separated numbers the parser accepts reads back as exactly that colour |
| ReplayLoader.ColorPiecesOfBracketed | src/main/java/com/gameengine/example/ReplayScene.java:214-217 | a bracketed body without `]` splits into its comma-separated pieces |
| ReplayLoader.ParseEntity | src/main/java/com/gameengine/example/ReplayScene.java:198-226 | an entity's id and type are read with quotes stripped; its numbers are read with missing or unreadable ones as 0; health is -1 when absent; and its colour is read as above |
| ReplayLoader.EntityMap | src/main/java/com/gameengine/example/ReplayScene.java:227 | the keyframe's entities are exactly those with an id, each under its id, the last one written winning |
| ReplayLoader.EntityMapAsWritten | src/main/java/com/gameengine/example/ReplayScene.java:227 | the map as the code fills it has a key for every entity's id, null included |
| ReplayLoader.EntityMapAgrees | src/main/java/com/gameengine/example/ReplayScene.java:227 | away from the null id, the corrected map and the map as written hold the same keys and values |
| ReplayLoader.EntityTexts | src/main/java/com/gameengine/example/ReplayScene.java:192-196 | entity texts are the top-level pieces of the array after the first `"entities":[`, and none without it |
| ReplayLoader.ParseKeyframe | src/main/java/com/gameengine/example/ReplayScene.java:190-230 | a keyframe's time is its parsed `t`; its ids are exactly those of the parsed entity texts, and each id maps to the last entity text that carries it, as the `put` loop leaves it |
| ReplayLoader.ParseLines | src/main/java/com/gameengine/example/ReplayScene.java:188-231 | the keyframes are the lines carrying the keyframe marker, each parsed, in file order: the j-th keyframe comes from the j-th marker line and every other line is skipped |
| ReplayLoader.Insert | src/main/java/com/gameengine/example/ReplayScene.java:233 | inserting into a time-ordered list keeps it ordered and adds exactly that keyframe |
| ReplayLoader.SortByTime | src/main/java/com/gameengine/example/ReplayScene.java:233 | sorting yields a time-ordered permutation of the keyframes |
| ReplayLoader.InsertStable | src/main/java/com/gameengine/example/ReplayScene.java:233 | insertion places a keyframe after every keyframe with the same time |
| ReplayLoader.SortStable | src/main/java/com/gameengine/example/ReplayScene.java:233 | sorting keeps keyframes with the same time in file order, as a stable sort does |
| ReplayLoader.Load | src/main/java/com/gameengine/example/ReplayScene.java:184-235 | loading yields the file's keyframes sorted by time, as a permutation, with equal times in file order |
| ReplayScene.RawId | src/main/java/com/gameengine/example/ReplayScene.java:239 | the raw id is the id cut at its last `_`, or the whole id when it has none |
| ReplayScene.RawIdOfEntityId | src/main/java/com/gameengine/example/ReplayScene.java:239 | the raw id of a recorded `name_uuid` id is the object's name |
| ReplayScene.CreateVisualFor | src/main/java/com/gameengine/example/ReplayScene.java:237-259 | a proxy is named by its id and placed at the recorded position; its look comes from the raw id (the player figure for `Player`); it has health exactly when health was recorded, full at the recorded maximum |
| ReplayScene.CreateVisualForAsWritten | src/main/java/com/gameengine/example/ReplayScene.java:237-259 | the code as written fails exactly for an entity without an id, and otherwise builds the same proxy |
| ReplayScene.NullIdCrashes | src/main/java/com/gameengine/example/ReplayScene.java:198-239 | an entity text without `id` is stored under the null id, and building its proxy fails |
| ReplayScene.NullIdSkipped | src/main/java/com/gameengine/example/ReplayScene.java:227 | the corrected loader skips such an entity |
| ReplayScene.Sync | src/main/java/com/gameengine/example/ReplayScene.java:261-312 | after syncing, the proxies are exactly the entities of keyframe A |
| ReplayScene.SyncedProxy | src/main/java/com/gameengine/example/ReplayScene.java:270-299 | a synced proxy is kept or newly built; it stands at the interpolation between its positions in A and B, staying between them for a factor in [0, 1]; it carries A's health |
| ReplayScene.SyncObjects | src/main/java/com/gameengine/example/ReplayScene.java:261-312 | the two loops, visiting the ids in any order, produce exactly the synced proxies |
| ReplayScene.SyncPresent | src/main/java/com/gameengine/example/ReplayScene.java:270-299 | the first loop marks exactly A's ids present and syncs each of them, leaving every other proxy as it was |
| ReplayScene.SyncStep | src/main/java/com/gameengine/example/ReplayScene.java:270-299 | one more id synced keeps the loop invariant |
| ReplayScene.RemoveAbsent | src/main/java/com/gameengine/example/ReplayScene.java:303-311 | the removal loop keeps exactly the present proxies, unchanged |
| ReplayScene.BracketIndex | src/main/java/com/gameengine/example/ReplayScene.java:95-101 | the search finds the first consecutive pair that encloses the time, and no earlier one |
| ReplayScene.Bracket | src/main/java/com/gameengine/example/ReplayScene.java:95-101 | the keyframes A and B are the first enclosing pair, or the first and last keyframe when none encloses the time |
| ReplayScene.BracketFound | src/main/java/com/gameengine/example/ReplayScene.java:95-101 | on a time-ordered recording, a time within it always has an enclosing pair |
| ReplayScene.Factor | src/main/java/com/gameengine/example/ReplayScene.java:103-104 | the interpolation factor lies in [0, 1]: 0 before A, the elapsed fraction between A and B, and 1 after B |
| ReplayScene.Advance | src/main/java/com/gameengine/example/ReplayScene.java:83-106 | without keyframes nothing happens; otherwise the clock advances, loops to 0 past the last keyframe with all proxies cleared, and the proxies are synced to the keyframes around it |
| ReplayScene.AdvanceStaysInRecording | src/main/java/com/gameengine/example/ReplayScene.java:85-101 | on a time-ordered recording the clock stays within [0, last keyframe time] and, from the first keyframe on, lies between two consecutive keyframes |
| ReplayScene.BeforeFirstKeyframe | src/main/java/com/gameengine/example/ReplayScene.java:95-106 | before the first keyframe every entity of it is shown exactly at its first recorded position |
| ReplayScene.HandleFileSelection | src/main/java/com/gameengine/example/ReplayScene.java:152-163 | up moves the cursor back and down forward, wrapping around the list, with up winning; Enter or Space loads the chosen file; nothing happens without files |
| ReplayScene.UpThenDown | src/main/java/com/gameengine/example/ReplayScene.java:155-159 | up then down returns the cursor where it was |
| ReplayScene.Initialize | src/main/java/com/gameengine/example/ReplayScene.java:53-67 | the clock and proxies are reset; a recording path loads its keyframes in time order, and no path lists the recordings |
| ReplayScene.Update | src/main/java/com/gameengine/example/ReplayScene.java:70-107 | ESC and only ESC leaves for the menu; without a recording the file menu runs, otherwise the replay advances, and the menu cursor stays on a listed file |
| RecordingJson.CloseIndex | src/main/java/com/gameengine/recording/RecordingJson.java:26-39 | the scan finds the closer that brings the group's depth back to 0, or reports that the group never closes |
| RecordingJson.MatchingClose | src/main/java/com/gameengine/recording/RecordingJson.java:26-39 | the matching closer is the first point at which the group's depth returns to 0, and there is none exactly when it never does |
| RecordingJson.StringEnd | src/main/java/com/gameengine/recording/RecordingJson.java:40-49 | a string value ends at the first quote not preceded by a backslash |
| RecordingJson.BareEnd | src/main/java/com/gameengine/recording/RecordingJson.java:51-57 | a bare value ends at the first `,` or `}` |
| RecordingJson.SkipWhitespace | src/main/java/com/gameengine/recording/RecordingJson.java:17-21 | skipping stops at the first character that is not Java whitespace |
| RecordingJson.ValueStart | src/main/java/com/gameengine/recording/RecordingJson.java:9-21 | a found value starts at the first non-whitespace character after the first `:` that follows the first occurrence of the quoted key; without the key, without a colon after it, or with only whitespace after the colon there is no value |
| RecordingJson.Field | src/main/java/com/gameengine/recording/RecordingJson.java:9-60 | a field is found only where its value starts |
| RecordingJson.GroupAt | src/main/java/com/gameengine/recording/RecordingJson.java:26-39 | a group value is its text up to the matching closer, and null when that closer is missing |
| RecordingJson.StringAt | src/main/java/com/gameengine/recording/RecordingJson.java:40-49 | a string value is its text with both quotes, and null when the closing quote is missing |
| RecordingJson.BareAt | src/main/java/com/gameengine/recording/RecordingJson.java:51-59 | a bare value is the trimmed text up to the next `,` or `}`, and null when neither follows |
| RecordingJson.FieldValueShape | src/main/java/com/gameengine/recording/RecordingJson.java:22-60 | what `field` returns depends on the value's first character: a group, a string or a bare value |
| RecordingJson.StripQuotesAsWritten | src/main/java/com/gameengine/recording/RecordingJson.java:62-69 | the code as written fails exactly on a value that trims to a lone `"` |
| RecordingJson.StripQuotes | src/main/java/com/gameengine/recording/RecordingJson.java:62-69 | null stays null; otherwise the trimmed text loses one surrounding pair of quotes, agreeing with the code as written wherever that does not fail |
| RecordingJson.StripQuotesLoneQuote | src/main/java/com/gameengine/recording/RecordingJson.java:62-69 | a lone `"` makes the code as written fail, while the corrected reader keeps it |
| RecordingJson.StripQuotesOfQuoted | src/main/java/com/gameengine/recording/RecordingJson.java:62-69 | a quoted text is stripped back to the text, whatever it holds |
| RecordingJson.ParseDouble | src/main/java/com/gameengine/recording/RecordingJson.java:71-74 | a missing or unreadable number reads as 0; otherwise it reads as the parsed, quote-stripped text |
| RecordingJson.RawPieces | src/main/java/com/gameengine/recording/RecordingJson.java:76-88 | the pieces before trimming are the text cut at its commas at brace depth 0: joined with commas they give the text back (less a trailing separator), every piece followed by a separator is brace-balanced, and no piece holds a comma at brace depth 0; square brackets do not count towards the depth |
| RecordingJson.CleanPicks | src/main/java/com/gameengine/recording/RecordingJson.java:89 | trimming and filtering keeps exactly the trimmed non-blank pieces, in their order |
| RecordingJson.SplitTopLevelPieces | src/main/java/com/gameengine/recording/RecordingJson.java:76-90 | the result is exactly the non-blank pieces between depth-0 commas, trimmed, in their order |
| RecordingJson.SplitTopLevelBlank | src/main/java/com/gameengine/recording/RecordingJson.java:76-90 | blank text yields no pieces |
| RecordingJson.SplitTopLevelJoin | src/main/java/com/gameengine/recording/RecordingJson.java:76-90 | splitting comma-joined, trimmed, brace-closed pieces gives exactly those pieces back |
| RecordingJson.ExtractArray | src/main/java/com/gameengine/recording/RecordingJson.java:92-110 | the array body is the text strictly inside the `[` and its matching `]`, and empty otherwise |
| RecordingJson.ExtractArrayOfBracketed | src/main/java/com/gameengine/recording/RecordingJson.java:92-110 | a balanced body written between brackets is read back exactly |
| RecordingJson.ValueStartAt | src/main/java/com/gameengine/recording/RecordingJson.java:9-21 | where the first occurrence of the quoted key is followed by a colon and a non-space, the value starts right there |
| RecordingJson.FieldOfBareMember | src/main/java/com/gameengine/recording/RecordingJson.java:9-60 | a bare token written after its key is read back as that token |
| RecordingJson.FieldOfStringMember | src/main/java/com/gameengine/recording/RecordingJson.java:9-60 | a plain string written after its key is read back with its quotes |
| RecordingJson.FieldOfAbsentKey | src/main/java/com/gameengine/recording/RecordingJson.java:9-13 | a key holding a character the text lacks is not found |
| JavaString.Trim | src/main/java/com/gameengine/recording/RecordingJson.java:62-69 | trimming returns the text between its leading and trailing blanks, and is empty exactly for blank text |
| JavaString.TrimPadded | src/main/java/com/gameengine/recording/RecordingJson.java:62-69 | trimming strips exactly the blank padding around an unpadded core |
| JavaString.IndexOf | src/main/java/com/gameengine/recording/RecordingJson.java:10-11 | the search returns the first occurrence of the pattern, and none before it |
| JavaString.SplitAllJoin | src/main/java/com/gameengine/example/ReplayScene.java:216-217 | splitting on a character and joining back with it gives the text again |
| JavaString.JoinSplitAll | src/main/java/com/gameengine/example/ReplayScene.java:216-217 | joining pieces free of a character and splitting on it gives the pieces back |
| JavaString.SplitJoin | src/main/java/com/gameengine/example/ReplayScene.java:216-217 | `split` returns the pieces when there is a separator to split on and the last piece is not empty |
| JavaString.Split | src/main/java/com/gameengine/example/ReplayScene.java:216-217 | `split` gives the whole text without a separator and drops the trailing empty pieces otherwise |
| JavaString.IntToString | src/main/java/com/gameengine/recording/RecordingService.java:65 | a decimal integer is written with digits and a minus sign only |
| CodecRoundTrip.FirstQ | src/main/java/com/gameengine/recording/RecordingJson.java:10-11 | searching a rendered object for a quoted key finds the first place that key was written |
| CodecRoundTrip.FieldOfBare | src/main/java/com/gameengine/recording/RecordingJson.java:9-60 | a bare member written into an object is read back as its token |
| CodecRoundTrip.FieldOfStr | src/main/java/com/gameengine/recording/RecordingJson.java:9-60 | a string member written into an object is read back with its quotes |
| CodecRoundTrip.FieldOfFlatArray | src/main/java/com/gameengine/recording/RecordingJson.java:26-39 | an array of bare tokens written into an object is read back as the rendered array |
| CodecRoundTrip.FieldOfAbsent | src/main/java/com/gameengine/recording/RecordingJson.java:9-13 | a key no member mentions is not found |
| CodecRoundTrip.BalancedRender | src/main/java/com/gameengine/recording/RecordingJson.java:26-39 | brackets and braces in a rendered value balance |
| CodecRoundTrip.CurlyClosedObj | src/main/java/com/gameengine/recording/RecordingJson.java:76-90 | a rendered object is one brace group that the top-level split keeps whole |
| CodecRoundTrip.FieldOfBareIn | src/main/java/com/gameengine/recording/RecordingJson.java:9-60 | in an object with unique keys, a bare member is read back by its key |
| CodecRoundTrip.FieldOfStrIn | src/main/java/com/gameengine/recording/RecordingJson.java:9-60 | in an object with unique keys, a string member is read back by its key |
| CodecRoundTrip.FieldOfFlatArrayIn | src/main/java/com/gameengine/recording/RecordingJson.java:9-60 | in an object with unique keys, a flat array member is read back by its key |
| CodecRoundTrip.FieldOfUnusedKey | src/main/java/com/gameengine/recording/RecordingJson.java:9-13 | a key that no member has and no value mentions is not found |
| KeyframeRoundTrip.EntityShape | src/main/java/com/gameengine/recording/RecordingService.java:144-176 | an entity the recorder writes has unique keys, and its keys appear only as keys, so `field` can find every one |
| KeyframeRoundTrip.EntityRoundTrip | src/main/java/com/gameengine/example/ReplayScene.java:198-226 | an entity the recorder writes is read back as the object's id, position, render type, size, colour and health, as far as number formatting allows |
| KeyframeRoundTrip.KeyframeTime | src/main/java/com/gameengine/example/ReplayScene.java:191 | the keyframe time reads back as the parser reads its formatted text |
| KeyframeRoundTrip.KeyframeEntityTexts | src/main/java/com/gameengine/example/ReplayScene.java:192-196 | the replayer splits the entity array of a written keyframe back into exactly the written entity texts |
| KeyframeRoundTrip.KeyframeLineRoundTrip | src/main/java/com/gameengine/recording/RecordingService.java:107-186 | a written keyframe line is read back as its time and the recorded information of every recordable object, keyed by id |
| KeyframeRoundTrip.KeyframeIds | src/main/java/com/gameengine/example/ReplayScene.java:227 | the replayed keyframe holds exactly the ids of the recordable objects, in both directions |
| KeyframeRoundTrip.HeaderNotKeyframe | src/main/java/com/gameengine/example/ReplayScene.java:189 | the loader never takes the header line for a keyframe |
| KeyframeRoundTrip.InputNotKeyframe | src/main/java/com/gameengine/example/ReplayScene.java:189 | the loader never takes an input line for a keyframe |
| KeyframeRoundTrip.KeyframeIsKeyframe | src/main/java/com/gameengine/example/ReplayScene.java:189 | the loader takes every written keyframe line as a keyframe |

## Left out

- **Threads and timing.** The writer thread (RecordingService.java:46-63) is not modelled as a thread. `RecordingService.Drain` stands for its loop. The 500 ms `join` on stop (line 77), the 2 ms sleeps and the interleaving of the game thread with the writer are not modelled.
- **The physics thread pool.** In `GameLogic.updatePhysics` (GameLogic.java:24-49, 113-130), only the batch arithmetic and the per-component step are modelled (`GameLogic.BatchesPartition`, `GameLogic.Bounce`). The executor, the futures and their joining are concurrency.
- **File I/O.** These become inputs:
  - opening the writer is a flag (`writerOpens`);
  - reading a recording is `readLines`;
  - listing recordings is the `listed` input of `ReplayScene.Initialize`;
  - writing lines is the written log.
  - `FileRecordingStorage` is not part of this model.
- **Library calls.** `DecimalFormat`, `Double.parseDouble`, `Float.parseFloat`, `Vector2.normalize` and `Random` are parameters, because their code is not part of this model.
  - The round-trip lemmas assume only two things:
    - the formatter writes digits, `-` and `.`;
    - the float parser accepts what the formatter writes.
  - A number that the formatter writes in another form is outside the proof. Examples are the `∞` or `NaN` symbols, and a decimal comma such as `1,5`.
  - `new DecimalFormat()` (RecordingService.java:34) uses the default locale. Under a decimal-comma locale the recorder writes `1,5`, the reader ends the bare value at that comma, so it reads `1` instead of the number written. The hypothesis that the formatter writes only digits, `-` and `.` assumes a locale with a decimal point.
- **Floats.** Floats and doubles are reals, so rounding, the `(float)` casts in `loadRecording` and NaN are not modelled. Distance tests `d < r` are stated exactly as `DistSq < r * r`, without a square root.
- **Reflection.** The four fields `writeKeyframe` reads by reflection (RecordingService.java:112-127) are an optional input, `Scene.globals`. `None` stands for a reflection failure, which the source swallows.
- **Rendering and UI.** All `render`, `renderHealthBars`, `renderBombEffects` and file-list drawing is left out, as are `MenuScene`, `Main` and the engine's scene switching. Going to the menu or restarting is an `Outcome` value.
- **Movement.** In GameScene.java:93-95, `updateEnemies` (enemy velocities towards the player) and the frame's call to `gameLogic.updatePhysics` are left out, and so is the components' own movement in `super.update`. `PhysicsComponent` and `TransformComponent` are not part of this model, so the model does not move positions; positions are the state between frames.
- **Component checks.** GameScene's null checks are not modelled, because each check looks up a component that every object of that kind carries:
  - enemies have transform, render, physics and health (GameScene.java:446-456);
  - fireballs have transform, render and physics (GameScene.java:224-235);
  - bombs have transform, bomb, render and physics (GameScene.java:250-262);
  - the player has transform, physics and health but no render (GameScene.java:435-438), and the scene never asks for the player's render;
  - decorations have only transform and render (GameScene.java:463-470), and the scene never looks them up.

  The records `Player`, `Enemy`, `Fireball` and `BombObject` carry exactly the parts those lookups read, so no skip branch can be taken.
- **GameObject.update.** GameObject.java is not part of this model. The player's update calls `super.update(deltaTime)` and then `updateComponents(deltaTime)` (GameScene.java:412-414). The model assumes `GameObject.update` does not itself run the components, so the player's health timer runs down exactly once per frame. Enemies are never made invincible, so their timers play no part.
- **Object identity.** `GameScene.World` keeps enemies, fireballs and bombs in creation order, with `active` for `destroy()`. Destroyed objects stay in these sequences with `active` false. Their removal from the scene's object list happens in engine code that is not part of this model.
- **Other replay details.** The replay scene's `super.update` and `clear()` affect only rendering objects and are not modelled beyond the proxies. `ReplayScene.SyncObjects` proves that the `HashMap`'s iteration order does not matter.
- KeyframeRoundTrip.KeyframeLineRoundTrip: proved only for objects whose name and uuid hold no `"`, bracket or brace and whose uuid does not end in a backslash, because the recorder escapes nothing and other names produce lines the scanner cannot read back. It also assumes the parser accepts every formatted number (`ParsesNumbers`), and it states equality with the re-read numbers (`Reread`), not with the original floats, because formatting rounds to the configured digits.
- KeyframeRoundTrip.KeyframeIds: the same name hypotheses as KeyframeLineRoundTrip.
- KeyframeRoundTrip.EntityRoundTrip: the same name and number hypotheses, for one entity.
- KeyframeRoundTrip.InputNotKeyframe: proved for a time written as number text (digits, `-` and `.`), the form the round-trip lemmas assume the formatter writes.
- ReplayLoader.Load: the corrected `StripQuotes` never fails, so the model has no exception mid-file. The source's catch-all (ReplayScene.java:234) would stop loading at a lone-quote value and skip the sort.
- `BombComponent.State.DONE` is never entered by the source and has no transition in the model.
- `RecordingConfig.sampleFps` is carried but unused, as in the source.
- `RenderComponent.RenderType` is not part of this model: `Geometry.RenderType` assumes exactly the three constants `RECTANGLE`, `CIRCLE` and `CUSTOM` that the engine code and the recordings use, so `Geometry.TypeOf` would miss any other constant the enum declares.
- RecordingService.StampsOrdered: orders the clock values stamped on the keyframe lines, not their text, because the number formatter is a parameter and is not assumed to be monotone.

## Findings

| source | as written | input that shows it | evidently intended | confidence | as-written member | corrected member |
|---|---|---|---|---|---|---|
| src/main/java/com/gameengine/recording/RecordingJson.java:62-69 | `stripQuotes` takes any trimmed value that starts and ends with `"` as quoted and cuts one character from each end. A lone `"` passes that test, so the cut is `substring(1, 0)`, which throws. | the value text `"`. For example, an entity `{"rt":` + U+0000 + `"}`: U+0000 is not Java whitespace, so `field` takes the bare branch and the trimmed value is `"`. The exception ends `loadRecording` through its catch-all. | a value must have at least two characters to lose a pair of quotes; a lone `"` is kept as it is | not executed | RecordingJson.StripQuotesLoneQuote | RecordingJson.StripQuotes |
| src/main/java/com/gameengine/example/ReplayScene.java:227 | an entity text without `"id"` gets the id `null`, and `kf.entities.put(null, ei)` stores it under the null key. `createVisualFor` (line 239) then calls `ei.id.contains("_")` on it and throws `NullPointerException` in the middle of the replay. | the entity text `{"x":1}` inside a keyframe line | entities without an id are skipped when the keyframe map is built | not executed | ReplayScene.NullIdCrashes | ReplayScene.NullIdSkipped |

=== FILE: bomb.dfy ===
/** `BombComponent`: the bomb's life-cycle state, its target and two
    countdowns. All progress is driven by the game scene. */
module Bomb {
  import opened Geometry

  /** `DONE` is declared, but nothing assigns it. */
  datatype State = Traveling | Arming | Exploding | Done

  datatype Bomb = Bomb(state: State, target: Vec2, armingTimer: real, explosionVfxTimer: real)

  const ArmingTime: real := 1.5
  const ExplosionVfxTime: real := 0.5

  /** `new BombComponent(target)`: travelling towards `target` with both
      countdowns at their initial values. */
  function New(target: Vec2): (b: Bomb)
    ensures b.state == Traveling && b.target == target
    ensures b.armingTimer == ArmingTime && b.explosionVfxTimer == ExplosionVfxTime
  {
    Bomb(Traveling, target, ArmingTime, ExplosionVfxTime)
  }

  /** `update(dt)` leaves the bomb as it is. */
  function Update(b: Bomb, dt: real): (r: Bomb)
    ensures r == b
  {
    b
  }

  /** Position of a state in the life cycle; the scene only ever moves a bomb forward. */
  function Stage(s: State): nat {
    match s
    case Traveling => 0
    case Arming => 1
    case Exploding => 2
    case Done => 3
  }
}

=== FILE: codec_round_trip.dfy ===
/** The round trip between the recorder's writer and the replayer's reader:
    a keyframe line written by `writeKeyframe` is read back by
    `loadRecording`'s scanners as the positions, render data and health the
    recorder saw, up to the number formatting. The argument views a rendered
    line as a sequence of pieces, plain text or quoted text, and shows that a
    quoted key can only be found where it was written as a quoted piece. */
module CodecRoundTrip {
  import opened Wrappers
  import opened JavaString
  import opened RecordingJson
  import opened RecordFormat

  /** A stretch of a rendered line: text written as it is, or text written
      between double quotes (a key or a string value). */
  datatype Piece = Plain(text: string) | Q(text: string)

  function PieceText(p: Piece): string {
    match p
    case Plain(t) => t
    case Q(t) => Quoted(t)
  }

  function Concat(ps: seq<Piece>): string {
    if |ps| == 0 then "" else PieceText(ps[0]) + Concat(ps[1..])
  }

  lemma {:induction false} ConcatAppend(a: seq<Piece>, b: seq<Piece>)
    ensures Concat(a + b) == Concat(a) + Concat(b)
    decreases |a|
  {
    if |a| > 0 {
      assert (a + b)[1..] == a[1..] + b;
      ConcatAppend(a[1..], b);
    } else {
      assert a + b == b;
    }
  }

  /** The pieces of each part, with `sep` between consecutive parts. */
  function JoinPieces(parts: seq<seq<Piece>>, sep: Piece): seq<Piece> {
    if |parts| == 0 then []
    else if |parts| == 1 then parts[0]
    else parts[0] + [sep] + JoinPieces(parts[1..], sep)
  }

  function Concats(parts: seq<seq<Piece>>): (r: seq<string>)
    ensures |r| == |parts| && forall i :: 0 <= i < |parts| ==> r[i] == Concat(parts[i])
  {
    seq(|parts|, i requires 0 <= i < |parts| => Concat(parts[i]))
  }

  /** Joining pieces and then concatenating is joining the concatenated parts. */
  lemma {:induction false} ConcatJoin(parts: seq<seq<Piece>>, sep: Piece)
    ensures Concat(JoinPieces(parts, sep)) == Join(Concats(parts), PieceText(sep))
    decreases |parts|
  {
    if |parts| >= 2 {
      ConcatJoin(parts[1..], sep);
      ConcatAppend(parts[0] + [sep], JoinPieces(parts[1..], sep));
      ConcatAppend(parts[0], [sep]);
      assert Concat([sep]) == PieceText(sep) by { assert [sep][1..] == []; }
      assert Concats(parts)[1..] == Concats(parts[1..]);
    }
  }

  /** The pieces of a rendered value, in writing order. */
  function Flatten(v: Value): seq<Piece>
    decreases v
  {
    match v
    case Bare(t) => [Plain(t)]
    case Str(t) => [Q(t)]
    case Arr(items) =>
      [Plain("[")] + JoinPieces(seq(|items|, i requires 0 <= i < |items| => Flatten(items[i])), Plain(",")) + [Plain("]")]
    case Obj(ms) =>
      [Plain("{")] + JoinPieces(seq(|ms|, i requires 0 <= i < |ms| => MemberPieces(ms[i])), Plain(",")) + [Plain("}")]
  }

  function MemberPieces(m: Member): seq<Piece>
    decreases m
  {
    [Q(m.key), Plain(":")] + Flatten(m.value)
  }

  lemma Concat3(a: Piece, b: seq<Piece>, c: Piece)
    ensures Concat([a] + b + [c]) == PieceText(a) + Concat(b) + PieceText(c)
  {
    ConcatAppend([a] + b, [c]);
    ConcatAppend([a], b);
    assert Concat([a]) == PieceText(a) by { assert [a][1..] == []; }
    assert Concat([c]) == PieceText(c) by { assert [c][1..] == []; }
  }

  /** The pieces spell out exactly the rendered text. */
  lemma {:induction false} ConcatFlatten(v: Value)
    ensures Concat(Flatten(v)) == Render(v)
    decreases v
  {
    match v
    case Bare(t) =>
    case Str(t) =>
    case Arr(items) =>
      var parts := seq(|items|, i requires 0 <= i < |items| => Flatten(items[i]));
      forall i | 0 <= i < |items| ensures Concat(parts[i]) == Render(items[i]) {
        ConcatFlatten(items[i]);
      }
      ConcatJoin(parts, Plain(","));
      assert Concats(parts) == seq(|items|, i requires 0 <= i < |items| => Render(items[i]));
      Concat3(Plain("["), JoinPieces(parts, Plain(",")), Plain("]"));
    case Obj(ms) =>
      var parts := seq(|ms|, i requires 0 <= i < |ms| => MemberPieces(ms[i]));
      forall i | 0 <= i < |ms| ensures Concat(parts[i]) == MemberText(ms[i]) {
        ConcatMember(ms[i]);
      }
      ConcatJoin(parts, Plain(","));
      assert Concats(parts) == seq(|ms|, i requires 0 <= i < |ms| => MemberText(ms[i]));
      Concat3(Plain("{"), JoinPieces(parts, Plain(",")), Plain("}"));
  }

  lemma {:induction false} ConcatMember(m: Member)
    ensures Concat(MemberPieces(m)) == MemberText(m)
    decreases m
  {
    ConcatFlatten(m.value);
    ConcatAppend([Q(m.key), Plain(":")], Flatten(m.value));
    assert Concat([Q(m.key), Plain(":")]) == Quoted(m.key) + ":" by {
      assert [Q(m.key), Plain(":")][1..] == [Plain(":")];
      assert [Plain(":")][1..] == [];
    }
  }

  /** The characters that may follow a closing quote in a rendered line. */
  predicate Punct(c: char) {
    c == ':' || c == ',' || c == ']' || c == '}'
  }

  /** No text holds a quote, and every quoted piece other than the last is
      followed by plain text that starts with punctuation. */
  predicate PiecesOk(ps: seq<Piece>) {
    && (forall i :: 0 <= i < |ps| ==> '"' !in ps[i].text)
    && (forall i :: 0 <= i < |ps| - 1 && ps[i].Q? ==> ps[i + 1].Plain? && |ps[i + 1].text| > 0 && Punct(ps[i + 1].text[0]))
  }

  /** A key that can be searched for: non-empty, no quote, and not starting
      with punctuation. */
  predicate SearchKey(k: string) {
    |k| > 0 && '"' !in k && !Punct(k[0])
  }

  lemma ConcatCons(ps: seq<Piece>)
    requires |ps| > 0
    ensures Concat(ps) == PieceText(ps[0]) + Concat(ps[1..])
  {
  }

  lemma {:induction false} ConcatPrefix(ps: seq<Piece>, j: nat)
    requires 0 < j <= |ps|
    ensures Concat(ps[..j]) == PieceText(ps[0]) + Concat(ps[1..][..j - 1])
  {
    assert ps[..j][1..] == ps[1..][..j - 1];
  }

  /** Every occurrence of a quoted key in the text lies at the start of a
      quoted piece that holds exactly that key. */
  lemma {:induction false} OccursOnlyAtQ(ps: seq<Piece>, k: string, p: int) returns (j: nat)
    requires PiecesOk(ps) && SearchKey(k)
    requires OccursAt(Concat(ps), Quoted(k), p)
    ensures j < |ps| && ps[j] == Q(k) && p == |Concat(ps[..j])|
    decreases |ps|
  {
    var s := Concat(ps);
    var q := Quoted(k);
    var h := PieceText(ps[0]);
    var rest := ps[1..];
    ConcatCons(ps);
    if p >= |h| {
      assert Concat(rest)[p - |h|..p - |h| + |q|] == s[p..p + |q|];
      var j' := OccursOnlyAtQ(rest, k, p - |h|);
      j := j' + 1;
      ConcatPrefix(ps, j);
    } else {
      StartOfFirst(ps, k, p);
      j := 0;
      assert ps[..0] == [];
    }
  }

  /** An occurrence that starts inside the first piece starts at its opening
      quote, and the piece holds exactly the key. */
  lemma StartOfFirst(ps: seq<Piece>, k: string, p: int)
    requires PiecesOk(ps) && SearchKey(k)
    requires OccursAt(Concat(ps), Quoted(k), p) && p < |PieceText(ps[0])|
    ensures p == 0 && ps[0] == Q(k)
  {
    var s := Concat(ps);
    var q := Quoted(k);
    var h := PieceText(ps[0]);
    ConcatCons(ps);
    assert s[p..p + |q|] == q;
    assert s[p] == q[0] == '"';
    var c := h[p];
    var first := ps[0];
    assert s[p] == c;
    assert first.Q? by {
      assert first.Plain? ==> c in first.text;
    }
    var t := ps[0].text;
    assert forall i :: 0 < i < |h| - 1 ==> h[i] == t[i - 1];
    assert p == 0 || p == |h| - 1 by {
      assert 0 < p < |h| - 1 ==> c in t;
    }
    assert s[p + 1] == q[1] == k[0];
    if |ps| > 1 {
      ConcatCons(ps[1..]);
      assert s[|h|] == ps[1].text[0];
    }
    assert p == 0 by {
      assert p == |h| - 1 ==> |ps| > 1;
    }
    assert Quoted(t) <= s;
    QAtStart(s, t, k);
  }

  /** A quoted piece followed by anything holds the quoted key at its start
      only if it holds exactly that key. */
  lemma QAtStart(s: string, t: string, k: string)
    requires '"' !in t && '"' !in k
    requires Quoted(t) <= s && OccursAt(s, Quoted(k), 0)
    ensures t == k
  {
    var q := Quoted(k);
    var h := Quoted(t);
    assert s[..|q|] == q;
    assert s[..|h|] == h;
    assert |k| == |t| by {
      assert forall i :: 0 <= i < |t| ==> s[i + 1] == t[i];
      assert forall i :: 0 <= i < |k| ==> s[i + 1] == k[i];
      assert s[|t| + 1] == '"' && s[|k| + 1] == '"';
    }
    assert s[1..|t| + 1] == t;
    assert s[1..|t| + 1] == q[1..|t| + 1] == k;
  }

  lemma ConcatSingle(x: Piece)
    ensures Concat([x]) == PieceText(x)
  {
    assert [x][1..] == [];
  }

  lemma ConcatSplit(ps: seq<Piece>, j: nat)
    requires j < |ps|
    ensures Concat(ps) == Concat(ps[..j]) + PieceText(ps[j]) + Concat(ps[j + 1..])
  {
    var a, x, b := ps[..j], [ps[j]], ps[j + 1..];
    assert ps == a + x + b;
    ConcatAppend(a + x, b);
    ConcatAppend(a, x);
    ConcatSingle(ps[j]);
  }

  lemma ConcatPrefixGrows(ps: seq<Piece>, j: nat, j': nat)
    requires j <= j' <= |ps|
    ensures |Concat(ps[..j])| <= |Concat(ps[..j'])|
  {
    assert ps[..j'] == ps[..j] + ps[j..j'];
    ConcatAppend(ps[..j], ps[j..j']);
  }

  lemma OccursInQ(ps: seq<Piece>, k: string, p: int)
    requires PiecesOk(ps) && SearchKey(k)
    requires OccursAt(Concat(ps), Quoted(k), p)
    ensures Q(k) in ps
  {
    var j := OccursOnlyAtQ(ps, k, p);
  }

  /** A key never written as a quoted piece is not found at all. */
  lemma AbsentQ(ps: seq<Piece>, k: string)
    requires PiecesOk(ps) && SearchKey(k) && Q(k) !in ps
    ensures forall p :: !OccursAt(Concat(ps), Quoted(k), p)
  {
    forall p ensures !OccursAt(Concat(ps), Quoted(k), p) {
      if OccursAt(Concat(ps), Quoted(k), p) {
        OccursInQ(ps, k, p);
      }
    }
  }

  lemma OccurrenceAfter(ps: seq<Piece>, k: string, j: nat, p: int)
    requires PiecesOk(ps) && SearchKey(k)
    requires j < |ps| && forall i :: 0 <= i < j ==> ps[i] != Q(k)
    requires OccursAt(Concat(ps), Quoted(k), p)
    ensures p >= |Concat(ps[..j])|
  {
    var j' := OccursOnlyAtQ(ps, k, p);
    ConcatPrefixGrows(ps, j, j');
  }

  /** The search for a quoted key finds the first quoted piece that holds it. */
  lemma FirstQ(ps: seq<Piece>, k: string, j: nat)
    requires PiecesOk(ps) && SearchKey(k)
    requires j < |ps| && ps[j] == Q(k) && forall i :: 0 <= i < j ==> ps[i] != Q(k)
    ensures IndexOf(Concat(ps), Quoted(k)) == Some(|Concat(ps[..j])|)
  {
    var s := Concat(ps);
    var i := |Concat(ps[..j])|;
    ConcatSplit(ps, j);
    assert s[i..i + |Quoted(k)|] == Quoted(k);
    forall p | 0 <= p && OccursAt(s, Quoted(k), p) ensures p >= i {
      OccurrenceAfter(ps, k, j, p);
    }
    IndexOfFirstOccurrence(s, Quoted(k), i);
  }

  /** Every quoted piece holds text the value mentions: a key or a string. */
  predicate Mentions(v: Value, t: string)
    decreases v
  {
    match v
    case Bare(_) => false
    case Str(s) => s == t
    case Arr(items) => exists i :: 0 <= i < |items| && Mentions(items[i], t)
    case Obj(ms) => exists i :: 0 <= i < |ms| && MemberMentions(ms[i], t)
  }

  predicate MemberMentions(m: Member, t: string)
    decreases m
  {
    m.key == t || Mentions(m.value, t)
  }

  /** No key, string or bare token holds a double quote. */
  predicate Unquoted(v: Value)
    decreases v
  {
    match v
    case Bare(t) => '"' !in t
    case Str(t) => '"' !in t
    case Arr(items) => forall i :: 0 <= i < |items| ==> Unquoted(items[i])
    case Obj(ms) => forall i :: 0 <= i < |ms| ==> MemberUnquoted(ms[i])
  }

  predicate MemberUnquoted(m: Member)
    decreases m
  {
    '"' !in m.key && Unquoted(m.value)
  }

  lemma {:induction false} InJoin(parts: seq<seq<Piece>>, sep: Piece, x: Piece) returns (i: nat)
    requires x in JoinPieces(parts, sep) && x != sep
    ensures i < |parts| && x in parts[i]
    decreases |parts|
  {
    if |parts| == 1 {
      i := 0;
    } else if x in parts[0] {
      i := 0;
    } else {
      var i' := InJoin(parts[1..], sep, x);
      i := i' + 1;
    }
  }

  /** A quoted piece of a flattened value holds a key or string it mentions. */
  lemma {:induction false} QInFlatten(v: Value, t: string)
    requires Q(t) in Flatten(v)
    ensures Mentions(v, t)
    decreases v
  {
    match v
    case Bare(_) =>
    case Str(_) =>
    case Arr(items) =>
      var parts := seq(|items|, i requires 0 <= i < |items| => Flatten(items[i]));
      var i := InJoin(parts, Plain(","), Q(t));
      QInFlatten(items[i], t);
    case Obj(ms) =>
      var parts := seq(|ms|, i requires 0 <= i < |ms| => MemberPieces(ms[i]));
      var i := InJoin(parts, Plain(","), Q(t));
      QInMember(ms[i], t);
  }

  lemma {:induction false} QInMember(m: Member, t: string)
    requires Q(t) in MemberPieces(m)
    ensures MemberMentions(m, t)
    decreases m
  {
    if Q(t) != Q(m.key) {
      QInFlatten(m.value, t);
    }
  }

  /** Plain text that may follow a quoted piece. */
  predicate PunctStart(ps: seq<Piece>) {
    |ps| > 0 && ps[0].Plain? && |ps[0].text| > 0 && Punct(ps[0].text[0])
  }

  lemma PiecesOkAppend(a: seq<Piece>, b: seq<Piece>)
    requires PiecesOk(a) && PiecesOk(b)
    requires |a| > 0 && a[|a| - 1].Q? && |b| > 0 ==> PunctStart(b)
    ensures PiecesOk(a + b)
  {
    var c := a + b;
    forall i | 0 <= i < |c| - 1 && c[i].Q?
      ensures c[i + 1].Plain? && |c[i + 1].text| > 0 && Punct(c[i + 1].text[0])
    {
      if i == |a| - 1 { assert c[i + 1] == b[0]; }
      else if i < |a| - 1 { assert c[i + 1] == a[i + 1]; }
      else { assert c[i] == b[i - |a|] && c[i + 1] == b[i - |a| + 1]; }
    }
  }

  lemma {:induction false} PiecesOkJoin(parts: seq<seq<Piece>>)
    requires forall i :: 0 <= i < |parts| ==> PiecesOk(parts[i])
    ensures PiecesOk(JoinPieces(parts, Plain(",")))
    decreases |parts|
  {
    if |parts| >= 2 {
      PiecesOkJoin(parts[1..]);
      PiecesOkAppend(parts[0], [Plain(",")]);
      PiecesOkAppend(parts[0] + [Plain(",")], JoinPieces(parts[1..], Plain(",")));
    }
  }

  lemma PiecesOkWrap(o: string, body: seq<Piece>, c: string)
    requires PiecesOk(body) && '"' !in o && |c| > 0 && '"' !in c && Punct(c[0])
    ensures PiecesOk([Plain(o)] + body + [Plain(c)])
  {
    PiecesOkAppend([Plain(o)], body);
    PiecesOkAppend([Plain(o)] + body, [Plain(c)]);
  }

  /** A value with no quote in its texts flattens into well-formed pieces. */
  lemma {:induction false} PiecesOkFlatten(v: Value)
    requires Unquoted(v)
    ensures PiecesOk(Flatten(v))
    decreases v
  {
    match v
    case Bare(_) =>
    case Str(_) =>
    case Arr(items) =>
      var parts := seq(|items|, i requires 0 <= i < |items| => Flatten(items[i]));
      forall i | 0 <= i < |items| ensures PiecesOk(parts[i]) {
        PiecesOkFlatten(items[i]);
      }
      PiecesOkJoin(parts);
      PiecesOkWrap("[", JoinPieces(parts, Plain(",")), "]");
    case Obj(ms) =>
      var parts := seq(|ms|, i requires 0 <= i < |ms| => MemberPieces(ms[i]));
      forall i | 0 <= i < |ms| ensures PiecesOk(parts[i]) {
        PiecesOkMember(ms[i]);
      }
      PiecesOkJoin(parts);
      PiecesOkWrap("{", JoinPieces(parts, Plain(",")), "}");
  }

  lemma {:induction false} PiecesOkMember(m: Member)
    requires MemberUnquoted(m)
    ensures PiecesOk(MemberPieces(m))
    decreases m
  {
    PiecesOkFlatten(m.value);
    PiecesOkAppend([Q(m.key), Plain(":")], Flatten(m.value));
  }

  predicate InSome(parts: seq<seq<Piece>>, x: Piece) {
    exists i :: 0 <= i < |parts| && x in parts[i]
  }

  /** Part `j` of joined pieces, with what comes before and after it. */
  lemma {:induction false} JoinAt(parts: seq<seq<Piece>>, sep: Piece, j: nat) returns (pre: seq<Piece>, post: seq<Piece>)
    requires j < |parts|
    ensures JoinPieces(parts, sep) == pre + parts[j] + post
    ensures forall x :: x in pre && x != sep ==> InSome(parts[..j], x)
    ensures j < |parts| - 1 ==> |post| > 0 && post[0] == sep
    ensures j == |parts| - 1 ==> post == []
    decreases j
  {
    if j == 0 {
      pre := [];
      if |parts| == 1 {
        post := [];
      } else {
        post := [sep] + JoinPieces(parts[1..], sep);
      }
    } else {
      var pre', post' := JoinAt(parts[1..], sep, j - 1);
      pre := parts[0] + [sep] + pre';
      post := post';
      forall x | x in pre && x != sep ensures InSome(parts[..j], x) {
        if x in parts[0] {
          assert parts[..j][0] == parts[0];
        } else {
          assert x in pre';
          var i :| 0 <= i < j - 1 && x in parts[1..][..j - 1][i];
          assert parts[..j][i + 1] == parts[1..][..j - 1][i];
        }
      }
    }
  }

  /** Member `j` of an object's pieces: what precedes it mentions only what
      the earlier members mention, and a `,` or the closing `}` follows it. */
  lemma LocateMember(ms: seq<Member>, j: nat) returns (pre: seq<Piece>, post: seq<Piece>)
    requires j < |ms|
    ensures Flatten(Obj(ms)) == pre + [Q(ms[j].key), Plain(":")] + Flatten(ms[j].value) + post
    ensures forall t :: Q(t) in pre ==> exists i :: 0 <= i < j && MemberMentions(ms[i], t)
    ensures |post| > 0 && (post[0] == Plain(",") || post[0] == Plain("}"))
  {
    var parts := seq(|ms|, i requires 0 <= i < |ms| => MemberPieces(ms[i]));
    var jp, jq := JoinAt(parts, Plain(","), j);
    pre := [Plain("{")] + jp;
    post := jq + [Plain("}")];
    forall t | Q(t) in pre ensures exists i :: 0 <= i < j && MemberMentions(ms[i], t) {
      assert Q(t) in jp;
      var i :| 0 <= i < j && Q(t) in parts[..j][i];
      QInMember(ms[i], t);
    }
  }

  lemma ConcatKeyColon(key: string)
    ensures Concat([Q(key), Plain(":")]) == Quoted(key) + ":"
  {
    var mid := [Q(key), Plain(":")];
    assert mid[1..] == [Plain(":")];
    ConcatSingle(Plain(":"));
  }

  lemma ConcatFour(a: seq<Piece>, b: seq<Piece>, c: seq<Piece>, d: seq<Piece>)
    ensures Concat(a + b + c + d) == Concat(a) + Concat(b) + Concat(c) + Concat(d)
  {
    ConcatAppend(a + b + c, d);
    ConcatAppend(a + b, c);
    ConcatAppend(a, b);
  }

  lemma TextOfMemberPieces(pre: seq<Piece>, key: string, vps: seq<Piece>, post: seq<Piece>)
    ensures Concat(pre + [Q(key), Plain(":")] + vps + post)
            == Concat(pre) + Quoted(key) + ":" + Concat(vps) + Concat(post)
  {
    ConcatFour(pre, [Q(key), Plain(":")], vps, post);
    ConcatKeyColon(key);
  }

  /** In well-formed pieces, a key written as a quoted piece before which it
      is not written is found there, followed by a colon. */
  lemma KeyAtPieces(pre: seq<Piece>, key: string, vps: seq<Piece>, post: seq<Piece>)
    requires PiecesOk(pre + [Q(key), Plain(":")] + vps + post) && SearchKey(key) && Q(key) !in pre
    ensures KeyAt(Concat(pre + [Q(key), Plain(":")] + vps + post), key, |Concat(pre)|)
  {
    var ps := pre + [Q(key), Plain(":")] + vps + post;
    assert ps[|pre|] == Q(key);
    assert ps[..|pre|] == pre;
    FirstQ(ps, key, |pre|);
    TextOfMemberPieces(pre, key, vps, post);
    var json := Concat(ps);
    assert json[|Concat(pre)| + |key| + 2] == ':';
  }

  /** Where a member's value sits in the rendered object, as `field` finds
      it: the key is first written at `i`, a colon follows, then the
      rendered value, then a `,` or `}`. */
  lemma MemberInText(ms: seq<Member>, j: nat) returns (i: nat, rest: string)
    requires j < |ms| && Unquoted(Obj(ms)) && SearchKey(ms[j].key)
    requires forall i :: 0 <= i < j ==> !MemberMentions(ms[i], ms[j].key)
    ensures var json := Render(Obj(ms));
            && KeyAt(json, ms[j].key, i)
            && i + |ms[j].key| + 3 <= |json|
            && json[i + |ms[j].key| + 3..] == Render(ms[j].value) + rest
    ensures |rest| > 0 && (rest[0] == ',' || rest[0] == '}')
  {
    var key, v := ms[j].key, ms[j].value;
    var pre, post := LocateMember(ms, j);
    PiecesOkFlatten(Obj(ms));
    ConcatFlatten(Obj(ms));
    ConcatFlatten(v);
    KeyAtPieces(pre, key, Flatten(v), post);
    TextOfMemberPieces(pre, key, Flatten(v), post);
    i := |Concat(pre)|;
    rest := Concat(post);
    ConcatCons(post);
    AfterKey(Render(Obj(ms)), Concat(pre), key, Render(v), rest);
  }

  lemma AfterKey(json: string, a: string, key: string, v: string, rest: string)
    requires json == a + Quoted(key) + ":" + v + rest
    ensures |a| + |key| + 3 <= |json| && json[|a| + |key| + 3..] == v + rest
  {
  }

  /** The conditions under which `field` reads member `j` of a rendered
      object: texts free of quotes, a searchable key without a colon, and no
      earlier member that mentions the key. */
  predicate Findable(ms: seq<Member>, j: nat) {
    && j < |ms| && Unquoted(Obj(ms)) && SearchKey(ms[j].key) && ':' !in ms[j].key
    && forall i :: 0 <= i < j ==> !MemberMentions(ms[i], ms[j].key)
  }

  /** A bare member reads back as its token. */
  lemma FieldOfBare(ms: seq<Member>, j: nat)
    requires Findable(ms, j) && ms[j].value.Bare? && BareToken(ms[j].value.text)
    ensures Field(Render(Obj(ms)), ms[j].key) == Some(ms[j].value.text)
  {
    var i, rest := MemberInText(ms, j);
    var json, key, v := Render(Obj(ms)), ms[j].key, ms[j].value.text;
    var start := i + |key| + 3;
    assert json[start..start + |v|] == v;
    assert json[start + |v|] == rest[0];
    FieldOfBareMember(json, key, i, v);
  }

  /** A string member reads back as its quoted text. */
  lemma FieldOfStr(ms: seq<Member>, j: nat)
    requires Findable(ms, j) && ms[j].value.Str? && PlainText(ms[j].value.text)
    ensures Field(Render(Obj(ms)), ms[j].key) == Some(Quoted(ms[j].value.text))
  {
    var i, rest := MemberInText(ms, j);
    var json, key, v := Render(Obj(ms)), ms[j].key, ms[j].value.text;
    var start := i + |key| + 3;
    assert json[start..start + |v| + 2] == Quoted(v);
    FieldOfStringMember(json, key, i, v);
  }

  /** Neither a bracket nor a brace. */
  predicate Ungrouped(s: string) {
    '[' !in s && ']' !in s && '{' !in s && '}' !in s
  }

  lemma {:induction false} DepthUngrouped(n: Nesting, s: string)
    requires Ungrouped(s)
    ensures Depth(n, s) == 0
    decreases |s|
  {
    if |s| > 0 {
      assert s[|s| - 1] in s;
      assert s[..|s| - 1] <= s;
      DepthUngrouped(n, s[..|s| - 1]);
    }
  }

  /** A bracket group with nothing nested inside is read whole by the group
      branch of `field`. */
  lemma GroupOfFlat(json: string, start: nat, body: string)
    requires Ungrouped(body)
    requires start + |body| + 2 <= |json| && json[start..start + |body| + 2] == "[" + body + "]"
    ensures json[start] == '[' && GroupAt(json, start) == Some("[" + body + "]")
  {
    var e := start + |body| + 1;
    assert json[start] == '[' && json[e] == ']';
    var g := json[start..start + |body| + 2];
    forall k | start < k <= e ensures Depth(Both, json[start..k]) == 1 {
      assert json[start..k] == g[..k - start];
      assert g[..k - start] == "[" + body[..k - start - 1];
      assert body[..k - start - 1] <= body;
      DepthAppend(Both, "[", body[..k - start - 1]);
      assert Depth(Both, "[") == 1 by { assert "["[..0] == ""; }
      DepthUngrouped(Both, body[..k - start - 1]);
    }
    assert Depth(Both, json[start..e + 1]) == 0 by {
      DepthStep(Both, json, start, e);
    }
    var m := MatchingClose(Both, json, start);
    assert m.Some? by {
      assert !(Depth(Both, json[start..e + 1]) > 0);
    }
    assert m.value == e;
    assert json[start..e + 1] == "[" + body + "]";
  }

  /** An array of bare tokens. */
  predicate FlatItems(items: seq<Value>) {
    forall i :: 0 <= i < |items| ==> items[i].Bare?
  }

  function Texts(items: seq<Value>): (r: seq<string>)
    requires FlatItems(items)
    ensures |r| == |items| && forall i :: 0 <= i < |items| ==> r[i] == items[i].text
  {
    seq(|items|, i requires 0 <= i < |items| => items[i].text)
  }

  lemma RenderFlat(items: seq<Value>)
    requires FlatItems(items)
    ensures Render(Arr(items)) == "[" + Join(Texts(items), ",") + "]"
  {
    assert seq(|items|, i requires 0 <= i < |items| => Render(items[i])) == Texts(items);
  }

  /** An array member of bare tokens without brackets reads back as the
      rendered array. */
  lemma FieldOfFlatArray(ms: seq<Member>, j: nat)
    requires Findable(ms, j) && ms[j].value.Arr? && FlatItems(ms[j].value.items)
    requires forall i :: 0 <= i < |ms[j].value.items| ==> Ungrouped(ms[j].value.items[i].text)
    ensures Field(Render(Obj(ms)), ms[j].key) == Some("[" + Join(Texts(ms[j].value.items), ",") + "]")
  {
    var i, rest := MemberInText(ms, j);
    var json, key, items := Render(Obj(ms)), ms[j].key, ms[j].value.items;
    var body := Join(Texts(items), ",");
    RenderFlat(items);
    var start := i + |key| + 3;
    assert json[start..][..|body| + 2] == "[" + body + "]";
    assert json[start..start + |body| + 2] == json[start..][..|body| + 2];
    NoCharInJoin(Texts(items), ",", '[');
    NoCharInJoin(Texts(items), ",", ']');
    NoCharInJoin(Texts(items), ",", '{');
    NoCharInJoin(Texts(items), ",", '}');
    GroupOfFlat(json, start, body);
    ValueStartAt(json, key, i);
    FieldDispatch(json, key, start);
  }

  /** A key no member mentions is not found: `field` returns `null`. */
  lemma FieldOfAbsent(ms: seq<Member>, k: string)
    requires Unquoted(Obj(ms)) && SearchKey(k)
    requires forall i :: 0 <= i < |ms| ==> !MemberMentions(ms[i], k)
    ensures Field(Render(Obj(ms)), k) == None
  {
    var ps := Flatten(Obj(ms));
    PiecesOkFlatten(Obj(ms));
    ConcatFlatten(Obj(ms));
    assert Q(k) !in ps by {
      assert Q(k) in ps ==> Mentions(Obj(ms), k) by {
        if Q(k) in ps { QInFlatten(Obj(ms), k); }
      }
    }
    AbsentQ(ps, k);
  }

  /** The brackets counted by `n` balance and no prefix closes more than it opens. */
  predicate Balanced(n: Nesting, s: string) {
    && Depth(n, s) == 0
    && forall k :: 0 <= k <= |s| ==> Depth(n, s[..k]) >= 0
  }

  lemma DepthChar(n: Nesting, c: char)
    ensures Depth(n, [c]) == Delta(n, c)
  {
    assert [c][..0] == [];
  }

  lemma BalancedAppend(n: Nesting, a: string, b: string)
    requires Balanced(n, a) && Balanced(n, b)
    ensures Balanced(n, a + b)
  {
    DepthAppend(n, a, b);
    forall k | 0 <= k <= |a + b| ensures Depth(n, (a + b)[..k]) >= 0 {
      if k <= |a| {
        assert (a + b)[..k] == a[..k];
      } else {
        assert (a + b)[..k] == a + b[..k - |a|];
        DepthAppend(n, a, b[..k - |a|]);
      }
    }
  }

  lemma BalancedUngrouped(n: Nesting, s: string)
    requires Ungrouped(s)
    ensures Balanced(n, s)
  {
    forall k | 0 <= k <= |s| ensures Depth(n, s[..k]) == 0 {
      assert s[..k] <= s;
      DepthUngrouped(n, s[..k]);
    }
    assert s[..|s|] == s;
  }

  lemma {:induction false} BalancedJoin(n: Nesting, ps: seq<string>)
    requires forall i :: 0 <= i < |ps| ==> Balanced(n, ps[i])
    ensures Balanced(n, Join(ps, ","))
    decreases |ps|
  {
    if |ps| == 0 {
      BalancedUngrouped(n, "");
    } else if |ps| >= 2 {
      BalancedJoin(n, ps[1..]);
      BalancedUngrouped(n, ",");
      BalancedAppend(n, ps[0], ",");
      BalancedAppend(n, ps[0] + ",", Join(ps[1..], ","));
    }
  }

  /** A body between an opener and its closer, or between two characters
      the nesting does not count. When the opener counts, every proper
      non-empty prefix is open. */
  lemma BalancedWrap(n: Nesting, o: char, body: string, c: char)
    requires Balanced(n, body)
    requires (Opens(n, o) && Closes(n, c)) || (Delta(n, o) == 0 && Delta(n, c) == 0)
    ensures Balanced(n, [o] + body + [c])
    ensures Opens(n, o) ==> forall k :: 0 < k < |body| + 2 ==> Depth(n, ([o] + body + [c])[..k]) > 0
  {
    var s := [o] + body + [c];
    DepthChar(n, o);
    DepthChar(n, c);
    forall k | 0 < k < |s| ensures Depth(n, s[..k]) == Delta(n, o) + Depth(n, body[..k - 1]) {
      assert s[..k] == [o] + body[..k - 1];
      DepthAppend(n, [o], body[..k - 1]);
    }
    DepthAppend(n, [o] + body, [c]);
    DepthAppend(n, [o], body);
    assert s[..0] == [] && s[..|s|] == s;
    assert body[..|body|] == body;
  }

  /** No key, string or bare token holds a bracket or a brace. */
  predicate AllUngrouped(v: Value)
    decreases v
  {
    match v
    case Bare(t) => Ungrouped(t)
    case Str(t) => Ungrouped(t)
    case Arr(items) => forall i :: 0 <= i < |items| ==> AllUngrouped(items[i])
    case Obj(ms) => forall i :: 0 <= i < |ms| ==> MemberUngrouped(ms[i])
  }

  predicate MemberUngrouped(m: Member)
    decreases m
  {
    Ungrouped(m.key) && AllUngrouped(m.value)
  }

  /** Brackets and braces in a rendered value are only the ones the
      renderer writes, so they balance. */
  lemma {:induction false} BalancedRender(n: Nesting, v: Value)
    requires AllUngrouped(v)
    ensures Balanced(n, Render(v))
    decreases v
  {
    match v
    case Bare(t) => BalancedUngrouped(n, t);
    case Str(t) => BalancedUngrouped(n, Quoted(t));
    case Arr(items) =>
      var rs := seq(|items|, i requires 0 <= i < |items| => Render(items[i]));
      forall i | 0 <= i < |items| ensures Balanced(n, rs[i]) {
        BalancedRender(n, items[i]);
      }
      BalancedJoin(n, rs);
      BalancedWrap(n, '[', Join(rs, ","), ']');
    case Obj(ms) =>
      var rs := seq(|ms|, i requires 0 <= i < |ms| => MemberText(ms[i]));
      forall i | 0 <= i < |ms| ensures Balanced(n, rs[i]) {
        BalancedMember(n, ms[i]);
      }
      BalancedJoin(n, rs);
      BalancedWrap(n, '{', Join(rs, ","), '}');
  }

  lemma {:induction false} BalancedMember(n: Nesting, m: Member)
    requires MemberUngrouped(m)
    ensures Balanced(n, MemberText(m))
    decreases m
  {
    BalancedRender(n, m.value);
    BalancedUngrouped(n, Quoted(m.key) + ":");
    BalancedAppend(n, Quoted(m.key) + ":", Render(m.value));
  }

  /** A rendered object is one brace group: `splitTopLevel` keeps it whole. */
  lemma CurlyClosedObj(ms: seq<Member>)
    requires AllUngrouped(Obj(ms))
    ensures CurlyClosed(Render(Obj(ms)))
  {
    var rs := seq(|ms|, i requires 0 <= i < |ms| => MemberText(ms[i]));
    forall i | 0 <= i < |ms| ensures Balanced(Curly, rs[i]) {
      BalancedMember(Curly, ms[i]);
    }
    BalancedJoin(Curly, rs);
    BalancedWrap(Curly, '{', Join(rs, ","), '}');
    var p := Render(Obj(ms));
    assert p == ['{'] + Join(rs, ",") + ['}'];
    assert p[0] == '{';
  }

  predicate UniqueKeys(ms: seq<Member>) {
    forall i, j :: 0 <= i < j < |ms| ==> ms[i].key != ms[j].key
  }

  /** No member value mentions `k` as a key or a string. */
  predicate Silent(ms: seq<Member>, k: string) {
    forall i :: 0 <= i < |ms| ==> !Mentions(ms[i].value, k)
  }

  /** In an object with unique keys whose values never mention `k`, the
      member holding `k` is the one `field` reads. */
  lemma FindableMember(ms: seq<Member>, k: string, v: Value) returns (j: nat)
    requires Unquoted(Obj(ms)) && SearchKey(k) && ':' !in k && UniqueKeys(ms) && Silent(ms, k)
    requires Member(k, v) in ms
    ensures Findable(ms, j) && ms[j] == Member(k, v)
  {
    j :| 0 <= j < |ms| && ms[j] == Member(k, v);
  }

  lemma FieldOfBareIn(ms: seq<Member>, k: string, t: string)
    requires Unquoted(Obj(ms)) && SearchKey(k) && ':' !in k && UniqueKeys(ms) && Silent(ms, k)
    requires Member(k, Bare(t)) in ms && BareToken(t)
    ensures Field(Render(Obj(ms)), k) == Some(t)
  {
    var j := FindableMember(ms, k, Bare(t));
    FieldOfBare(ms, j);
  }

  lemma FieldOfStrIn(ms: seq<Member>, k: string, t: string)
    requires Unquoted(Obj(ms)) && SearchKey(k) && ':' !in k && UniqueKeys(ms) && Silent(ms, k)
    requires Member(k, Str(t)) in ms && PlainText(t)
    ensures Field(Render(Obj(ms)), k) == Some(Quoted(t))
  {
    var j := FindableMember(ms, k, Str(t));
    FieldOfStr(ms, j);
  }

  lemma FieldOfFlatArrayIn(ms: seq<Member>, k: string, items: seq<Value>)
    requires Unquoted(Obj(ms)) && SearchKey(k) && ':' !in k && UniqueKeys(ms) && Silent(ms, k)
    requires Member(k, Arr(items)) in ms && FlatItems(items)
    requires forall i :: 0 <= i < |items| ==> Ungrouped(items[i].text)
    ensures Field(Render(Obj(ms)), k) == Some("[" + Join(Texts(items), ",") + "]")
  {
    var j := FindableMember(ms, k, Arr(items));
    FieldOfFlatArray(ms, j);
  }

  lemma FieldOfUnusedKey(ms: seq<Member>, k: string)
    requires Unquoted(Obj(ms)) && SearchKey(k) && Silent(ms, k) && k !in Keys(ms)
    ensures Field(Render(Obj(ms)), k) == None
  {
    forall i | 0 <= i < |ms| ensures !MemberMentions(ms[i], k) {
      assert Keys(ms)[i] == ms[i].key;
    }
    FieldOfAbsent(ms, k);
  }

  /** The characters the format itself writes around keys and values. */
  predicate Syntax(c: char) {
    c == '{' || c == '}' || c == '[' || c == ']' || c == ',' || c == ':' || c == '"'
  }

  /** `c` occurs in no key, string or token of the value. */
  predicate Avoids(v: Value, c: char)
    decreases v
  {
    match v
    case Bare(t) => c !in t
    case Str(t) => c !in t
    case Arr(items) => forall i :: 0 <= i < |items| ==> Avoids(items[i], c)
    case Obj(ms) => forall i :: 0 <= i < |ms| ==> MemberAvoids(ms[i], c)
  }

  predicate MemberAvoids(m: Member, c: char)
    decreases m
  {
    c !in m.key && Avoids(m.value, c)
  }

  /** A character the format does not write itself and the value does not
      hold is absent from the rendered text. */
  lemma {:induction false} AbsentFromRender(v: Value, c: char)
    requires !Syntax(c) && Avoids(v, c)
    ensures c !in Render(v)
    decreases v
  {
    match v
    case Bare(t) =>
    case Str(t) =>
    case Arr(items) =>
      var rs := seq(|items|, i requires 0 <= i < |items| => Render(items[i]));
      forall i | 0 <= i < |items| ensures c !in rs[i] {
        AbsentFromRender(items[i], c);
      }
      NoCharInJoin(rs, ",", c);
    case Obj(ms) =>
      var rs := seq(|ms|, i requires 0 <= i < |ms| => MemberText(ms[i]));
      forall i | 0 <= i < |ms| ensures c !in rs[i] {
        AbsentFromMember(ms[i], c);
      }
      NoCharInJoin(rs, ",", c);
  }

  lemma {:induction false} AbsentFromMember(m: Member, c: char)
    requires !Syntax(c) && MemberAvoids(m, c)
    ensures c !in MemberText(m)
    decreases m
  {
    AbsentFromRender(m.value, c);
  }

  /** A rendered object starts with `{` and its first member's text. */
  lemma ObjStartsWith(ms: seq<Member>)
    requires |ms| > 0
    ensures var s := Render(Obj(ms));
            var m := MemberText(ms[0]);
            |m| + 1 <= |s| && s[1..|m| + 1] == m
  {
    var rs := seq(|ms|, i requires 0 <= i < |ms| => MemberText(ms[i]));
    JoinStartsWith(rs, ",");
  }

  lemma JoinStartsWith(ps: seq<string>, sep: string)
    requires |ps| > 0
    ensures ps[0] <= Join(ps, sep)
  {
  }
}

=== FILE: entity_factory.dfy ===
/** `EntityFactory`: the visuals the replayer builds for recorded entities,
    and the game objects they stand for (a name, a body to draw, an
    optional transform position and an optional health component). */
module EntityFactory {
  import opened Wrappers
  import opened Geometry
  import Health

  /** `RenderComponent`: shape, size, colour and the visibility flag. */
  datatype Render = Render(kind: RenderType, size: Vec2, color: Color, visible: bool)

  /** How an object is drawn: the hand-drawn player figure, or a render component. */
  datatype Body = PlayerFigure | Shape(render: Render)

  /** A game object as far as the replayer is concerned. `pos` is its
      transform (`None`: no `TransformComponent`), `health` its
      `HealthComponent`, if any. */
  datatype Visual = Visual(name: string, body: Body, pos: Option<Vec2>, health: Option<Health.Health>)

  /** `createPlayerVisual`: the player figure named "Player"; it adds no
      transform and no health component of its own. */
  function CreatePlayerVisual(): (v: Visual)
    ensures v.name == "Player" && v.body == PlayerFigure
    ensures v.pos.None? && v.health.None?
  {
    Visual("Player", PlayerFigure, None, None)
  }

  /** `createRenderableVisual`: a visual named `name` at the origin whose
      render type is the one named by `rt`, or RECTANGLE when `rt` is null or
      names no type; each side is at least 1 and the colour is kept as given. */
  function CreateRenderableVisual(name: string, rt: Option<string>, w: real, h: real, color: Color): (v: Visual)
    ensures v.name == name && v.pos == Some(Vec2(0.0, 0.0)) && v.health.None?
    ensures v.body.Shape? && v.body.render.color == color && v.body.render.visible
    ensures forall t :: rt == Some(TypeName(t)) ==> v.body.render.kind == t
    ensures (forall t :: rt != Some(TypeName(t))) ==> v.body.render.kind == Rectangle
    ensures v.body.render.size.x >= 1.0 && v.body.render.size.y >= 1.0
    ensures w >= 1.0 ==> v.body.render.size.x == w
    ensures h >= 1.0 ==> v.body.render.size.y == h
    ensures w < 1.0 ==> v.body.render.size.x == 1.0
    ensures h < 1.0 ==> v.body.render.size.y == 1.0
  {
    var kind := match TypeOf(rt) case Some(t) => t case None => Rectangle;
    Visual(name, Shape(Render(kind, Vec2(Max(1.0, w), Max(1.0, h)), color, true)), Some(Vec2(0.0, 0.0)), None)
  }

  /** Building a visual from a render's recorded type name, sizes and colour
      gives back that render, made visible, whenever both sides are at least 1. */
  lemma RenderableVisualOfRender(name: string, r: Render)
    requires r.size.x >= 1.0 && r.size.y >= 1.0
    ensures CreateRenderableVisual(name, Some(TypeName(r.kind)), r.size.x, r.size.y, r.color).body
            == Shape(r.(visible := true))
  {
  }
}

=== FILE: game_logic.dfy ===
/** `GameLogic`: keyboard steering of the player, the bounce rule for
    bouncing bodies, and the arithmetic that cuts the physics components
    into batches for the worker pool. */
module GameLogic {
  import opened Wrappers
  import opened Geometry

  /** The part of a game object these rules touch: its transform position
      and its `PhysicsComponent` (velocity and `bounces`), each optional. */
  datatype Body = Body(pos: Option<Vec2>, physics: Option<Physics>)
  datatype Physics = Physics(velocity: Vec2, bounces: bool)

  const KeyW: int := 87
  const KeyS: int := 83
  const KeyA: int := 65
  const KeyD: int := 68
  const KeyUp: int := 38
  const KeyDown: int := 40
  const KeyLeft: int := 37
  const KeyRight: int := 39

  /** One movement axis: -1 for the negative key alone, +1 for the positive
      key alone, 0 for neither or both. */
  function Axis(negative: bool, positive: bool): (d: int)
    ensures -1 <= d <= 1
    ensures d == 0 <==> negative == positive
    ensures d < 0 <==> negative && !positive
  {
    (if positive then 1 else 0) - (if negative then 1 else 0)
  }

  /** The movement vector for the held keys: W/Up and S/Down move along y
      (screen y grows downwards), A/Left and D/Right along x. */
  function Direction(held: set<int>): (d: (int, int))
    ensures -1 <= d.0 <= 1 && -1 <= d.1 <= 1
    ensures d.0 == 0 <==> ((KeyA in held || KeyLeft in held) <==> (KeyD in held || KeyRight in held))
    ensures d.1 == 0 <==> ((KeyW in held || KeyUp in held) <==> (KeyS in held || KeyDown in held))
  {
    (Axis(KeyA in held || KeyLeft in held, KeyD in held || KeyRight in held),
     Axis(KeyW in held || KeyUp in held, KeyS in held || KeyDown in held))
  }

  /** Screen bound of the player: 800 x 600 less its 20-pixel extent. */
  const PlayerMaxX: real := 780.0
  const PlayerMaxY: real := 580.0

  function ClampTo(v: real, hi: real): (r: real)
    requires hi >= 0.0
    ensures 0.0 <= r <= hi
    ensures 0.0 <= v <= hi ==> r == v
    ensures v < 0.0 ==> r == 0.0
    ensures v > hi ==> r == hi
  {
    if v < 0.0 then 0.0 else if v > hi then hi else v
  }

  /** Index of the first object with a transform, as `findGameObjectsByComponent(...).get(0)`. */
  function FirstWithTransform(objs: seq<Body>): (r: Option<nat>)
    ensures r.Some? ==> r.value < |objs| && objs[r.value].pos.Some?
    ensures forall k :: 0 <= k < |objs| && (r.None? || k < r.value) ==> objs[k].pos.None?
  {
    if |objs| == 0 then None
    else if objs[0].pos.Some? then Some(0)
    else match FirstWithTransform(objs[1..])
      case Some(i) => Some(i + 1)
      case None => None
  }

  /** `handlePlayerInput`: the first object with a transform is the player.
      If it also has physics, any held direction sets its velocity to
      `normalize(direction) * 200` and its position is clamped into
      [0,780] x [0,580]; otherwise nothing changes. `normalize` stands for
      `Vector2.normalize`. */
  function HandlePlayerInput(objs: seq<Body>, held: set<int>, normalize: Vec2 -> Vec2): (r: seq<Body>)
    ensures |r| == |objs|
    ensures FirstWithTransform(objs).None? ==> r == objs
    ensures FirstWithTransform(objs).Some? ==>
              var i := FirstWithTransform(objs).value;
              && (forall k :: 0 <= k < |objs| && k != i ==> r[k] == objs[k])
              && (objs[i].physics.None? ==> r[i] == objs[i])
              && (objs[i].physics.Some? ==>
                    && r[i].physics.Some?
                    && r[i].pos == Some(Vec2(ClampTo(objs[i].pos.value.x, PlayerMaxX), ClampTo(objs[i].pos.value.y, PlayerMaxY)))
                    && r[i].physics.value.bounces == objs[i].physics.value.bounces
                    && (Direction(held) == (0, 0) ==> r[i].physics == objs[i].physics)
                    && (Direction(held) != (0, 0) ==>
                          var d := Direction(held);
                          var n := normalize(Vec2(d.0 as real, d.1 as real));
                          r[i].physics.value.velocity == Vec2(n.x * 200.0, n.y * 200.0)))
  {
    match FirstWithTransform(objs)
    case None => objs
    case Some(i) =>
      match objs[i].physics
      case None => objs
      case Some(ph) =>
        var d := Direction(held);
        var ph' := if d != (0, 0) then
                     var n := normalize(Vec2(d.0 as real, d.1 as real));
                     ph.(velocity := Vec2(n.x * 200.0, n.y * 200.0))
                   else ph;
        var p := objs[i].pos.value;
        objs[i := Body(Some(Vec2(ClampTo(p.x, PlayerMaxX), ClampTo(p.y, PlayerMaxY))), Some(ph'))]
  }

  /** Bounce bound: 800 x 600 less 15. */
  const BounceMaxX: real := 785.0
  const BounceMaxY: real := 585.0

  /** `updateSinglePhysics`: a bouncing body with a transform reverses the
      velocity component of each axis on which it touches or passes an
      edge, and is then clamped into [0,785] x [0,585]. Anything else is
      left alone. */
  function Bounce(b: Body): (r: Body)
    ensures b.pos.None? || b.physics.None? || !b.physics.value.bounces ==> r == b
    ensures b.pos.Some? && b.physics.Some? && b.physics.value.bounces ==>
              var p := b.pos.value;
              var v := b.physics.value.velocity;
              && r.pos.Some? && r.physics.Some? && r.physics.value.bounces
              && r.pos.value == Vec2(ClampTo(p.x, BounceMaxX), ClampTo(p.y, BounceMaxY))
              && (0.0 < p.x < BounceMaxX ==> r.physics.value.velocity.x == v.x)
              && (!(0.0 < p.x < BounceMaxX) ==> r.physics.value.velocity.x == -v.x)
              && (0.0 < p.y < BounceMaxY ==> r.physics.value.velocity.y == v.y)
              && (!(0.0 < p.y < BounceMaxY) ==> r.physics.value.velocity.y == -v.y)
  {
    match (b.pos, b.physics)
    case (Some(p), Some(ph)) =>
      if !ph.bounces then b
      else
        var v := ph.velocity;
        var vx := if p.x <= 0.0 || p.x >= BounceMaxX then -v.x else v.x;
        var vy := if p.y <= 0.0 || p.y >= BounceMaxY then -v.y else v.y;
        Body(Some(Vec2(ClampTo(p.x, BounceMaxX), ClampTo(p.y, BounceMaxY))), Some(ph.(velocity := Vec2(vx, vy))))
    case _ => b
  }

  /** Two bounces in a row restore the velocity: a body left on an edge by
      the clamp has its velocity reversed again on the next frame, and the
      clamped position does not move. */
  lemma BounceTwice(b: Body)
    ensures Bounce(Bounce(b)).pos == Bounce(b).pos
    ensures Bounce(Bounce(b)).physics == b.physics
  {
  }

  /** Steering is idempotent: handling the same held keys a second time
      changes nothing more. */
  lemma HandlePlayerInputIdempotent(objs: seq<Body>, held: set<int>, normalize: Vec2 -> Vec2)
    ensures var r := HandlePlayerInput(objs, held, normalize);
            HandlePlayerInput(r, held, normalize) == r
  {
  }

  /** Worker count: one less than the processors, but at least 2. */
  function ThreadCount(processors: int): (t: nat)
    ensures t >= 2 && t >= processors - 1
    ensures t == 2 || t == processors - 1
  {
    if processors - 1 > 2 then processors - 1 else 2
  }

  /** `max(1, n / threads + 1)`: always exceeds `n / threads`. */
  function BatchSize(n: nat, threads: nat): (b: nat)
    requires threads >= 1
    ensures b >= 1 && n < threads * b
  {
    var b := n / threads + 1;
    assert n == threads * (n / threads) + n % threads;
    b
  }

  /** The ranges `[i, min(i + batch, n))` for `i = from, from + batch, ...` below `n`. */
  function Ranges(n: nat, batch: nat, from: nat): (rs: seq<(nat, nat)>)
    requires batch >= 1
    decreases n - from
    ensures forall k :: 0 <= k < |rs| ==> rs[k].0 < rs[k].1 <= n
  {
    if from >= n then [] else [(from, if from + batch < n then from + batch else n)] + Ranges(n, batch, from + batch)
  }

  /** Consecutive ranges that tile `[from, n)`: the first starts at `from`,
      each one starts where the previous ended, the last ends at `n`. */
  predicate Tiles(rs: seq<(nat, nat)>, from: nat, n: nat) {
    && (|rs| == 0 <==> from >= n)
    && (|rs| > 0 ==> rs[0].0 == from && rs[|rs| - 1].1 == n)
    && (forall k :: 0 <= k < |rs| - 1 ==> rs[k].1 == rs[k + 1].0)
    && (forall k :: 0 <= k < |rs| ==> rs[k].0 < rs[k].1)
  }

  lemma {:induction false} RangesTile(n: nat, batch: nat, from: nat)
    requires batch >= 1
    ensures Tiles(Ranges(n, batch, from), from, n)
    ensures from < n ==> |Ranges(n, batch, from)| * batch < n - from + batch
    decreases n - from
  {
    if from < n {
      var c := |Ranges(n, batch, from + batch)|;
      RangesTile(n, batch, from + batch);
      assert |Ranges(n, batch, from)| == 1 + c;
      assert (1 + c) * batch == batch + c * batch;
    }
  }

  /** Every index of a tiled interval lies in exactly one range. */
  lemma {:induction false} TilesExactlyOnce(rs: seq<(nat, nat)>, from: nat, n: nat, j: nat)
    requires Tiles(rs, from, n) && from <= j < n
    ensures exists k :: 0 <= k < |rs| && rs[k].0 <= j < rs[k].1
    ensures forall k1, k2 :: 0 <= k1 < |rs| && 0 <= k2 < |rs| && rs[k1].0 <= j < rs[k1].1 && rs[k2].0 <= j < rs[k2].1 ==> k1 == k2
    decreases |rs|
  {
    if j < rs[0].1 {
      forall k | 0 < k < |rs| ensures rs[k].0 >= rs[0].1 {
        Ascending(rs, from, n, 0, k);
      }
    } else {
      var rest := rs[1..];
      assert Tiles(rest, rs[0].1, n);
      TilesExactlyOnce(rest, rs[0].1, n, j);
      var k :| 0 <= k < |rest| && rest[k].0 <= j < rest[k].1;
      assert rs[k + 1] == rest[k];
      forall k1, k2 | 0 <= k1 < |rs| && 0 <= k2 < |rs| && rs[k1].0 <= j < rs[k1].1 && rs[k2].0 <= j < rs[k2].1
        ensures k1 == k2
      {
        assert k1 > 0 && k2 > 0;
        assert rest[k1 - 1] == rs[k1] && rest[k2 - 1] == rs[k2];
      }
    }
  }

  /** Later ranges start no earlier than earlier ranges end. */
  lemma {:induction false} Ascending(rs: seq<(nat, nat)>, from: nat, n: nat, i: nat, k: nat)
    requires Tiles(rs, from, n) && i < k < |rs|
    ensures rs[i].1 <= rs[k].0
    decreases k - i
  {
    if k > i + 1 {
      Ascending(rs, from, n, i, k - 1);
    }
  }

  /** Index `j` falls in one of the ranges. */
  predicate Covered(rs: seq<(nat, nat)>, j: nat) {
    exists k :: 0 <= k < |rs| && rs[k].0 <= j < rs[k].1
  }

  /** `updatePhysics`' batching: the batch ranges of `n` components cover
      every index exactly once, and there are never more batches than
      worker threads. */
  lemma BatchesPartition(n: nat, processors: int)
    ensures var t := ThreadCount(processors);
            var rs := Ranges(n, BatchSize(n, t), 0);
            && Tiles(rs, 0, n)
            && |rs| <= t
            && forall j :: 0 <= j < n ==> Covered(rs, j)
  {
    var t := ThreadCount(processors);
    var b := BatchSize(n, t);
    var rs := Ranges(n, b, 0);
    RangesTile(n, b, 0);
    assert |rs| * b < n + b <= t * b + b;
    CountBound(|rs|, t, b);
    forall j | 0 <= j < n ensures Covered(rs, j) {
      TilesExactlyOnce(rs, 0, n, j);
    }
  }

  lemma CountBound(c: nat, t: nat, b: nat)
    requires b >= 1 && c * b < t * b + b
    ensures c <= t
  {
    if c > t {
      MulMonotone(t + 1, c, b);
    }
  }

  lemma MulMonotone(x: nat, y: nat, b: nat)
    requires x <= y
    ensures x * b <= y * b
  {
    assert y * b == x * b + (y - x) * b;
  }
}

=== FILE: game_scene.dfy ===
/** `GameScene`: one frame of the game. While the game is over only Space
    (restart) and ESC (menu) do anything; otherwise the clock and the
    cooldowns advance, the player steers and fires, bombs progress,
    fireballs and the player collide with enemies, an enemy may spawn and
    stray fireballs are destroyed. Enemies, fireballs and bombs keep their
    creation order; `destroy()` clears `active`. */
module GameScene {
  import opened Wrappers
  import opened Geometry
  import Health
  import Bomb
  import GameLogic

  datatype Player = Player(pos: Vec2, velocity: Vec2, health: Health.Health)
  datatype Enemy = Enemy(pos: Vec2, health: Health.Health, active: bool)
  datatype Fireball = Fireball(pos: Vec2, velocity: Vec2, active: bool)
  datatype BombObject = BombObject(pos: Vec2, velocity: Vec2, bomb: Bomb.Bomb, active: bool)

  datatype World = World(
    time: real,
    score: int,
    fireballCooldown: real,
    bombCooldown: real,
    gameOver: bool,
    player: Player,
    enemies: seq<Enemy>,
    fireballs: seq<Fireball>,
    bombs: seq<BombObject>)

  /** The keys and mouse buttons pressed this frame, the keys held, and the mouse position. */
  datatype Input = Input(keysJust: set<int>, keysHeld: set<int>, buttonsJust: set<int>, mouse: Vec2)

  /** What the frame leads to: the next world, a fresh game, or the menu. */
  datatype Outcome = Continue(world: World) | Restart | ToMenu

  const KeySpace: int := 32
  const KeyEscape: int := 27
  const LeftButton: int := 1
  const RightButton: int := 3

  const EnemySize: Vec2 := Vec2(20.0, 20.0)
  const FireballSize: Vec2 := Vec2(10.0, 10.0)
  const FireballCooldown: real := 0.6
  const BombCooldown: real := 5.0
  const KillScore: int := 10
  const KillHeal: real := 10.0
  const MaxEnemies: nat := 50

  /** `createPlayer`: at (400, 300) with 100 health. */
  const PlayerStart: Vec2 := Vec2(400.0, 300.0)

  /** `createEnemy`: an active enemy with 50 health at a random position. */
  function NewEnemy(at: Vec2): (e: Enemy)
    ensures e.active && e.pos == at && e.health == Health.New(50.0)
  {
    Enemy(at, Health.New(50.0), true)
  }

  /** `initialize`: clock, score and cooldowns at 0, the player at its start
      and three enemies at the given (random) positions. */
  function Initial(p0: Vec2, p1: Vec2, p2: Vec2): (w: World)
    ensures !w.gameOver && w.score == 0 && |w.enemies| == 3
    ensures w.player.pos == PlayerStart && w.player.health == Health.New(100.0)
    ensures WorldOk(w)
  {
    var w := World(0.0, 0, 0.0, 0.0, false, Player(PlayerStart, Vec2(0.0, 0.0), Health.New(100.0)),
                   [NewEnemy(p0), NewEnemy(p1), NewEnemy(p2)], [], []);
    w
  }

  /** Number of active enemies. */
  function ActiveCount(es: seq<Enemy>): (n: nat)
    ensures n <= |es|
  {
    if |es| == 0 then 0 else ActiveCount(es[..|es| - 1]) + (if es[|es| - 1].active then 1 else 0)
  }

  function Flag(e: Enemy): nat {
    if e.active then 1 else 0
  }

  /** Replacing one enemy changes the count by the difference of the two flags. */
  lemma {:induction false} ActiveCountUpdate(es: seq<Enemy>, j: nat, e: Enemy)
    requires j < |es|
    ensures ActiveCount(es[j := e]) == ActiveCount(es) - Flag(es[j]) + Flag(e)
    decreases |es|
  {
    var es' := es[j := e];
    if j < |es| - 1 {
      assert es'[..|es'| - 1] == es[..|es| - 1][j := e];
      ActiveCountUpdate(es[..|es| - 1], j, e);
    } else {
      assert es'[..|es'| - 1] == es[..|es| - 1];
    }
  }

  lemma ActiveCountAppend(es: seq<Enemy>, e: Enemy)
    ensures ActiveCount(es + [e]) == ActiveCount(es) + Flag(e)
  {
    assert (es + [e])[..|es|] == es;
  }

  /** The state the game keeps throughout: health within bounds, every
      active enemy alive and vulnerable, and a score made of whole kills. */
  predicate WorldOk(w: World) {
    && 0.0 <= w.player.health.current <= w.player.health.max
    && EnemiesOk(w.enemies)
    && w.score >= 0 && w.score % KillScore == 0
  }

  /** Every active enemy is alive and vulnerable. */
  predicate EnemiesOk(es: seq<Enemy>) {
    forall j :: 0 <= j < |es| && es[j].active ==> es[j].health.current > 0.0 && !es[j].health.invincible
  }

  /** The player's heal on a kill: `min(max, current + 10)`. */
  function HealOnKill(h: Health.Health): (r: Health.Health)
    ensures r.current <= h.max && r.max == h.max && r.invincible == h.invincible && r.timer == h.timer
    ensures h.current <= h.max ==> h.current <= r.current
    ensures h.current + KillHeal <= h.max ==> r.current == h.current + KillHeal
    ensures h.current + KillHeal > h.max ==> r.current == h.max
  {
    h.(current := Min(h.max, h.current + KillHeal))
  }

  /** A kill: the enemy is destroyed, the score grows by 10 and the player is healed. */
  function Kill(w: World, j: nat): (r: World)
    requires j < |w.enemies| && w.enemies[j].active
    ensures r.enemies == w.enemies[j := w.enemies[j].(active := false)]
    ensures r.score == w.score + KillScore
    ensures r.player == w.player.(health := HealOnKill(w.player.health))
    ensures r.fireballs == w.fireballs && r.bombs == w.bombs
    ensures ActiveCount(r.enemies) == ActiveCount(w.enemies) - 1
  {
    ActiveCountUpdate(w.enemies, j, w.enemies[j].(active := false));
    w.(enemies := w.enemies[j := w.enemies[j].(active := false)],
       score := w.score + KillScore,
       player := w.player.(health := HealOnKill(w.player.health)))
  }

  /** Steps that touch only the enemies' health and activity, the score and
      the player's health, with every kill paid for by exactly 10 points. */
  predicate Combat(w: World, r: World) {
    && Untouched(w, r)
    && Healed(w.player.health, r.player.health)
    && Harmed(w.enemies, r.enemies)
    && r.score == w.score + KillScore * (ActiveCount(w.enemies) - ActiveCount(r.enemies))
  }

  /** The clock, the cooldowns, the game-over flag and the player's motion are kept. */
  predicate Untouched(w: World, r: World) {
    && r.time == w.time && r.fireballCooldown == w.fireballCooldown && r.bombCooldown == w.bombCooldown
    && r.gameOver == w.gameOver && r.player.pos == w.player.pos && r.player.velocity == w.player.velocity
  }

  /** Only the current health may change, and only upwards within the maximum. */
  predicate Healed(h: Health.Health, h': Health.Health) {
    && h'.max == h.max && h'.invincible == h.invincible && h'.timer == h.timer
    && (h.current <= h.max ==> h.current <= h'.current <= h.max)
  }

  /** The enemies stay where they are; some may lose health or be deactivated. */
  predicate Harmed(es: seq<Enemy>, es': seq<Enemy>) {
    && |es'| == |es|
    && (forall j :: 0 <= j < |es| ==> es'[j].pos == es[j].pos)
    && (forall j :: 0 <= j < |es| && es'[j].active ==> es[j].active)
    && ActiveCount(es') <= ActiveCount(es)
    && (EnemiesOk(es) ==> EnemiesOk(es'))
  }

  lemma CombatKeepsOk(w: World, r: World)
    requires Combat(w, r) && WorldOk(w)
    ensures WorldOk(r)
  {
    var k := ActiveCount(w.enemies) - ActiveCount(r.enemies);
    assert r.score == w.score + KillScore * k;
    assert (w.score + KillScore * k) % KillScore == 0;
  }

  lemma CombatTransitive(a: World, b: World, c: World)
    requires Combat(a, b) && Combat(b, c)
    ensures Combat(a, c)
  {
  }

  // ---------------------------------------------------------------- cooldowns and shooting

  /** A cooldown decreases by the frame time only while it is positive. */
  function CoolDown(c: real, dt: real): (r: real)
    ensures c > 0.0 ==> r == c - dt
    ensures c <= 0.0 ==> r == c
  {
    if c > 0.0 then c - dt else c
  }

  /** The firing gate of `handleShooting` and `handleBombShooting`: it
      fires iff the button went down and the cooldown has run out, and
      firing restarts the cooldown at `reload`. */
  function Gate(cooldown: real, pressed: bool, reload: real): (r: (bool, real))
    ensures r.0 <==> pressed && cooldown <= 0.0
    ensures r.0 ==> r.1 == reload
    ensures !r.0 ==> r.1 == cooldown
  {
    if pressed && cooldown <= 0.0 then (true, reload) else (false, cooldown)
  }

  function Scale(v: Vec2, k: real): Vec2 {
    Vec2(v.x * k, v.y * k)
  }

  function Sub(a: Vec2, b: Vec2): Vec2 {
    Vec2(a.x - b.x, a.y - b.y)
  }

  /** `handleShooting`: a fireball from the player's position towards the mouse at speed 500. */
  function Shoot(w: World, inp: Input, normalize: Vec2 -> Vec2): (r: World)
    ensures var g := Gate(w.fireballCooldown, LeftButton in inp.buttonsJust, FireballCooldown);
            && r.fireballCooldown == g.1
            && (g.0 ==> r.fireballs == w.fireballs + [Fireball(w.player.pos, Scale(normalize(Sub(inp.mouse, w.player.pos)), 500.0), true)])
            && (!g.0 ==> r.fireballs == w.fireballs)
    ensures r == w.(fireballCooldown := r.fireballCooldown, fireballs := r.fireballs)
  {
    var g := Gate(w.fireballCooldown, LeftButton in inp.buttonsJust, FireballCooldown);
    if g.0 then
      var f := Fireball(w.player.pos, Scale(normalize(Sub(inp.mouse, w.player.pos)), 500.0), true);
      w.(fireballCooldown := g.1, fireballs := w.fireballs + [f])
    else w
  }

  /** `handleBombShooting`: a travelling bomb aimed at the mouse, speed 300. */
  function ShootBomb(w: World, inp: Input, normalize: Vec2 -> Vec2): (r: World)
    ensures var g := Gate(w.bombCooldown, RightButton in inp.buttonsJust, BombCooldown);
            && r.bombCooldown == g.1
            && (g.0 ==> |r.bombs| == |w.bombs| + 1 && r.bombs[..|w.bombs|] == w.bombs
                        && r.bombs[|w.bombs|].bomb == Bomb.New(inp.mouse) && r.bombs[|w.bombs|].pos == w.player.pos)
            && (!g.0 ==> r.bombs == w.bombs)
    ensures r == w.(bombCooldown := r.bombCooldown, bombs := r.bombs)
  {
    var g := Gate(w.bombCooldown, RightButton in inp.buttonsJust, BombCooldown);
    if g.0 then
      var b := BombObject(w.player.pos, Scale(normalize(Sub(inp.mouse, w.player.pos)), 300.0), Bomb.New(inp.mouse), true);
      w.(bombCooldown := g.1, bombs := w.bombs + [b])
    else w
  }

  // ---------------------------------------------------------------- bombs

  const ArrivalRadius: real := 10.0
  const InnerRadius: real := 75.0
  const OuterRadius: real := 150.0

  /** Blast damage by distance: 50 inside 75, 20 inside 150, none beyond. */
  function BlastDamage(center: Vec2, at: Vec2): (d: real)
    ensures DistSq(center, at) < InnerRadius * InnerRadius ==> d == 50.0
    ensures InnerRadius * InnerRadius <= DistSq(center, at) < OuterRadius * OuterRadius ==> d == 20.0
    ensures OuterRadius * OuterRadius <= DistSq(center, at) ==> d == 0.0
  {
    var d2 := DistSq(center, at);
    if d2 < InnerRadius * InnerRadius then 50.0
    else if d2 < OuterRadius * OuterRadius then 20.0
    else 0.0
  }

  /** What a blast centred at `center` does to one enemy, taken alone. */
  function Blasted(e: Enemy, center: Vec2): Enemy {
    if !e.active then e
    else
      var h := Health.TakeDamage(e.health, BlastDamage(center, e.pos));
      e.(health := h, active := h.current > 0.0)
  }

  /** The explosion loop over enemies `j..`: each active enemy is damaged by
      its tier and destroyed, for 10 points and a heal, once its health is
      gone. The result is the per-enemy rule applied to every enemy. */
  function BlastFrom(w: World, center: Vec2, j: nat): (r: World)
    requires j <= |w.enemies|
    decreases |w.enemies| - j
    ensures Combat(w, r)
    ensures r.fireballs == w.fireballs && r.bombs == w.bombs
    ensures forall k :: 0 <= k < |w.enemies| ==>
              r.enemies[k] == (if k < j then w.enemies[k] else Blasted(w.enemies[k], center))
  {
    if j == |w.enemies| then w
    else
      var w1 := BlastOne(w, center, j);
      var r := BlastFrom(w1, center, j + 1);
      CombatTransitive(w, w1, r);
      r
  }

  /** The explosion's effect on enemy `j` alone. */
  function BlastOne(w: World, center: Vec2, j: nat): (r: World)
    requires j < |w.enemies|
    ensures Combat(w, r) && r.fireballs == w.fireballs && r.bombs == w.bombs
    ensures r.enemies == w.enemies[j := Blasted(w.enemies[j], center)]
  {
    var e := w.enemies[j];
    var e1 := Blasted(e, center);
    if !e.active then
      CombatStill(w);
      w
    else if e1.active then
      CombatDamage(w, j, e1, w.fireballs);
      w.(enemies := w.enemies[j := e1])
    else
      var w0 := w.(enemies := w.enemies[j := e1.(active := true)]);
      CombatDamage(w, j, e1.(active := true), w.fireballs);
      assert w0.enemies[j := e1] == w.enemies[j := e1];
      Kill(w0, j)
  }

  lemma CombatStill(w: World)
    ensures Combat(w, w)
  {
  }

  /** Damaging active enemy `j` (and replacing the fireballs) is a combat
      step, followed by its kill when the health is gone. */
  lemma CombatDamage(w: World, j: nat, e1: Enemy, fbs: seq<Fireball>)
    requires j < |w.enemies| && w.enemies[j].active
    requires e1.pos == w.enemies[j].pos && e1.active && e1.health.invincible == w.enemies[j].health.invincible
    ensures e1.health.current > 0.0 ==> Combat(w, w.(enemies := w.enemies[j := e1], fireballs := fbs))
    ensures e1.health.current <= 0.0 ==> Combat(w, Kill(w.(enemies := w.enemies[j := e1], fireballs := fbs), j))
  {
    var w1 := w.(enemies := w.enemies[j := e1], fireballs := fbs);
    ActiveCountUpdate(w.enemies, j, e1);
    if e1.health.current <= 0.0 {
      var r := Kill(w1, j);
      assert r.enemies == w.enemies[j := e1.(active := false)];
    }
  }

  /** An arming bomb's frame: the timer counts down and, once it reaches 0,
      the bomb explodes over every enemy. */
  function StepArming(w: World, i: nat, dt: real): (r: World)
    requires i < |w.bombs| && w.bombs[i].bomb.state == Bomb.Arming
    ensures Combat(w, r) && r.fireballs == w.fireballs
    ensures var o := w.bombs[i];
            var t := o.bomb.armingTimer - dt;
            r.bombs == w.bombs[i := o.(bomb := o.bomb.(armingTimer := t,
                                                        state := if t <= 0.0 then Bomb.Exploding else Bomb.Arming))]
    ensures var o := w.bombs[i];
            && (o.bomb.armingTimer - dt <= 0.0 ==>
                  forall k :: 0 <= k < |w.enemies| ==> r.enemies[k] == Blasted(w.enemies[k], o.pos))
            && (o.bomb.armingTimer - dt > 0.0 ==> r.enemies == w.enemies)
  {
    var o := w.bombs[i];
    var b := o.bomb;
    var t := b.armingTimer - dt;
    if t <= 0.0 then
      var w1 := w.(bombs := w.bombs[i := o.(bomb := b.(armingTimer := t, state := Bomb.Exploding))]);
      BlastFrom(w1, o.pos, 0)
    else w.(bombs := w.bombs[i := o.(bomb := b.(armingTimer := t))])
  }

  /** One bomb's frame, `updateBombs`' body: a travelling bomb within 10 of
      its target stops and arms; an arming bomb counts down and, at 0,
      explodes over the enemies; an exploding bomb counts its effect down
      and is destroyed at 0. */
  function StepBomb(w: World, i: nat, dt: real): (r: World)
    requires i < |w.bombs|
    ensures Combat(w, r) && r.fireballs == w.fireballs && |r.bombs| == |w.bombs|
    ensures forall k :: 0 <= k < |w.bombs| && k != i ==> r.bombs[k] == w.bombs[k]
    ensures var b := w.bombs[i].bomb;
            var b' := r.bombs[i].bomb;
            && b'.target == b.target
            && (Bomb.Stage(b'.state) == Bomb.Stage(b.state) || Bomb.Stage(b'.state) == Bomb.Stage(b.state) + 1)
            && (b.state != Bomb.Done ==> b'.state != Bomb.Done)
    ensures var o := w.bombs[i];
            o.bomb.state == Bomb.Traveling ==>
              if DistSq(o.pos, o.bomb.target) < ArrivalRadius * ArrivalRadius
              then r.bombs[i] == o.(velocity := Vec2(0.0, 0.0), bomb := o.bomb.(state := Bomb.Arming)) && r.enemies == w.enemies
              else r == w
    ensures var o := w.bombs[i];
            o.bomb.state == Bomb.Arming ==>
              && r.bombs[i].bomb.armingTimer == o.bomb.armingTimer - dt
              && (r.bombs[i].bomb.state == Bomb.Exploding <==> o.bomb.armingTimer - dt <= 0.0)
              && (o.bomb.armingTimer - dt <= 0.0 ==>
                    forall k :: 0 <= k < |w.enemies| ==> r.enemies[k] == Blasted(w.enemies[k], o.pos))
              && (o.bomb.armingTimer - dt > 0.0 ==> r.enemies == w.enemies)
    ensures var o := w.bombs[i];
            o.bomb.state == Bomb.Exploding ==>
              && r.enemies == w.enemies
              && r.bombs[i].bomb.explosionVfxTimer == o.bomb.explosionVfxTimer - dt
              && r.bombs[i].active == (o.active && o.bomb.explosionVfxTimer - dt > 0.0)
  {
    var o := w.bombs[i];
    var b := o.bomb;
    match b.state
    case Traveling =>
      if DistSq(o.pos, b.target) < ArrivalRadius * ArrivalRadius then
        var bs := w.bombs[i := o.(velocity := Vec2(0.0, 0.0), bomb := b.(state := Bomb.Arming))];
        CombatBombs(w, bs);
        w.(bombs := bs)
      else
        CombatStill(w);
        w
    case Arming => StepArming(w, i, dt)
    case Exploding =>
      var t := b.explosionVfxTimer - dt;
      var bs := w.bombs[i := o.(bomb := b.(explosionVfxTimer := t), active := o.active && !(t <= 0.0))];
      CombatBombs(w, bs);
      w.(bombs := bs)
    case Done =>
      CombatStill(w);
      w
  }

  /** Moving bomb objects alone is a combat step with nobody harmed. */
  lemma CombatBombs(w: World, bs: seq<BombObject>)
    ensures Combat(w, w.(bombs := bs))
  {
  }

  /** `updateBombs`: every bomb object from index `i` on, in order. */
  function UpdateBombs(w: World, dt: real, i: nat): (r: World)
    requires i <= |w.bombs|
    decreases |w.bombs| - i
    ensures Combat(w, r) && r.fireballs == w.fireballs && |r.bombs| == |w.bombs|
    ensures forall k :: 0 <= k < i ==> r.bombs[k] == w.bombs[k]
    ensures forall k :: 0 <= k < |w.bombs| ==>
              r.bombs[k].bomb.target == w.bombs[k].bomb.target
              && (w.bombs[k].bomb.state != Bomb.Done ==> r.bombs[k].bomb.state != Bomb.Done)
              && Bomb.Stage(w.bombs[k].bomb.state) <= Bomb.Stage(r.bombs[k].bomb.state)
  {
    if i == |w.bombs| then w
    else
      var w1 := StepBomb(w, i, dt);
      var r := UpdateBombs(w1, dt, i + 1);
      CombatTransitive(w, w1, r);
      r
  }

  // ---------------------------------------------------------------- collisions

  /** The first active enemy the fireball box at `p` strictly overlaps. */
  function FirstHit(es: seq<Enemy>, p: Vec2): (r: Option<nat>)
    ensures r.Some? ==> r.value < |es| && es[r.value].active && Overlap(p, FireballSize, es[r.value].pos, EnemySize)
    ensures forall k :: 0 <= k < |es| && (r.None? || k < r.value) ==>
              !(es[k].active && Overlap(p, FireballSize, es[k].pos, EnemySize))
  {
    if |es| == 0 then None
    else if es[0].active && Overlap(p, FireballSize, es[0].pos, EnemySize) then Some(0)
    else match FirstHit(es[1..], p)
      case Some(k) => Some(k + 1)
      case None => None
  }

  /** One fireball against the enemies: it hits at most one, the first
      active enemy it overlaps, dealing 30 damage (a kill when the health
      is gone), and is destroyed by the hit. */
  function FireballStep(w: World, f: nat): (r: World)
    requires f < |w.fireballs|
    ensures Combat(w, r) && r.bombs == w.bombs && |r.fireballs| == |w.fireballs|
    ensures forall k :: 0 <= k < |w.fireballs| && k != f ==> r.fireballs[k] == w.fireballs[k]
    ensures var hit := if w.fireballs[f].active then FirstHit(w.enemies, w.fireballs[f].pos) else None;
            && (hit.None? ==> r == w)
            && (hit.Some? ==>
                  && r.fireballs[f] == w.fireballs[f].(active := false)
                  && (forall k :: 0 <= k < |w.enemies| && k != hit.value ==> r.enemies[k] == w.enemies[k])
                  && r.enemies[hit.value].health == Health.TakeDamage(w.enemies[hit.value].health, 30.0)
                  && (r.enemies[hit.value].active <==> r.enemies[hit.value].health.current > 0.0))
  {
    var fb := w.fireballs[f];
    if !fb.active then w
    else match FirstHit(w.enemies, fb.pos)
      case None => w
      case Some(j) => Hit(w, f, j)
  }

  /** Fireball `f` hits enemy `j`: 30 damage, a kill when the health is
      gone, and the fireball destroyed. */
  function Hit(w: World, f: nat, j: nat): (r: World)
    requires f < |w.fireballs| && j < |w.enemies| && w.enemies[j].active
    ensures Combat(w, r) && r.bombs == w.bombs
    ensures r.fireballs == w.fireballs[f := w.fireballs[f].(active := false)]
    ensures forall k :: 0 <= k < |w.enemies| && k != j ==> r.enemies[k] == w.enemies[k]
    ensures r.enemies[j].health == Health.TakeDamage(w.enemies[j].health, 30.0)
    ensures r.enemies[j].active <==> r.enemies[j].health.current > 0.0
  {
    var e := w.enemies[j];
    var h := Health.TakeDamage(e.health, 30.0);
    var w1 := w.(enemies := w.enemies[j := e.(health := h)], fireballs := w.fireballs[f := w.fireballs[f].(active := false)]);
    CombatDamage(w, j, e.(health := h), w.fireballs[f := w.fireballs[f].(active := false)]);
    if h.current <= 0.0 then Kill(w1, j) else w1
  }

  /** The fireball loop of `checkCollisionsAndScore`, fireballs `f..` in order. */
  function FireballsFrom(w: World, f: nat): (r: World)
    requires f <= |w.fireballs|
    decreases |w.fireballs| - f
    ensures Combat(w, r) && r.bombs == w.bombs && |r.fireballs| == |w.fireballs|
    ensures forall k :: 0 <= k < |w.fireballs| ==>
              r.fireballs[k].pos == w.fireballs[k].pos && (r.fireballs[k].active ==> w.fireballs[k].active)
  {
    if f == |w.fireballs| then w
    else
      var w1 := FireballStep(w, f);
      var r := FireballsFrom(w1, f + 1);
      CombatTransitive(w, w1, r);
      r
  }

  /** The player's hit box: 26 x 32 with its corner at (x - 13, y - 22). */
  predicate HitsPlayer(p: Vec2, e: Enemy) {
    e.active && Overlap(Vec2(p.x - 13.0, p.y - 22.0), Vec2(26.0, 32.0), e.pos, EnemySize)
  }

  predicate AnyHitsPlayer(p: Vec2, es: seq<Enemy>, j: nat)
    requires j <= |es|
  {
    exists k :: j <= k < |es| && HitsPlayer(p, es[k])
  }

  /** The player loop over enemies `j..`: the first overlapping enemy deals
      50 damage and makes the player invincible for 2 s; later touches in the
      same loop are blocked by that invincibility and only reset the timer.
      The game is over once the player's health is gone. */
  function PlayerHitsFrom(w: World, j: nat): (r: World)
    requires j <= |w.enemies|
    decreases |w.enemies| - j
    ensures r == w.(player := r.player, gameOver := r.gameOver)
    ensures r.player.pos == w.player.pos && r.player.velocity == w.player.velocity
    ensures !AnyHitsPlayer(w.player.pos, w.enemies, j) ==> r == w
    ensures AnyHitsPlayer(w.player.pos, w.enemies, j) ==>
              && r.player.health == Health.SetInvincible(Health.TakeDamage(w.player.health, 50.0), 2.0)
              && (r.gameOver <==> w.gameOver || r.player.health.current <= 0.0)
  {
    if j == |w.enemies| then w
    else if HitsPlayer(w.player.pos, w.enemies[j]) then
      var h := Health.SetInvincible(Health.TakeDamage(w.player.health, 50.0), 2.0);
      var w1 := w.(player := w.player.(health := h), gameOver := w.gameOver || h.current <= 0.0);
      var r := PlayerHitsFrom(w1, j + 1);
      assert r.player.health == h by {
        if AnyHitsPlayer(w.player.pos, w.enemies, j + 1) {
          Health.InvincibleBlocks(Health.TakeDamage(w.player.health, 50.0), 2.0, 50.0);
        }
      }
      r
    else
      PlayerHitsFrom(w, j + 1)
  }

  /** The player's part of `checkCollisionsAndScore`: however many enemies
      overlap the player in one frame, a vulnerable player takes exactly one
      hit of 50, and an invincible one takes none. */
  function PlayerHits(w: World): (r: World)
    ensures r == w.(player := r.player, gameOver := r.gameOver)
    ensures var hit := !w.player.health.invincible && AnyHitsPlayer(w.player.pos, w.enemies, 0);
            && (!hit ==> r == w)
            && (hit ==> r.player.health == Health.SetInvincible(Health.TakeDamage(w.player.health, 50.0), 2.0)
                        && (r.gameOver <==> w.gameOver || r.player.health.current <= 0.0))
  {
    if w.player.health.invincible then w else PlayerHitsFrom(w, 0)
  }

  /** `checkCollisionsAndScore`. */
  function Collisions(w: World): (r: World)
    ensures r.bombs == w.bombs && |r.fireballs| == |w.fireballs| && |r.enemies| == |w.enemies|
    ensures WorldOk(w) ==> WorldOk(r)
    ensures r.score == w.score + KillScore * (ActiveCount(w.enemies) - ActiveCount(r.enemies))
    ensures ActiveCount(r.enemies) <= ActiveCount(w.enemies)
  {
    var w1 := FireballsFrom(w, 0);
    assert WorldOk(w) ==> WorldOk(PlayerHits(w1)) by {
      if WorldOk(w) {
        CombatKeepsOk(w, w1);
        PlayerHitsKeepOk(w1);
      }
    }
    PlayerHits(w1)
  }

  /** A hit on the player leaves its health between 0 and its maximum and
      changes nothing else `WorldOk` looks at. */
  lemma PlayerHitsKeepOk(w: World)
    requires WorldOk(w)
    ensures WorldOk(PlayerHits(w))
  {
    var r := PlayerHits(w);
    assert r.enemies == w.enemies && r.score == w.score;
  }

  // ---------------------------------------------------------------- spawning and clean-up

  /** The spawn timer: after more than 2 s an enemy is added at `at` when
      fewer than 50 are active, and the timer restarts. */
  function Spawn(w: World, at: Vec2): (r: World)
    ensures w.time <= 2.0 ==> r == w
    ensures w.time > 2.0 ==> r.time == 0.0
    ensures w.time > 2.0 && ActiveCount(w.enemies) < MaxEnemies ==> r.enemies == w.enemies + [NewEnemy(at)]
    ensures ActiveCount(w.enemies) >= MaxEnemies ==> r.enemies == w.enemies
    ensures r == w.(time := r.time, enemies := r.enemies)
  {
    if w.time > 2.0 then
      if ActiveCount(w.enemies) < MaxEnemies then w.(enemies := w.enemies + [NewEnemy(at)], time := 0.0)
      else w.(time := 0.0)
    else w
  }

  predicate Offscreen(p: Vec2) {
    p.x < 0.0 || p.x > 800.0 || p.y < 0.0 || p.y > 600.0
  }

  /** `removeOffscreenObjects`: fireballs outside the 800 x 600 screen are destroyed. */
  function RemoveOffscreen(w: World): (r: World)
    ensures r == w.(fireballs := r.fireballs) && |r.fireballs| == |w.fireballs|
    ensures forall k :: 0 <= k < |w.fireballs| ==>
              r.fireballs[k].active == (w.fireballs[k].active && !Offscreen(w.fireballs[k].pos))
              && r.fireballs[k].pos == w.fireballs[k].pos
  {
    w.(fireballs := seq(|w.fireballs|, k requires 0 <= k < |w.fireballs| =>
         var f := w.fireballs[k]; f.(active := f.active && !Offscreen(f.pos))))
  }

  /** `GameLogic.handlePlayerInput` applied to the player, the scene's
      first object with a transform. */
  function Steer(w: World, held: set<int>, normalize: Vec2 -> Vec2): (r: World)
    ensures r == w.(player := r.player) && r.player.health == w.player.health
    ensures 0.0 <= r.player.pos.x <= GameLogic.PlayerMaxX && 0.0 <= r.player.pos.y <= GameLogic.PlayerMaxY
  {
    var body := GameLogic.Body(Some(w.player.pos), Some(GameLogic.Physics(w.player.velocity, false)));
    var out := GameLogic.HandlePlayerInput([body], held, normalize);
    assert GameLogic.FirstWithTransform([body]) == Some(0);
    var b := out[0];
    w.(player := w.player.(pos := b.pos.value, velocity := b.physics.value.velocity))
  }

  // ---------------------------------------------------------------- the frame

  /** Clock, cooldowns, steering and both kinds of shooting. */
  function Prepare(w: World, inp: Input, dt: real, normalize: Vec2 -> Vec2): (r: World)
    ensures r.enemies == w.enemies && r.score == w.score && r.player.health == w.player.health
    ensures r.fireballCooldown == Gate(CoolDown(w.fireballCooldown, dt), LeftButton in inp.buttonsJust, FireballCooldown).1
    ensures r.bombCooldown == Gate(CoolDown(w.bombCooldown, dt), RightButton in inp.buttonsJust, BombCooldown).1
    ensures WorldOk(w) ==> WorldOk(r)
  {
    var w1 := w.(time := w.time + dt,
                 fireballCooldown := CoolDown(w.fireballCooldown, dt),
                 bombCooldown := CoolDown(w.bombCooldown, dt));
    var w2 := Steer(w1, inp.keysHeld, normalize);
    var w3 := Shoot(w2, inp, normalize);
    ShootBomb(w3, inp, normalize)
  }

  /** Bombs, then collisions. */
  function Fight(w: World, dt: real): (r: World)
    ensures |r.enemies| == |w.enemies|
    ensures r.fireballCooldown == w.fireballCooldown && r.bombCooldown == w.bombCooldown
    ensures r.score == w.score + KillScore * (ActiveCount(w.enemies) - ActiveCount(r.enemies))
    ensures WorldOk(w) ==> WorldOk(r)
  {
    var w1 := UpdateBombs(w, dt, 0);
    assert WorldOk(w) ==> WorldOk(w1) by {
      if WorldOk(w) { CombatKeepsOk(w, w1); }
    }
    var r := Collisions(w1);
    assert r.score == w.score + KillScore * (ActiveCount(w.enemies) - ActiveCount(r.enemies));
    r
  }

  /** Spawning, then clean-up. */
  function Finish(w: World, spawnAt: Vec2): (r: World)
    ensures |w.enemies| <= |r.enemies| && r.enemies[..|w.enemies|] == w.enemies
    ensures r.fireballCooldown == w.fireballCooldown && r.bombCooldown == w.bombCooldown && r.score == w.score
    ensures WorldOk(w) ==> WorldOk(r)
  {
    var w1 := Spawn(w, spawnAt);
    assert WorldOk(w) ==> WorldOk(w1) by {
      if WorldOk(w) && w1.enemies != w.enemies {
        assert w1.enemies == w.enemies + [NewEnemy(spawnAt)];
      }
    }
    RemoveOffscreen(w1)
  }

  /** The play steps of `update(dt)` in the source's order: clock and
      cooldowns, steering, shooting, bombs, collisions, spawning, clean-up.
      Every point scored is a kill among the enemies present at the start. */
  function Play(w: World, inp: Input, dt: real, spawnAt: Vec2, normalize: Vec2 -> Vec2): (r: World)
    ensures r.fireballCooldown == Gate(CoolDown(w.fireballCooldown, dt), LeftButton in inp.buttonsJust, FireballCooldown).1
    ensures r.bombCooldown == Gate(CoolDown(w.bombCooldown, dt), RightButton in inp.buttonsJust, BombCooldown).1
    ensures |w.enemies| <= |r.enemies|
    ensures r.score == w.score + KillScore * (ActiveCount(w.enemies) - ActiveCount(r.enemies[..|w.enemies|]))
    ensures WorldOk(w) ==> WorldOk(r)
  {
    Finish(Fight(Prepare(w, inp, dt, normalize), dt), spawnAt)
  }

  /** `update(dt)`. The player's own update runs its components once, so
      its invincibility timer runs down even while the game is over (taking
      `GameObject.update` not to run them as well). Then:
      game over waits for Space or ESC; ESC leaves for the menu; otherwise
      the play steps run. `spawnAt` stands for the random spawn position and
      `normalize` for `Vector2.normalize`. */
  function Tick(w: World, inp: Input, dt: real, spawnAt: Vec2, normalize: Vec2 -> Vec2): (r: Outcome)
    ensures w.gameOver ==>
              && (KeySpace in inp.keysJust ==> r == Restart)
              && (KeySpace !in inp.keysJust && KeyEscape in inp.keysJust ==> r == ToMenu)
              && (KeySpace !in inp.keysJust && KeyEscape !in inp.keysJust ==>
                    r == Continue(w.(player := w.player.(health := Health.Update(w.player.health, dt)))))
    ensures !w.gameOver && KeyEscape in inp.keysJust ==> r == ToMenu
    ensures !w.gameOver && KeyEscape !in inp.keysJust ==>
              r == Continue(Play(w.(player := w.player.(health := Health.Update(w.player.health, dt))), inp, dt, spawnAt, normalize))
    ensures r.Continue? && WorldOk(w) ==> WorldOk(r.world)
  {
    var w0 := w.(player := w.player.(health := Health.Update(w.player.health, dt)));
    assert WorldOk(w) ==> WorldOk(w0);
    if w.gameOver then
      if KeySpace in inp.keysJust then Restart
      else if KeyEscape in inp.keysJust then ToMenu
      else Continue(w0)
    else if KeyEscape in inp.keysJust then ToMenu
    else Continue(Play(w0, inp, dt, spawnAt, normalize))
  }
}

=== FILE: geometry.dfy ===
/** The value types the engine's components are built from: `Vector2`,
    `RenderComponent.Color` and `RenderComponent.RenderType`, plus the
    linear interpolation, squared distance and strict box overlap the game
    and the replayer compute with them. Floats are modelled as reals. */
module Geometry {
  import opened Wrappers

  datatype Vec2 = Vec2(x: real, y: real)

  datatype Color = Color(r: real, g: real, b: real, a: real)

  /** The render types that appear in the engine and in recordings. */
  datatype RenderType = Rectangle | Circle | Custom

  /** `RenderType.name()`: the constant's name as written in a recording. */
  function TypeName(t: RenderType): string {
    match t
    case Rectangle => "RECTANGLE"
    case Circle => "CIRCLE"
    case Custom => "CUSTOM"
  }

  /** `RenderType.valueOf(s)`: the constant whose name is exactly `s`; `None`
      when `valueOf` throws, i.e. for `null` and for any other text. */
  function TypeOf(s: Option<string>): (r: Option<RenderType>)
    ensures r.Some? ==> s == Some(TypeName(r.value))
    ensures forall t :: s == Some(TypeName(t)) ==> r == Some(t)
    ensures r.None? <==> forall t :: s != Some(TypeName(t))
  {
    match s
    case None => None
    case Some(n) =>
      if n == "RECTANGLE" then Some(Rectangle)
      else if n == "CIRCLE" then Some(Circle)
      else if n == "CUSTOM" then Some(Custom)
      else None
  }

  function Min(a: real, b: real): real {
    if a <= b then a else b
  }

  function Max(a: real, b: real): real {
    if a >= b then a else b
  }

  /** `(1 - u) * a + u * b`: for a factor in [0, 1] the result lies between
      the two end points, and the end factors give the end points. */
  function Lerp(a: real, b: real, u: real): (r: real)
    ensures u == 0.0 ==> r == a
    ensures u == 1.0 ==> r == b
    ensures 0.0 <= u <= 1.0 ==> Min(a, b) <= r <= Max(a, b)
  {
    assert 0.0 <= u <= 1.0 ==> Min(a, b) <= (1.0 - u) * a + u * b <= Max(a, b) by {
      if 0.0 <= u <= 1.0 { LerpBounds(a, b, u); }
    }
    (1.0 - u) * a + u * b
  }

  lemma LerpBounds(a: real, b: real, u: real)
    requires 0.0 <= u <= 1.0
    ensures Min(a, b) <= (1.0 - u) * a + u * b <= Max(a, b)
  {
    var d := u * (b - a);
    assert (1.0 - u) * a + u * b == a + d;
    if a <= b {
      ScaleBetween(u, b - a);
    } else {
      ScaleBetween(u, a - b);
      assert d == -(u * (a - b));
    }
  }

  /** Scaling a non-negative length by a factor in [0, 1] keeps it within [0, length]. */
  lemma ScaleBetween(u: real, d: real)
    requires 0.0 <= u <= 1.0 && d >= 0.0
    ensures 0.0 <= u * d <= d
  {
    assert d - u * d == (1.0 - u) * d;
    assert (1.0 - u) * d >= 0.0;
  }

  function LerpVec(p: Vec2, q: Vec2, u: real): Vec2 {
    Vec2(Lerp(p.x, q.x, u), Lerp(p.y, q.y, u))
  }

  /** Squared Euclidean distance: `p.distance(q) < d` holds exactly when
      `DistSq(p, q) < d * d` for a non-negative `d`, which is how the model
      states the game's radius tests without a square root. */
  function DistSq(p: Vec2, q: Vec2): (r: real)
    ensures r >= 0.0
  {
    (p.x - q.x) * (p.x - q.x) + (p.y - q.y) * (p.y - q.y)
  }

  /** Strict axis-aligned overlap of the box at `p` of size `ps` with the
      box at `q` of size `qs`, as the collision checks write it. */
  predicate Overlap(p: Vec2, ps: Vec2, q: Vec2, qs: Vec2) {
    p.x < q.x + qs.x && p.x + ps.x > q.x && p.y < q.y + qs.y && p.y + ps.y > q.y
  }
}

=== FILE: health.dfy ===
/** `HealthComponent`: current and maximum health, an invincibility flag
    and the timer that ends it. */
module Health {

  datatype Health = Health(current: real, max: real, invincible: bool, timer: real)

  /** `new HealthComponent(max)`: full health, vulnerable, timer at 0. */
  function New(max: real): (h: Health)
    ensures h.current == h.max == max
    ensures !h.invincible && h.timer == 0.0
  {
    Health(max, max, false, 0.0)
  }

  /** `update(dt)`: only an invincible component changes; its timer runs down
      and the flag clears once the timer is no longer positive. */
  function Update(h: Health, dt: real): (r: Health)
    ensures !h.invincible ==> r == h
    ensures h.invincible ==> r.timer == h.timer - dt && (r.invincible <==> r.timer > 0.0)
    ensures r.current == h.current && r.max == h.max
  {
    if h.invincible then
      var t := h.timer - dt;
      h.(timer := t, invincible := !(t <= 0.0))
    else h
  }

  /** `takeDamage(d)`: nothing while invincible; otherwise the damage is
      subtracted and the result clamped at 0. */
  function TakeDamage(h: Health, d: real): (r: Health)
    ensures h.invincible ==> r == h
    ensures !h.invincible ==> r.current >= 0.0
    ensures !h.invincible && r.current > 0.0 ==> r.current == h.current - d
    ensures !h.invincible && r.current == 0.0 ==> h.current - d <= 0.0
    ensures d >= 0.0 && h.current >= 0.0 ==> r.current <= h.current
    ensures r.max == h.max && r.invincible == h.invincible && r.timer == h.timer
  {
    if h.invincible then h
    else
      var c := h.current - d;
      h.(current := if c < 0.0 then 0.0 else c)
  }

  /** `setInvincible(d)`: the flag is set and the timer starts at `d`. */
  function SetInvincible(h: Health, d: real): (r: Health)
    ensures r.invincible && r.timer == d
    ensures r.current == h.current && r.max == h.max
  {
    h.(invincible := true, timer := d)
  }

  /** Two hits on a vulnerable component cost the same as one hit of their sum. */
  lemma DamageAdds(h: Health, a: real, b: real)
    requires !h.invincible && a >= 0.0 && b >= 0.0
    ensures TakeDamage(TakeDamage(h, a), b) == TakeDamage(h, a + b)
  {
  }

  /** Invincibility blocks every hit until it runs out. */
  lemma InvincibleBlocks(h: Health, d: real, x: real)
    ensures TakeDamage(SetInvincible(h, d), x) == SetInvincible(h, d)
  {
  }

  function Sum(dts: seq<real>): real {
    if |dts| == 0 then 0.0 else dts[0] + Sum(dts[1..])
  }

  /** `update` applied once per frame, for the given frame times. */
  function Run(h: Health, dts: seq<real>): Health
    decreases |dts|
  {
    if |dts| == 0 then h else Run(Update(h, dts[0]), dts[1..])
  }

  lemma {:induction false} SumNonNegative(dts: seq<real>)
    requires forall i :: 0 <= i < |dts| ==> dts[i] >= 0.0
    ensures Sum(dts) >= 0.0
    decreases |dts|
  {
    if |dts| > 0 {
      SumNonNegative(dts[1..]);
    }
  }

  /** Once vulnerable, a component stays vulnerable and unchanged however
      many frames pass. */
  lemma {:induction false} RunVulnerable(h: Health, dts: seq<real>)
    requires !h.invincible
    ensures Run(h, dts) == h
    decreases |dts|
  {
    if |dts| > 0 {
      RunVulnerable(Update(h, dts[0]), dts[1..]);
    }
  }

  /** Invincibility lasts exactly as long as the frame times have not used up
      the timer: after at least one frame of non-negative length the
      component is invincible iff it was invincible and the timer exceeds the
      total elapsed time, and its timer then reads the remainder. */
  lemma {:induction false} InvincibilityExpires(h: Health, dts: seq<real>)
    requires |dts| > 0
    requires forall i :: 0 <= i < |dts| ==> dts[i] >= 0.0
    ensures Run(h, dts).invincible <==> h.invincible && h.timer - Sum(dts) > 0.0
    ensures Run(h, dts).invincible ==> Run(h, dts).timer == h.timer - Sum(dts)
    ensures Run(h, dts).current == h.current && Run(h, dts).max == h.max
    decreases |dts|
  {
    var h1 := Update(h, dts[0]);
    var rest := dts[1..];
    assert forall i :: 0 <= i < |rest| ==> rest[i] >= 0.0 by {
      forall i | 0 <= i < |rest| ensures rest[i] >= 0.0 { assert rest[i] == dts[i + 1]; }
    }
    SumNonNegative(rest);
    if !h1.invincible {
      RunVulnerable(h1, rest);
    } else if |rest| == 0 {
      assert Sum(dts) == dts[0] + Sum(rest);
    } else {
      InvincibilityExpires(h1, rest);
    }
  }
}

=== FILE: java_string.dfy ===
/** The few `java.lang.String` and `java.lang.Character` operations the
    recorder and the replayer rely on, written over `seq<char>` with the Java
    semantics spelled out: `trim`, `indexOf`, `lastIndexOf`, `split(",")`,
    `Character.isWhitespace`, and decimal rendering of `int` and `boolean`. */
module JavaString {
  import opened Wrappers

  /** `Character.isWhitespace`: the ASCII separators U+0009..U+000D, U+001C..U+001F
      and space, plus the Unicode space, line and paragraph separators other
      than the non-breaking ones (U+00A0, U+2007, U+202F). */
  predicate IsWhitespace(c: char) {
    || c == ' '
    || ('\t' <= c <= '\r')
    || ('\U{1C}' <= c <= '\U{1F}')
    || c == '\U{1680}'
    || ('\U{2000}' <= c <= '\U{2006}')
    || ('\U{2008}' <= c <= '\U{200A}')
    || c == '\U{2028}' || c == '\U{2029}' || c == '\U{205F}' || c == '\U{3000}'
  }

  /** The characters `String.trim` removes: every code point up to U+0020.
      This is a different set from `IsWhitespace` (it holds U+0000, excludes U+2000). */
  predicate Blank(c: char) {
    c <= ' '
  }

  /** No blank character at either end. */
  predicate Unpadded(s: string) {
    |s| == 0 || (!Blank(s[0]) && !Blank(s[|s| - 1]))
  }

  predicate AllBlank(s: string) {
    forall k :: 0 <= k < |s| ==> Blank(s[k])
  }

  /** Number of leading blank characters. */
  function Lead(s: string): (n: nat)
    ensures n <= |s|
    ensures forall k :: 0 <= k < n ==> Blank(s[k])
    ensures n < |s| ==> !Blank(s[n])
  {
    if |s| == 0 || !Blank(s[0]) then 0 else 1 + Lead(s[1..])
  }

  /** Number of trailing blank characters. */
  function Trail(s: string): (n: nat)
    ensures n <= |s|
    ensures forall k :: |s| - n <= k < |s| ==> Blank(s[k])
    ensures n < |s| ==> !Blank(s[|s| - 1 - n])
  {
    if |s| == 0 || !Blank(s[|s| - 1]) then 0 else 1 + Trail(s[..|s| - 1])
  }

  /** `String.trim`: the slice of `s` between its leading and its trailing blanks. */
  function Trim(s: string): (r: string)
    ensures |r| <= |s|
    ensures Unpadded(r)
    ensures |r| == 0 <==> AllBlank(s)
    ensures Lead(s) + |r| <= |s| && r == s[Lead(s)..Lead(s) + |r|]
    ensures AllBlank(s[Lead(s) + |r|..])
  {
    var t := s[Lead(s)..];
    t[..|t| - Trail(t)]
  }

  /** Trimming strips exactly the blank padding around an unpadded core; with
      empty padding this says that trimming is idempotent. */
  lemma TrimPadded(pre: string, core: string, post: string)
    requires AllBlank(pre) && AllBlank(post) && Unpadded(core)
    ensures Trim(pre + core + post) == core
  {
    var s := pre + core + post;
    if |core| == 0 {
      assert AllBlank(s) by {
        forall k | 0 <= k < |s| ensures Blank(s[k]) {
          if k < |pre| { assert s[k] == pre[k]; } else { assert s[k] == post[k - |pre|]; }
        }
      }
    } else {
      assert s[|pre|] == core[0];
      assert forall k :: 0 <= k < |pre| ==> s[k] == pre[k];
      assert Lead(s) == |pre|;
      var t := s[|pre|..];
      assert t == core + post;
      assert t[|core| - 1] == core[|core| - 1];
      assert forall k :: |core| <= k < |t| ==> t[k] == post[k - |core|];
      assert Trail(t) == |post|;
    }
  }

  lemma TrimUnpadded(s: string)
    requires Unpadded(s)
    ensures Trim(s) == s
  {
    TrimPadded("", s, "");
    assert "" + s + "" == s;
  }

  /** `pat` occurs in `s` starting at index `k`. */
  predicate OccursAt(s: string, pat: string, k: int) {
    0 <= k && k + |pat| <= |s| && s[k..k + |pat|] == pat
  }

  /** `s.indexOf(pat, from)` for a non-negative `from`: the first occurrence at or after `from`. */
  function IndexOfFrom(s: string, pat: string, from: nat): (r: Option<nat>)
    decreases |s| - from
    ensures r.Some? ==> from <= r.value && OccursAt(s, pat, r.value)
    ensures forall k :: from <= k && (r.None? || k < r.value) ==> !OccursAt(s, pat, k)
  {
    if from + |pat| > |s| then None
    else if s[from..from + |pat|] == pat then Some(from)
    else IndexOfFrom(s, pat, from + 1)
  }

  /** `s.indexOf(pat)`: `None` is Java's `-1`. */
  function IndexOf(s: string, pat: string): (r: Option<nat>)
    ensures r.Some? ==> OccursAt(s, pat, r.value)
    ensures forall k :: 0 <= k && (r.None? || k < r.value) ==> !OccursAt(s, pat, k)
  {
    IndexOfFrom(s, pat, 0)
  }

  /** `s.endsWith(suffix)`. */
  predicate EndsWith(s: string, suffix: string) {
    |suffix| <= |s| && s[|s| - |suffix|..] == suffix
  }

  /** `s.contains(pat)`. */
  predicate Contains(s: string, pat: string) {
    IndexOf(s, pat).Some?
  }

  /** `s.indexOf(c, from)` for a non-negative `from`. */
  function IndexOfChar(s: string, c: char, from: nat): (r: Option<nat>)
    decreases |s| - from
    ensures r.Some? ==> from <= r.value < |s| && s[r.value] == c
    ensures forall k :: from <= k < |s| && (r.None? || k < r.value) ==> s[k] != c
  {
    if from >= |s| then None
    else if s[from] == c then Some(from)
    else IndexOfChar(s, c, from + 1)
  }

  /** `s.lastIndexOf(c)`. */
  function LastIndexOfChar(s: string, c: char): (r: Option<nat>)
    ensures r.Some? ==> r.value < |s| && s[r.value] == c
    ensures forall k :: 0 <= k < |s| && (r.None? || r.value < k) ==> s[k] != c
  {
    if |s| == 0 then None
    else if s[|s| - 1] == c then Some(|s| - 1)
    else LastIndexOfChar(s[..|s| - 1], c)
  }

  /** The pieces joined with `sep` between consecutive ones. */
  function Join(ps: seq<string>, sep: string): string {
    if |ps| == 0 then ""
    else if |ps| == 1 then ps[0]
    else ps[0] + sep + Join(ps[1..], sep)
  }

  /** Every piece between occurrences of `c`, empty ones included. */
  function SplitAll(s: string, c: char): (r: seq<string>)
    decreases |s|
    ensures |r| > 0
    ensures forall i :: 0 <= i < |r| ==> c !in r[i]
  {
    match IndexOfChar(s, c, 0)
    case None => [s]
    case Some(i) => [s[..i]] + SplitAll(s[i + 1..], c)
  }

  /** Splitting on `c` and joining with `c` gives back the text. */
  lemma {:induction false} SplitAllJoin(s: string, c: char)
    ensures Join(SplitAll(s, c), [c]) == s
    decreases |s|
  {
    match IndexOfChar(s, c, 0)
    case None =>
    case Some(i) =>
      var rest := SplitAll(s[i + 1..], c);
      SplitAllJoin(s[i + 1..], c);
      assert SplitAll(s, c) == [s[..i]] + rest;
      assert (|rest| > 0);
      assert Join([s[..i]] + rest, [c]) == s[..i] + [c] + Join(rest, [c]) by {
        assert ([s[..i]] + rest)[1..] == rest;
      }
      assert s == s[..i] + [c] + s[i + 1..];
  }

  /** Joining pieces free of `c` with `c` and splitting the result on `c`
      gives back exactly those pieces. */
  lemma {:induction false} JoinSplitAll(ps: seq<string>, c: char)
    requires |ps| > 0 && forall i :: 0 <= i < |ps| ==> c !in ps[i]
    ensures SplitAll(Join(ps, [c]), c) == ps
    decreases |ps|
  {
    var s := Join(ps, [c]);
    if |ps| == 1 {
      assert IndexOfChar(s, c, 0).None?;
    } else {
      assert s == ps[0] + [c] + Join(ps[1..], [c]);
      assert s[|ps[0]|] == c;
      assert forall k :: 0 <= k < |ps[0]| ==> s[k] == ps[0][k];
      assert IndexOfChar(s, c, 0) == Some(|ps[0]|);
      assert s[..|ps[0]|] == ps[0];
      assert s[|ps[0]| + 1..] == Join(ps[1..], [c]);
      JoinSplitAll(ps[1..], c);
      assert ps == [ps[0]] + ps[1..];
    }
  }

  /** A character absent from the pieces and the separator is absent from their join. */
  lemma {:induction false} NoCharInJoin(ps: seq<string>, sep: string, c: char)
    requires c !in sep && forall i :: 0 <= i < |ps| ==> c !in ps[i]
    ensures c !in Join(ps, sep)
    decreases |ps|
  {
    if |ps| > 1 {
      NoCharInJoin(ps[1..], sep, c);
    }
  }

  function DropTrailingEmpty(ps: seq<string>): (r: seq<string>)
    ensures r <= ps
    ensures |r| > 0 ==> r[|r| - 1] != ""
    ensures forall i :: |r| <= i < |ps| ==> ps[i] == ""
  {
    if |ps| > 0 && ps[|ps| - 1] == "" then DropTrailingEmpty(ps[..|ps| - 1]) else ps
  }

  /** Splitting joined pieces gives them back, as long as there is a
      separator to split on and the last piece is not empty. */
  lemma SplitJoin(ps: seq<string>, c: char)
    requires |ps| >= 2 && |ps[|ps| - 1]| > 0
    requires forall i :: 0 <= i < |ps| ==> c !in ps[i]
    ensures Split(Join(ps, [c]), c) == ps
  {
    var s := Join(ps, [c]);
    JoinSplitAll(ps, c);
    assert s == ps[0] + [c] + Join(ps[1..], [c]);
    assert s[|ps[0]|] == c;
  }

  /** `s.split(",")` and its kin for a one-character literal separator: the
      whole text when the separator does not occur, and otherwise every piece
      with the trailing empty ones removed. */
  function Split(s: string, c: char): (r: seq<string>)
    ensures c !in s ==> r == [s]
    ensures c in s ==> r == DropTrailingEmpty(SplitAll(s, c))
    ensures forall i :: 0 <= i < |r| ==> c !in r[i]
  {
    if c in s then DropTrailingEmpty(SplitAll(s, c)) else [s]
  }

  function DigitChar(d: nat): char
    requires d < 10
  {
    "0123456789"[d]
  }

  /** Decimal digits of a natural number, most significant first. */
  function NatToString(n: nat): (r: string)
    ensures |r| > 0
    ensures forall i :: 0 <= i < |r| ==> '0' <= r[i] <= '9'
  {
    if n < 10 then [DigitChar(n)] else NatToString(n / 10) + [DigitChar(n % 10)]
  }

  /** `Integer.toString` (and `StringBuilder.append(int)`). */
  function IntToString(i: int): (r: string)
    ensures |r| > 0
    ensures forall k :: 0 <= k < |r| ==> '0' <= r[k] <= '9' || r[k] == '-'
  {
    if i < 0 then "-" + NatToString(-i) else NatToString(i)
  }

  /** `StringBuilder.append(boolean)`. */
  function BoolToString(b: bool): string {
    if b then "true" else "false"
  }
}

=== FILE: keyframe_round_trip.dfy ===
/** What the replayer reads back from a keyframe line the recorder wrote:
    every recordable object comes back under its id with its position, render
    type, size, colour and health, each number as the number parser reads the
    formatted text, and the keyframe time likewise. The hypotheses say what
    the written text must avoid for the replayer's scanners to work: quotes,
    brackets and braces in names, a trailing backslash in an id, and number
    texts other than digits, `-` and `.`. */
module KeyframeRoundTrip {
  import opened Wrappers
  import opened JavaString
  import opened Geometry
  import opened RecordingJson
  import opened RecordFormat
  import opened CodecRoundTrip
  import opened ReplayLoader
  import RS = RecordingService

  /** What the number formatter writes: digits, a minus sign, a decimal point. */
  predicate NumberText(s: string) {
    |s| > 0 && forall k :: 0 <= k < |s| ==> NumberChar(s[k])
  }

  predicate NumberChar(c: char) {
    '0' <= c <= '9' || c == '-' || c == '.'
  }

  /** The formatter writes plain number text for every value. */
  ghost predicate FormatsNumbers(format: RS.Format, d: nat) {
    forall x :: NumberText(format(d, x))
  }

  /** A bare token that holds nothing the scanners treat specially. */
  predicate Token(s: string) {
    BareToken(s) && Ungrouped(s) && '"' !in s
  }

  lemma NumberToken(s: string)
    requires NumberText(s)
    ensures Token(s) && ',' !in s && ']' !in s && Trim(s) == s
  {
    assert forall c :: c in s ==> NumberChar(c);
    TrimUnpadded(s);
  }

  /** A bare token reads back as what the number parser makes of it. */
  lemma ParseToken(s: string, parse: Parse)
    requires NumberText(s)
    ensures ParseDouble(Some(s), parse) == parse(s).GetOr(0.0)
  {
    NumberToken(s);
  }

  /** Names and ids the recorder can write so that they read back. */
  predicate SafeNames(o: RS.SceneObject) {
    && Ungrouped(o.name) && Ungrouped(o.uuid) && '"' !in o.name && '"' !in o.uuid
    && (|o.uuid| == 0 || o.uuid[|o.uuid| - 1] != '\\')
  }

  /** A key the replayer looks up: no `_`, as ids have, and starting with a
      lower-case letter, as render type names do not. */
  predicate Lookup(k: string) {
    |k| > 0 && 'a' <= k[0] <= 'z' && '_' !in k && '"' !in k && ':' !in k
  }

  lemma EntityIdText(o: RS.SceneObject)
    requires SafeNames(o)
    ensures PlainText(RS.EntityId(o)) && Ungrouped(RS.EntityId(o)) && '_' in RS.EntityId(o)
  {
    var id := RS.EntityId(o);
    assert id[|o.name|] == '_';
    assert |o.uuid| > 0 ==> id[|id| - 1] == o.uuid[|o.uuid| - 1];
  }

  /** A member whose texts hold no quote, bracket or brace, and whose value
      mentions no key the replayer looks up. */
  ghost predicate Tidy(m: Member) {
    && MemberUnquoted(m) && MemberUngrouped(m)
    && forall k :: Lookup(k) ==> !Mentions(m.value, k)
  }

  ghost predicate AllTidy(ms: seq<Member>) {
    forall i :: 0 <= i < |ms| ==> Tidy(ms[i])
  }

  lemma AllTidyAppend(a: seq<Member>, b: seq<Member>)
    requires AllTidy(a) && AllTidy(b)
    ensures AllTidy(a + b)
  {
    forall i | 0 <= i < |a + b| ensures Tidy((a + b)[i]) {
      if i >= |a| { assert (a + b)[i] == b[i - |a|]; }
    }
  }

  lemma AllTidyObj(ms: seq<Member>)
    requires AllTidy(ms)
    ensures Unquoted(Obj(ms)) && AllUngrouped(Obj(ms))
    ensures forall k :: Lookup(k) ==> Silent(ms, k)
  {
  }

  lemma TidyBare(key: string, t: string)
    requires Lookup(key) && Token(t) && Ungrouped(key)
    ensures Tidy(Member(key, Bare(t)))
  {
  }

  lemma NumberMember(key: string, t: string)
    requires Lookup(key) && Ungrouped(key) && NumberText(t)
    ensures Tidy(Member(key, Bare(t)))
  {
    NumberToken(t);
  }

  lemma TidyHead(o: RS.SceneObject, d: nat, format: RS.Format)
    requires SafeNames(o) && o.pos.Some? && FormatsNumbers(format, d)
    ensures AllTidy(RS.EntityHead(o, d, format))
  {
    var ms := RS.EntityHead(o, d, format);
    var id := RS.EntityId(o);
    EntityIdText(o);
    assert Tidy(ms[0]) by {
      forall k | Lookup(k) ensures !Mentions(Str(id), k) {
        assert '_' !in k;
      }
    }
    NumberMember("x", format(d, o.pos.value.x));
    NumberMember("y", format(d, o.pos.value.y));
  }

  lemma TidyLook(render: Option<RS.EntityFactory.Render>, d: nat, format: RS.Format)
    requires FormatsNumbers(format, d)
    ensures AllTidy(RS.LookMembers(render, d, format))
  {
    match render
    case None =>
      TidyCustom();
    case Some(rc) =>
      var pre: seq<Member> := if rc.visible then [] else [Member("v", Bare("0"))];
      var items := [Bare(format(d, rc.color.r)), Bare(format(d, rc.color.g)),
                    Bare(format(d, rc.color.b)), Bare(format(d, rc.color.a))];
      TidyColor(items);
      TidyType(rc.kind);
      NumberMember("w", format(d, rc.size.x));
      NumberMember("h", format(d, rc.size.y));
      TidyHidden(rc.visible, pre);
      AllTidyLook(pre, Member("rt", Str(TypeName(rc.kind))), Member("w", Bare(format(d, rc.size.x))),
                  Member("h", Bare(format(d, rc.size.y))), Member("color", Arr(items)));
  }

  lemma TidyCustom()
    ensures AllTidy([Member("rt", Str("CUSTOM"))])
  {
    TidyCapital("rt", "CUSTOM");
  }

  lemma TidyHidden(visible: bool, pre: seq<Member>)
    requires pre == if visible then [] else [Member("v", Bare("0"))]
    ensures AllTidy(pre)
  {
    NumberMember("v", "0");
  }

  lemma AllTidyLook(pre: seq<Member>, rt: Member, w: Member, h: Member, c: Member)
    requires AllTidy(pre) && Tidy(rt) && Tidy(w) && Tidy(h) && Tidy(c)
    ensures AllTidy(pre + [rt, w, h, c])
  {
  }

  lemma TidyLife(health: Option<RS.Health.Health>, d: nat, format: RS.Format)
    requires FormatsNumbers(format, d)
    ensures AllTidy(RS.LifeMembers(health, d, format))
  {
    match health
    case None =>
    case Some(hc) =>
      var post: seq<Member> := if hc.invincible then [Member("inv", Bare("1"))] else [];
      NumberMember("hp", format(d, hc.current));
      NumberMember("maxHp", format(d, hc.max));
      TidyInvincible(hc.invincible, post);
      AllTidyLife(Member("hp", Bare(format(d, hc.current))), Member("maxHp", Bare(format(d, hc.max))), post);
  }

  lemma TidyInvincible(invincible: bool, post: seq<Member>)
    requires post == if invincible then [Member("inv", Bare("1"))] else []
    ensures AllTidy(post)
  {
    NumberMember("inv", "1");
  }

  lemma AllTidyLife(hp: Member, max: Member, post: seq<Member>)
    requires Tidy(hp) && Tidy(max) && AllTidy(post)
    ensures AllTidy([hp, max] + post)
  {
  }

  lemma TidyColor(items: seq<Value>)
    requires FlatItems(items) && forall i :: 0 <= i < |items| ==> NumberText(items[i].text)
    ensures Tidy(Member("color", Arr(items)))
  {
    forall i | 0 <= i < |items| ensures Unquoted(items[i]) && AllUngrouped(items[i]) {
      NumberToken(items[i].text);
    }
    forall k | Lookup(k) ensures !Mentions(Arr(items), k) {
      assert forall i :: 0 <= i < |items| ==> !Mentions(items[i], k);
    }
  }

  lemma TypeNamePlain(kind: RenderType)
    ensures PlainText(TypeName(kind))
  {
  }

  lemma TidyType(kind: RenderType)
    ensures Tidy(Member("rt", Str(TypeName(kind))))
  {
    var n := TypeName(kind);
    assert 'A' <= n[0] <= 'Z' && Ungrouped(n) && '"' !in n;
    TidyCapital("rt", n);
  }

  /** A string member whose text starts with a capital letter mentions no lookup key. */
  lemma TidyCapital(key: string, s: string)
    requires Lookup(key) && Ungrouped(key) && |s| > 0 && 'A' <= s[0] <= 'Z' && Ungrouped(s) && '"' !in s
    ensures Tidy(Member(key, Str(s)))
  {
  }

  lemma EntityParts(o: RS.SceneObject, d: nat, format: RS.Format)
    requires o.pos.Some?
    ensures RS.EntityMembers(o, d, format)
            == RS.EntityHead(o, d, format) + RS.LookMembers(o.render, d, format) + RS.LifeMembers(o.health, d, format)
  {
  }

  lemma EntityTidy(o: RS.SceneObject, d: nat, format: RS.Format)
    requires SafeNames(o) && o.pos.Some? && FormatsNumbers(format, d)
    ensures AllTidy(RS.EntityMembers(o, d, format))
  {
    var head := RS.EntityHead(o, d, format);
    var look, life := RS.LookMembers(o.render, d, format), RS.LifeMembers(o.health, d, format);
    EntityParts(o, d, format);
    TidyHead(o, d, format);
    TidyLook(o.render, d, format);
    TidyLife(o.health, d, format);
    AllTidyAppend(head, look);
    AllTidyAppend(head + look, life);
  }

  predicate NoDup(s: seq<string>) {
    forall i, j :: 0 <= i < j < |s| ==> s[i] != s[j]
  }

  lemma NoDupAppend(a: seq<string>, b: seq<string>)
    requires NoDup(a) && NoDup(b) && forall x :: x in a ==> x !in b
    ensures NoDup(a + b)
  {
    forall i, j | 0 <= i < j < |a + b| ensures (a + b)[i] != (a + b)[j] {
      if j >= |a| && i < |a| {
        assert (a + b)[i] in a && (a + b)[j] in b;
      } else if i >= |a| {
        assert (a + b)[i] == b[i - |a|] && (a + b)[j] == b[j - |a|];
      }
    }
  }

  lemma EntityKeysNoDup(o: RS.SceneObject, d: nat, format: RS.Format)
    requires o.pos.Some?
    ensures UniqueKeys(RS.EntityMembers(o, d, format))
  {
    var ms := RS.EntityMembers(o, d, format);
    var look, life := RS.LookKeys(o.render), RS.LifeKeys(o.health);
    var head := ["id", "x", "y"];
    LookKeysApart(o.render);
    LifeKeysApart(o.health);
    NoDupAppend(head, look);
    NoDupAppend(head + look, life);
    forall i, j | 0 <= i < j < |ms| ensures ms[i].key != ms[j].key {
      assert Keys(ms)[i] == ms[i].key && Keys(ms)[j] == ms[j].key;
    }
  }

  /** The render keys are distinct and none of them is `id`, `x`, `y` or a health key. */
  lemma LookKeysApart(render: Option<RS.EntityFactory.Render>)
    ensures var look := RS.LookKeys(render);
            && NoDup(look)
            && forall x :: x in look ==> x !in ["id", "x", "y"] && x !in ["hp", "maxHp", "inv"]
  {
  }

  /** The health keys are distinct and none of them is `id`, `x` or `y`. */
  lemma LifeKeysApart(health: Option<RS.Health.Health>)
    ensures var life := RS.LifeKeys(health);
            && NoDup(life)
            && forall x :: x in life ==> x !in ["id", "x", "y"] && x !in ["v", "rt", "w", "h", "color"]
  {
  }

  /** Everything `field` needs to read an entity's members back. */
  lemma EntityShape(o: RS.SceneObject, d: nat, format: RS.Format)
    requires SafeNames(o) && o.pos.Some? && FormatsNumbers(format, d)
    ensures var ms := RS.EntityMembers(o, d, format);
            && Unquoted(Obj(ms)) && AllUngrouped(Obj(ms)) && UniqueKeys(ms)
            && (forall k :: Lookup(k) ==> Silent(ms, k))
            && ms == ms[..3] + RS.LookMembers(o.render, d, format) + RS.LifeMembers(o.health, d, format)
  {
    EntityTidy(o, d, format);
    AllTidyObj(RS.EntityMembers(o, d, format));
    EntityKeysNoDup(o, d, format);
  }

  /** The number the replayer reads from the formatted text of `x`. */
  function Reread(format: RS.Format, d: nat, parse: Parse, x: real): real {
    parse(format(d, x)).GetOr(0.0)
  }

  /** The parser accepts every formatted number. */
  ghost predicate ParsesNumbers(parse: Parse, format: RS.Format, d: nat) {
    forall x :: parse(format(d, x)).Some?
  }

  /** What the replayer should hold for a recorded object: its id, its
      position, the name of its render type (`CUSTOM` without a render
      component), its size and colour (0 and white without one), and its
      health (-1 without a health component), numbers as re-read. */
  function Recorded(o: RS.SceneObject, d: nat, format: RS.Format, parseD: Parse, parseF: Parse): EntityInfo
    requires o.pos.Some?
  {
    var p := o.pos.value;
    EntityInfo(
      Some(RS.EntityId(o)),
      Vec2(Reread(format, d, parseD, p.x), Reread(format, d, parseD, p.y)),
      Some(if o.render.Some? then TypeName(o.render.value.kind) else "CUSTOM"),
      if o.render.Some? then Reread(format, d, parseD, o.render.value.size.x) else 0.0,
      if o.render.Some? then Reread(format, d, parseD, o.render.value.size.y) else 0.0,
      if o.render.Some? then RereadColor(format, d, parseF, o.render.value.color) else White,
      if o.health.Some? then Reread(format, d, parseD, o.health.value.current) else -1.0,
      if o.health.Some? then Reread(format, d, parseD, o.health.value.max) else -1.0)
  }

  function RereadColor(format: RS.Format, d: nat, parse: Parse, c: Color): Color {
    Color(parse(format(d, c.r)).GetOr(1.0), parse(format(d, c.g)).GetOr(1.0),
          parse(format(d, c.b)).GetOr(1.0), parse(format(d, c.a)).GetOr(1.0))
  }

  function EntityText(o: RS.SceneObject, d: nat, format: RS.Format): string
    requires o.pos.Some?
  {
    Render(Obj(RS.EntityMembers(o, d, format)))
  }

  /** An object whose members `field` can read by key. */
  ghost predicate Readable(ms: seq<Member>, k: string) {
    Unquoted(Obj(ms)) && UniqueKeys(ms) && Lookup(k) && Silent(ms, k)
  }

  lemma ReadsNumber(ms: seq<Member>, k: string, t: string, parse: Parse)
    requires Readable(ms, k) && Member(k, Bare(t)) in ms && NumberText(t)
    ensures ParseDouble(Field(Render(Obj(ms)), k), parse) == parse(t).GetOr(0.0)
  {
    NumberToken(t);
    FieldOfBareIn(ms, k, t);
    ParseToken(t, parse);
  }

  lemma ReadsString(ms: seq<Member>, k: string, t: string)
    requires Readable(ms, k) && Member(k, Str(t)) in ms && PlainText(t)
    ensures StripQuotes(Field(Render(Obj(ms)), k)) == Some(t)
  {
    FieldOfStrIn(ms, k, t);
    StripQuotesOfQuoted(t);
  }

  lemma ReadsHead(o: RS.SceneObject, d: nat, format: RS.Format, parseD: Parse)
    requires SafeNames(o) && o.pos.Some? && FormatsNumbers(format, d)
    ensures var p := EntityText(o, d, format);
            && StripQuotes(Field(p, "id")) == Some(RS.EntityId(o))
            && ParseDouble(Field(p, "x"), parseD) == Reread(format, d, parseD, o.pos.value.x)
            && ParseDouble(Field(p, "y"), parseD) == Reread(format, d, parseD, o.pos.value.y)
  {
    var ms := RS.EntityMembers(o, d, format);
    EntityShape(o, d, format);
    EntityIdText(o);
    assert ms[0] in ms && ms[1] in ms && ms[2] in ms;
    ReadsString(ms, "id", RS.EntityId(o));
    ReadsNumber(ms, "x", format(d, o.pos.value.x), parseD);
    ReadsNumber(ms, "y", format(d, o.pos.value.y), parseD);
  }

  lemma ReadsAbsent(ms: seq<Member>, k: string, parse: Parse)
    requires Readable(ms, k) && k !in Keys(ms)
    ensures Field(Render(Obj(ms)), k) == None && ParseDouble(Field(Render(Obj(ms)), k), parse) == 0.0
  {
    FieldOfUnusedKey(ms, k);
  }

  /** Reading the colour array back gives each channel as re-read. */
  lemma ReadsColor(ms: seq<Member>, c: Color, d: nat, format: RS.Format, parse: Parse)
    requires FormatsNumbers(format, d) && ParsesNumbers(parse, format, d)
    requires Readable(ms, "color")
    requires Member("color", Arr([Bare(format(d, c.r)), Bare(format(d, c.g)),
                                  Bare(format(d, c.b)), Bare(format(d, c.a))])) in ms
    ensures ParseColor(Field(Render(Obj(ms)), "color"), parse) == RereadColor(format, d, parse, c)
  {
    var items := [Bare(format(d, c.r)), Bare(format(d, c.g)), Bare(format(d, c.b)), Bare(format(d, c.a))];
    var texts := [format(d, c.r), format(d, c.g), format(d, c.b), format(d, c.a)];
    assert Texts(items) == texts;
    ChannelTexts(texts, parse);
    FieldOfFlatArrayIn(ms, "color", items);
  }

  /** Four numbers written as an array read back as the colour of their parsed values. */
  lemma ChannelTexts(texts: seq<string>, parse: Parse)
    requires |texts| == 4 && forall i :: 0 <= i < 4 ==> NumberText(texts[i]) && parse(texts[i]).Some?
    ensures forall i :: 0 <= i < 4 ==> Ungrouped(texts[i])
    ensures ParseColor(Some("[" + Join(texts, ",") + "]"), parse)
            == Color(parse(texts[0]).value, parse(texts[1]).value, parse(texts[2]).value, parse(texts[3]).value)
  {
    forall i | 0 <= i < 4 ensures Token(texts[i]) && ',' !in texts[i] && ']' !in texts[i] && Trim(texts[i]) == texts[i] {
      NumberToken(texts[i]);
    }
    ColorOfTexts(texts, parse);
  }

  lemma LookupKeys()
    ensures Lookup("id") && Lookup("x") && Lookup("y") && Lookup("rt") && Lookup("w") && Lookup("h")
    ensures Lookup("color") && Lookup("hp") && Lookup("maxHp") && Lookup("t") && Lookup("entities")
  {
  }

  lemma EntityReadable(o: RS.SceneObject, d: nat, format: RS.Format, k: string)
    requires SafeNames(o) && o.pos.Some? && FormatsNumbers(format, d) && Lookup(k)
    ensures Readable(RS.EntityMembers(o, d, format), k)
  {
    EntityShape(o, d, format);
  }

  /** The render members, when there is a render component. */
  lemma LookIn(o: RS.SceneObject, d: nat, format: RS.Format)
    requires o.pos.Some? && o.render.Some?
    ensures var ms := RS.EntityMembers(o, d, format);
            var rc := o.render.value;
            && Member("rt", Str(TypeName(rc.kind))) in ms
            && Member("w", Bare(format(d, rc.size.x))) in ms
            && Member("h", Bare(format(d, rc.size.y))) in ms
            && Member("color", Arr([Bare(format(d, rc.color.r)), Bare(format(d, rc.color.g)),
                                    Bare(format(d, rc.color.b)), Bare(format(d, rc.color.a))])) in ms
  {
    var ms := RS.EntityMembers(o, d, format);
    var look := RS.LookMembers(o.render, d, format);
    assert ms == ms[..3] + look + RS.LifeMembers(o.health, d, format);
    assert forall m :: m in look ==> m in ms;
  }

  /** The health members, when there is a health component. */
  lemma LifeIn(o: RS.SceneObject, d: nat, format: RS.Format)
    requires o.pos.Some? && o.health.Some?
    ensures var ms := RS.EntityMembers(o, d, format);
            var hc := o.health.value;
            && Member("hp", Bare(format(d, hc.current))) in ms
            && Member("maxHp", Bare(format(d, hc.max))) in ms
  {
    var ms := RS.EntityMembers(o, d, format);
    var life := RS.LifeMembers(o.health, d, format);
    assert ms == ms[..3] + RS.LookMembers(o.render, d, format) + life;
    assert life[0] in ms && life[1] in ms;
  }

  lemma LookKeysAbsent(health: Option<RS.Health.Health>)
    ensures var ks := ["id", "x", "y"] + RS.LookKeys(None) + RS.LifeKeys(health);
            "w" !in ks && "h" !in ks && "color" !in ks
  {
    var ks := ["id", "x", "y"] + RS.LookKeys(None) + RS.LifeKeys(health);
    assert ks == ["id", "x", "y", "rt"] + RS.LifeKeys(health);
    forall i | 0 <= i < |ks| ensures ks[i] != "w" && ks[i] != "h" && ks[i] != "color" {
      assert |ks[i]| != 1 || ks[i][0] == 'x' || ks[i][0] == 'y';
    }
  }

  lemma HpAbsent(render: Option<RS.EntityFactory.Render>)
    ensures "hp" !in ["id", "x", "y"] + RS.LookKeys(render) + RS.LifeKeys(None)
  {
    var ks := ["id", "x", "y"] + RS.LookKeys(render) + RS.LifeKeys(None);
    forall i | 0 <= i < |ks| ensures ks[i] != "hp" {
      assert ks[i] in {"id", "x", "y", "v", "rt", "w", "h", "color"};
    }
  }

  lemma ReadsLookAbsent(o: RS.SceneObject, d: nat, format: RS.Format, parseD: Parse, parseF: Parse)
    requires SafeNames(o) && o.pos.Some? && o.render.None? && FormatsNumbers(format, d)
    ensures var p := EntityText(o, d, format);
            && StripQuotes(Field(p, "rt")) == Some("CUSTOM")
            && ParseDouble(Field(p, "w"), parseD) == 0.0
            && ParseDouble(Field(p, "h"), parseD) == 0.0
            && ParseColor(Field(p, "color"), parseF) == White
  {
    var ms := RS.EntityMembers(o, d, format);
    LookupKeys();
    EntityReadable(o, d, format, "rt");
    EntityReadable(o, d, format, "w");
    EntityReadable(o, d, format, "h");
    EntityReadable(o, d, format, "color");
    ReadsString(ms, "rt", "CUSTOM");
    LookKeysAbsent(o.health);
    ReadsAbsent(ms, "w", parseD);
    ReadsAbsent(ms, "h", parseD);
    ReadsAbsent(ms, "color", parseD);
  }

  lemma ReadsLookPresent(o: RS.SceneObject, d: nat, format: RS.Format, parseD: Parse, parseF: Parse)
    requires SafeNames(o) && o.pos.Some? && o.render.Some?
    requires FormatsNumbers(format, d) && ParsesNumbers(parseF, format, d)
    ensures var p := EntityText(o, d, format);
            var rc := o.render.value;
            && StripQuotes(Field(p, "rt")) == Some(TypeName(rc.kind))
            && ParseDouble(Field(p, "w"), parseD) == Reread(format, d, parseD, rc.size.x)
            && ParseDouble(Field(p, "h"), parseD) == Reread(format, d, parseD, rc.size.y)
            && ParseColor(Field(p, "color"), parseF) == RereadColor(format, d, parseF, rc.color)
  {
    var ms := RS.EntityMembers(o, d, format);
    var rc := o.render.value;
    LookupKeys();
    EntityReadable(o, d, format, "rt");
    EntityReadable(o, d, format, "w");
    EntityReadable(o, d, format, "h");
    EntityReadable(o, d, format, "color");
    LookIn(o, d, format);
    TypeNamePlain(rc.kind);
    ReadsString(ms, "rt", TypeName(rc.kind));
    ReadsNumber(ms, "w", format(d, rc.size.x), parseD);
    ReadsNumber(ms, "h", format(d, rc.size.y), parseD);
    ReadsColor(ms, rc.color, d, format, parseF);
  }

  lemma ReadsLife(o: RS.SceneObject, d: nat, format: RS.Format, parseD: Parse)
    requires SafeNames(o) && o.pos.Some? && FormatsNumbers(format, d)
    ensures var p := EntityText(o, d, format);
            && (o.health.None? ==> Field(p, "hp").None?)
            && (o.health.Some? ==>
                  && Field(p, "hp").Some?
                  && ParseDouble(Field(p, "hp"), parseD) == Reread(format, d, parseD, o.health.value.current)
                  && ParseDouble(Field(p, "maxHp"), parseD) == Reread(format, d, parseD, o.health.value.max))
  {
    var ms := RS.EntityMembers(o, d, format);
    LookupKeys();
    EntityReadable(o, d, format, "hp");
    EntityReadable(o, d, format, "maxHp");
    if o.health.None? {
      HpAbsent(o.render);
      ReadsAbsent(ms, "hp", parseD);
    } else {
      var hc := o.health.value;
      LifeIn(o, d, format);
      FieldOfBareIn(ms, "hp", format(d, hc.current)) by { NumberToken(format(d, hc.current)); }
      ReadsNumber(ms, "hp", format(d, hc.current), parseD);
      ReadsNumber(ms, "maxHp", format(d, hc.max), parseD);
    }
  }

  /** An entity the recorder writes is read back as the recorded object. */
  lemma EntityRoundTrip(o: RS.SceneObject, d: nat, format: RS.Format, parseD: Parse, parseF: Parse)
    requires SafeNames(o) && o.pos.Some? && FormatsNumbers(format, d) && ParsesNumbers(parseF, format, d)
    ensures ParseEntity(EntityText(o, d, format), parseD, parseF) == Recorded(o, d, format, parseD, parseF)
  {
    ReadsHead(o, d, format, parseD);
    if o.render.Some? {
      ReadsLookPresent(o, d, format, parseD, parseF);
    } else {
      ReadsLookAbsent(o, d, format, parseD, parseF);
    }
    ReadsLife(o, d, format, parseD);
  }

  /** The objects the recorder writes have names it can write. */
  ghost predicate SafeScene(scene: RS.Scene) {
    forall o :: o in scene.objects && RS.Recordable(o) ==> SafeNames(o)
  }

  /** The entity objects of a keyframe, one per recordable object, in scene order. */
  function EntityValues(objs: seq<RS.SceneObject>, d: nat, format: RS.Format): (r: seq<Value>)
    ensures var ents := RS.RecordableObjects(objs);
            |r| == |ents| && forall i :: 0 <= i < |ents| ==> r[i] == Obj(RS.EntityMembers(ents[i], d, format))
  {
    var ents := RS.RecordableObjects(objs);
    seq(|ents|, i requires 0 <= i < |ents| => Obj(RS.EntityMembers(ents[i], d, format)))
  }

  /** The texts of the entity objects, in scene order. */
  function EntityTextsOf(objs: seq<RS.SceneObject>, d: nat, format: RS.Format): (r: seq<string>)
    ensures var ents := RS.RecordableObjects(objs);
            |r| == |ents| && forall i :: 0 <= i < |ents| ==> r[i] == EntityText(ents[i], d, format)
  {
    var ents := RS.RecordableObjects(objs);
    seq(|ents|, i requires 0 <= i < |ents| => EntityText(ents[i], d, format))
  }

  lemma KeyframeParts(scene: RS.Scene, t: real, d: nat, format: RS.Format)
    ensures var km := RS.KeyframeMembers(scene, t, d, format);
            km == [Member("type", Str("keyframe")), Member("t", Bare(format(d, t)))]
                  + RS.GlobalMembers(scene, d, format)
                  + [Member("entities", Arr(EntityValues(scene.objects, d, format)))]
  {
  }

  lemma EntitiesTidy(scene: RS.Scene, d: nat, format: RS.Format)
    requires SafeScene(scene) && FormatsNumbers(format, d)
    ensures var vs := EntityValues(scene.objects, d, format);
            forall i :: 0 <= i < |vs| ==> Unquoted(vs[i]) && AllUngrouped(vs[i])
    ensures var vs := EntityValues(scene.objects, d, format);
            Unquoted(Arr(vs)) && AllUngrouped(Arr(vs))
  {
    var ents := RS.RecordableObjects(scene.objects);
    forall i | 0 <= i < |ents|
      ensures Unquoted(Obj(RS.EntityMembers(ents[i], d, format)))
      ensures AllUngrouped(Obj(RS.EntityMembers(ents[i], d, format)))
    {
      EntityShape(ents[i], d, format);
    }
  }

  lemma GlobalKeys()
    ensures Lookup("score") && Lookup("fcd") && Lookup("bcd") && Lookup("over") && Lookup("global")
    ensures Ungrouped("score") && Ungrouped("fcd") && Ungrouped("bcd") && Ungrouped("over")
    ensures Token("true") && Token("false")
  {
  }

  /** An object member whose members are tidy and keyed apart from `k`
      does not mention `k`. */
  lemma QuietObj(key: string, inner: seq<Member>, k: string)
    requires AllTidy(inner) && Lookup(k) && Lookup(key) && key != k
    requires forall i :: 0 <= i < |inner| ==> inner[i].key != k
    ensures MemberUnquoted(Member(key, Obj(inner))) && !MemberMentions(Member(key, Obj(inner)), k)
  {
    AllTidyObj(inner);
    assert forall i :: 0 <= i < |inner| ==> !MemberMentions(inner[i], k);
  }

  /** The global block holds no quote and mentions neither `t` nor `entities`. */
  lemma GlobalQuiet(scene: RS.Scene, d: nat, format: RS.Format)
    requires FormatsNumbers(format, d)
    ensures var gm := RS.GlobalMembers(scene, d, format);
            forall i :: 0 <= i < |gm| ==> MemberUnquoted(gm[i]) && !MemberMentions(gm[i], "t") && !MemberMentions(gm[i], "entities")
  {
    var gm := RS.GlobalMembers(scene, d, format);
    if |gm| == 1 {
      var g := scene.globals.value;
      GlobalBlockQuiet(IntToString(g.score), format(d, g.fireballCooldown), format(d, g.bombCooldown),
                       BoolToString(g.gameOver));
    }
  }

  /** The global block built from a score, two numbers and a flag. */
  lemma GlobalBlockQuiet(score: string, fcd: string, bcd: string, over: string)
    requires NumberText(score) && NumberText(fcd) && NumberText(bcd) && Token(over)
    ensures var m := Member("global", Obj([Member("score", Bare(score)), Member("fcd", Bare(fcd)),
                                           Member("bcd", Bare(bcd)), Member("over", Bare(over))]));
            MemberUnquoted(m) && !MemberMentions(m, "t") && !MemberMentions(m, "entities")
  {
    var inner := [Member("score", Bare(score)), Member("fcd", Bare(fcd)),
                  Member("bcd", Bare(bcd)), Member("over", Bare(over))];
    GlobalKeys();
    LookupKeys();
    NumberMember("score", score);
    NumberMember("fcd", fcd);
    NumberMember("bcd", bcd);
    TidyBare("over", over);
    assert AllTidy(inner);
    QuietObj("global", inner, "t");
    QuietObj("global", inner, "entities");
  }

  lemma KeyframeKeys()
    ensures SearchKey("t") && SearchKey("entities") && ':' !in "t" && ':' !in "entities"
  {
  }

  /** The layout of a keyframe: type, t, an optional block, then the entities. */
  lemma FindableLayout(first: Member, time: Member, gm: seq<Member>, last: Member)
    requires MemberUnquoted(first) && MemberUnquoted(time) && MemberUnquoted(last)
    requires forall i :: 0 <= i < |gm| ==> MemberUnquoted(gm[i]) && !MemberMentions(gm[i], last.key)
    requires SearchKey(time.key) && ':' !in time.key && SearchKey(last.key) && ':' !in last.key
    requires !MemberMentions(first, time.key) && !MemberMentions(first, last.key) && !MemberMentions(time, last.key)
    ensures var km := [first, time] + gm + [last];
            Findable(km, 1) && Findable(km, |km| - 1)
  {
    var km := [first, time] + gm + [last];
    forall i | 0 <= i < |km|
      ensures MemberUnquoted(km[i]) && (i < |km| - 1 ==> !MemberMentions(km[i], last.key))
      ensures i == 0 ==> !MemberMentions(km[i], time.key)
    {
      if 2 <= i < |km| - 1 {
        assert km[i] == gm[i - 2];
      }
    }
  }

  /** Both keys the replayer reads from a keyframe are found where they are written. */
  lemma KeyframeFindable(scene: RS.Scene, t: real, d: nat, format: RS.Format)
    requires SafeScene(scene) && FormatsNumbers(format, d)
    ensures var km := RS.KeyframeMembers(scene, t, d, format);
            && Findable(km, 1) && Findable(km, |km| - 1)
            && AllUngrouped(km[|km| - 1].value)
  {
    KeyframeParts(scene, t, d, format);
    KeyframePartsFindable(scene, t, d, format);
  }

  lemma KeyframePartsFindable(scene: RS.Scene, t: real, d: nat, format: RS.Format)
    requires SafeScene(scene) && FormatsNumbers(format, d)
    ensures var vs := EntityValues(scene.objects, d, format);
            var km := [Member("type", Str("keyframe")), Member("t", Bare(format(d, t)))]
                      + RS.GlobalMembers(scene, d, format) + [Member("entities", Arr(vs))];
            && Findable(km, 1) && Findable(km, |km| - 1) && AllUngrouped(Arr(vs))
  {
    var vs := EntityValues(scene.objects, d, format);
    KeyframeKeys();
    GlobalQuiet(scene, d, format);
    EntitiesTidy(scene, d, format);
    NumberToken(format(d, t));
    FindableLayout(Member("type", Str("keyframe")), Member("t", Bare(format(d, t))),
                   RS.GlobalMembers(scene, d, format), Member("entities", Arr(vs)));
  }

  /** The keyframe time reads back as the parser reads its formatted text. */
  lemma KeyframeTime(scene: RS.Scene, t: real, d: nat, format: RS.Format, parseD: Parse)
    requires SafeScene(scene) && FormatsNumbers(format, d)
    ensures ParseDouble(Field(Render(Obj(RS.KeyframeMembers(scene, t, d, format))), "t"), parseD)
            == Reread(format, d, parseD, t)
  {
    KeyframeFindable(scene, t, d, format);
    NumberToken(format(d, t));
    FieldOfBare(RS.KeyframeMembers(scene, t, d, format), 1);
    ParseToken(format(d, t), parseD);
  }

  /** Where `pat` occurs, so does every prefix of it. */
  lemma OccursPrefix(s: string, pat: string, pre: string, p: int)
    requires OccursAt(s, pat, p) && pre <= pat
    ensures OccursAt(s, pre, p)
  {
    assert s[p..p + |pre|] == s[p..p + |pat|][..|pre|];
  }

  /** The array marker is found at the entities key. */
  lemma MarkerAt(json: string, i: nat)
    requires KeyAt(json, "entities", i) && i + 11 < |json| && json[i + 11] == '['
    ensures IndexOf(json, EntitiesMarker) == Some(i)
  {
    assert json[i..i + 12] == json[i..i + 10] + json[i + 10..i + 12];
    assert json[i + 10..i + 12] == ":[";
    forall p | 0 <= p && OccursAt(json, EntitiesMarker, p) ensures p >= i {
      OccursPrefix(json, EntitiesMarker, Quoted("entities"), p);
    }
    IndexOfFirstOccurrence(json, EntitiesMarker, i);
  }

  lemma SplitAt(s: string, n: nat, body: string, rest: string)
    requires n <= |s| && s[n..] == "[" + body + "]" + rest
    ensures s == s[..n] + "[" + body + "]" + rest
  {
    assert s == s[..n] + s[n..];
  }

  /** The replayer splits the entity array back into the entity texts. */
  lemma KeyframeEntityTexts(scene: RS.Scene, t: real, d: nat, format: RS.Format)
    requires SafeScene(scene) && FormatsNumbers(format, d)
    ensures EntityTexts(Render(Obj(RS.KeyframeMembers(scene, t, d, format)))) == EntityTextsOf(scene.objects, d, format)
  {
    var km := RS.KeyframeMembers(scene, t, d, format);
    var vs := EntityValues(scene.objects, d, format);
    var texts := EntityTextsOf(scene.objects, d, format);
    KeyframeFindable(scene, t, d, format);
    KeyframeParts(scene, t, d, format);
    EntityTextsShape(scene, d, format);
    TextsRendered(scene.objects, d, format);
    EntityArrayIn(km, vs, texts);
  }

  /** The entity texts are the rendered entity values. */
  lemma TextsRendered(objs: seq<RS.SceneObject>, d: nat, format: RS.Format)
    ensures var vs := EntityValues(objs, d, format);
            var texts := EntityTextsOf(objs, d, format);
            |texts| == |vs| && forall k :: 0 <= k < |vs| ==> texts[k] == Render(vs[k])
  {
  }

  /** An object whose last member is a findable entity array: the replayer
      reads back the rendered entities. */
  lemma EntityArrayIn(km: seq<Member>, vs: seq<Value>, texts: seq<string>)
    requires |km| > 0 && km[|km| - 1] == Member("entities", Arr(vs)) && Findable(km, |km| - 1)
    requires |texts| == |vs| && forall k :: 0 <= k < |vs| ==> texts[k] == Render(vs[k])
    requires forall k :: 0 <= k < |texts| ==>
               Balanced(Square, texts[k]) && CurlyClosed(texts[k]) && |texts[k]| > 0 && Unpadded(texts[k])
    ensures EntityTexts(Render(Obj(km))) == texts
  {
    var json := Render(Obj(km));
    var i, rest := MemberInText(km, |km| - 1);
    var body := Join(texts, ",");
    assert Render(Arr(vs)) == "[" + body + "]" by {
      assert seq(|vs|, k requires 0 <= k < |vs| => Render(vs[k])) == texts;
    }
    assert json[i + 11..] == "[" + body + "]" + rest;
    MarkerAt(json, i);
    SplitAt(json, i + 11, body, rest);
    ArrayAfterMarker(json, i, texts, rest);
  }

  /** The rendered entities are non-empty, unpadded brace groups with
      balanced square brackets. */
  lemma EntityTextsShape(scene: RS.Scene, d: nat, format: RS.Format)
    requires SafeScene(scene) && FormatsNumbers(format, d)
    ensures var texts := EntityTextsOf(scene.objects, d, format);
            forall k :: 0 <= k < |texts| ==>
              Balanced(Square, texts[k]) && CurlyClosed(texts[k]) && |texts[k]| > 0 && Unpadded(texts[k])
  {
    var vs := EntityValues(scene.objects, d, format);
    var texts := EntityTextsOf(scene.objects, d, format);
    EntitiesTidy(scene, d, format);
    forall k | 0 <= k < |texts|
      ensures Balanced(Square, texts[k]) && CurlyClosed(texts[k]) && |texts[k]| > 0 && Unpadded(texts[k])
    {
      BalancedRender(Square, vs[k]);
      CurlyClosedObj(vs[k].members);
      assert texts[k][0] == '{';
    }
  }

  /** The array after the first entities marker is split back into its texts. */
  lemma ArrayAfterMarker(json: string, i: nat, texts: seq<string>, rest: string)
    requires IndexOf(json, EntitiesMarker) == Some(i) && i + 11 <= |json|
    requires json == json[..i + 11] + "[" + Join(texts, ",") + "]" + rest
    requires forall k :: 0 <= k < |texts| ==>
               Balanced(Square, texts[k]) && CurlyClosed(texts[k]) && |texts[k]| > 0 && Unpadded(texts[k])
    ensures EntityTexts(json) == texts
  {
    BalancedJoin(Square, texts);
    ExtractArrayOfBracketed(json[..i + 11], Join(texts, ","), rest);
    SplitTopLevelJoin(texts);
  }

  /** A keyframe line is read from its time field and its entity texts. */
  lemma ReadKeyframe(line: string, texts: seq<string>, infos: seq<EntityInfo>, tv: real, parseD: Parse, parseF: Parse)
    requires ParseDouble(Field(line, "t"), parseD) == tv && EntityTexts(line) == texts
    requires |infos| == |texts| && forall i :: 0 <= i < |texts| ==> ParseEntity(texts[i], parseD, parseF) == infos[i]
    ensures ParseKeyframe(line, parseD, parseF) == Keyframe(tv, EntityMap(infos))
  {
    assert ParseAll(texts, parseD, parseF) == infos;
  }

  /** The information recorded for each recordable object, in scene order. */
  function RecordedAll(objs: seq<RS.SceneObject>, d: nat, format: RS.Format, parseD: Parse, parseF: Parse): (r: seq<EntityInfo>)
    ensures var ents := RS.RecordableObjects(objs);
            |r| == |ents| && forall i :: 0 <= i < |ents| ==> r[i] == Recorded(ents[i], d, format, parseD, parseF)
  {
    var ents := RS.RecordableObjects(objs);
    seq(|ents|, i requires 0 <= i < |ents| => Recorded(ents[i], d, format, parseD, parseF))
  }

  /** The keyframe the replayer reads from a recorded keyframe line: the
      time as the parser reads its text, and every recordable object's
      recorded information under its id. */
  lemma KeyframeLineRoundTrip(scene: RS.Scene, t: real, d: nat, format: RS.Format, parseD: Parse, parseF: Parse)
    requires SafeScene(scene) && FormatsNumbers(format, d) && ParsesNumbers(parseF, format, d)
    requires RS.KeyframeLine(scene, t, d, format).Some?
    ensures ParseKeyframe(RS.KeyframeLine(scene, t, d, format).value, parseD, parseF)
            == Keyframe(Reread(format, d, parseD, t), EntityMap(RecordedAll(scene.objects, d, format, parseD, parseF)))
  {
    var ents := RS.RecordableObjects(scene.objects);
    var texts := EntityTextsOf(scene.objects, d, format);
    var infos := RecordedAll(scene.objects, d, format, parseD, parseF);
    KeyframeTime(scene, t, d, format, parseD);
    KeyframeEntityTexts(scene, t, d, format);
    forall i | 0 <= i < |ents|
      ensures ParseEntity(texts[i], parseD, parseF) == infos[i]
    {
      EntityRoundTrip(ents[i], d, format, parseD, parseF);
    }
    ReadKeyframe(RS.KeyframeLine(scene, t, d, format).value, texts, infos, Reread(format, d, parseD, t), parseD, parseF);
  }

  /** The ids in the map built from the recorded entities are exactly the
      ids of the recordable objects. */
  lemma RecordedIds(objs: seq<RS.SceneObject>, d: nat, format: RS.Format, parseD: Parse, parseF: Parse)
    ensures var m := EntityMap(RecordedAll(objs, d, format, parseD, parseF));
            forall id :: id in m <==> exists o :: o in objs && RS.Recordable(o) && RS.EntityId(o) == id
  {
    var ents := RS.RecordableObjects(objs);
    var infos := RecordedAll(objs, d, format, parseD, parseF);
    assert forall i :: 0 <= i < |infos| ==> infos[i].id == Some(RS.EntityId(ents[i]));
    IdsOfListed(objs, ents, infos);
  }

  /** Infos carrying the ids of a list that holds exactly the recordable
      objects carry exactly the ids of the recordable objects. */
  lemma IdsOfListed(objs: seq<RS.SceneObject>, ents: seq<RS.SceneObject>, infos: seq<EntityInfo>)
    requires forall i :: 0 <= i < |ents| ==> RS.Recordable(ents[i]) && ents[i] in objs
    requires forall o :: o in objs && RS.Recordable(o) ==> o in ents
    requires |infos| == |ents| && forall i :: 0 <= i < |infos| ==> infos[i].id == Some(RS.EntityId(ents[i]))
    ensures forall id :: (exists j :: 0 <= j < |infos| && infos[j].id == Some(id))
                         <==> exists o :: o in objs && RS.Recordable(o) && RS.EntityId(o) == id
  {
    forall id | exists o :: o in objs && RS.Recordable(o) && RS.EntityId(o) == id
      ensures exists j :: 0 <= j < |infos| && infos[j].id == Some(id)
    {
      var o :| o in objs && RS.Recordable(o) && RS.EntityId(o) == id;
      var j :| 0 <= j < |ents| && ents[j] == o;
      assert infos[j].id == Some(id);
    }
  }

  /** Every recordable object, and nothing else, is in the replayed keyframe
      under its id. */
  lemma KeyframeIds(scene: RS.Scene, t: real, d: nat, format: RS.Format, parseD: Parse, parseF: Parse)
    requires SafeScene(scene) && FormatsNumbers(format, d) && ParsesNumbers(parseF, format, d)
    requires RS.KeyframeLine(scene, t, d, format).Some?
    ensures var k := ParseKeyframe(RS.KeyframeLine(scene, t, d, format).value, parseD, parseF);
            forall id :: id in k.entities <==> exists o :: o in scene.objects && RS.Recordable(o) && RS.EntityId(o) == id
  {
    KeyframeLineRoundTrip(scene, t, d, format, parseD, parseF);
    RecordedIds(scene.objects, d, format, parseD, parseF);
  }

  /** Every line the loader takes for a keyframe holds an `f`. */
  lemma MarkerHoldsF(line: string)
    ensures IsKeyframeLine(line) ==> 'f' in line
  {
    forall p | OccursAt(line, KeyframeMarker, p) ensures 'f' in line {
      assert line[p + 11] == KeyframeMarker[11];
    }
  }

  /** The loader never takes the header for a keyframe. */
  lemma HeaderNotKeyframe(w: int, h: int)
    ensures !IsKeyframeLine(RS.HeaderLine(w, h))
  {
    assert 'f' !in IntToString(w) && 'f' !in IntToString(h) by {
      assert forall c :: c in IntToString(w) ==> '0' <= c <= '9' || c == '-';
      assert forall c :: c in IntToString(h) ==> '0' <= c <= '9' || c == '-';
    }
    AbsentFromRender(Obj([Member("type", Str("header")), Member("version", Bare("1")),
                          Member("w", Bare(IntToString(w))), Member("h", Bare(IntToString(h)))]), 'f');
    MarkerHoldsF(RS.HeaderLine(w, h));
  }

  /** The loader never takes an input line for a keyframe. */
  lemma InputNotKeyframe(t: string, keys: seq<int>)
    requires NumberText(t)
    ensures !IsKeyframeLine(RS.InputLine(t, keys))
  {
    var items := seq(|keys|, i requires 0 <= i < |keys| => Bare(IntToString(keys[i])));
    forall i | 0 <= i < |keys| ensures 'f' !in IntToString(keys[i]) {
      assert forall c :: c in IntToString(keys[i]) ==> '0' <= c <= '9' || c == '-';
    }
    assert 'f' !in t by {
      assert forall c :: c in t ==> NumberChar(c);
    }
    assert Avoids(Arr(items), 'f');
    AbsentFromRender(Obj([Member("type", Str("input")), Member("t", Bare(t)), Member("keys", Arr(items))]), 'f');
    MarkerHoldsF(RS.InputLine(t, keys));
  }

  /** The loader takes every recorded keyframe line as a keyframe. */
  lemma KeyframeIsKeyframe(scene: RS.Scene, t: real, d: nat, format: RS.Format)
    requires RS.KeyframeLine(scene, t, d, format).Some?
    ensures IsKeyframeLine(RS.KeyframeLine(scene, t, d, format).value)
  {
    var km := RS.KeyframeMembers(scene, t, d, format);
    var line := RS.KeyframeLine(scene, t, d, format).value;
    ObjStartsWith(km);
    KeyframeParts(scene, t, d, format);
    KeyframeMarkerText();
    assert OccursAt(line, KeyframeMarker, 1);
  }

  lemma KeyframeMarkerText()
    ensures MemberText(Member("type", Str("keyframe"))) == KeyframeMarker
  {
  }
}

=== FILE: record_format.dfy ===
/** The shape of the lines the recorder writes. Every line is one object
    of `"key":value` members, rendered without spaces; a value is bare text
    (a number, `true`/`false`), a quoted string, an array or an object.
    Nothing is escaped: the text goes out exactly as given. */
module RecordFormat {
  import opened JavaString
  import opened RecordingJson

  datatype Value =
    | Bare(text: string)
    | Str(text: string)
    | Arr(items: seq<Value>)
    | Obj(members: seq<Member>)

  datatype Member = Member(key: string, value: Value)

  function Render(v: Value): string
    decreases v
  {
    match v
    case Bare(t) => t
    case Str(t) => Quoted(t)
    case Arr(items) => "[" + Join(seq(|items|, i requires 0 <= i < |items| => Render(items[i])), ",") + "]"
    case Obj(ms) => "{" + Join(seq(|ms|, i requires 0 <= i < |ms| => MemberText(ms[i])), ",") + "}"
  }

  /** `"key":value`. */
  function MemberText(m: Member): string
    decreases m
  {
    Quoted(m.key) + ":" + Render(m.value)
  }

  /** The rendered members of an object, in order. */
  function MemberTexts(ms: seq<Member>): (r: seq<string>)
    ensures |r| == |ms| && forall i :: 0 <= i < |ms| ==> r[i] == MemberText(ms[i])
  {
    seq(|ms|, i requires 0 <= i < |ms| => MemberText(ms[i]))
  }

  function Keys(ms: seq<Member>): (r: seq<string>)
    ensures |r| == |ms| && forall i :: 0 <= i < |ms| ==> r[i] == ms[i].key
  {
    seq(|ms|, i requires 0 <= i < |ms| => ms[i].key)
  }

  lemma KeysAppend(a: seq<Member>, b: seq<Member>)
    ensures Keys(a + b) == Keys(a) + Keys(b)
  {
  }
}

=== FILE: recording_config.dfy ===
/** `RecordingConfig`: where a recording goes and how it is sampled. */
module RecordingConfig {

  datatype Config = Config(
    outputPath: string,
    keyframeIntervalSec: real,
    sampleFps: int,
    quantizeDecimals: int,
    queueCapacity: int)

  const DefaultKeyframeInterval: real := 0.05
  const DefaultSampleFps: int := 30
  const DefaultQuantizeDecimals: int := 2
  const DefaultQueueCapacity: int := 4096

  /** `new RecordingConfig(outputPath)`: the path as given, every other
      setting at its default. */
  function Default(outputPath: string): (c: Config)
    ensures c.outputPath == outputPath
    ensures c.keyframeIntervalSec == 0.05 && c.sampleFps == 30
    ensures c.quantizeDecimals == 2 && c.queueCapacity == 4096
  {
    Config(outputPath, DefaultKeyframeInterval, DefaultSampleFps, DefaultQuantizeDecimals, DefaultQueueCapacity)
  }
}

=== FILE: recording_json.dfy ===
/** The hand-rolled scanners that read one line of the recording format:
    `field` (raw value text of a key), `stripQuotes`, `parseDouble`,
    `splitTopLevel` (commas at brace depth 0) and `extractArray` (square
    bracket matching). Each works on plain character positions; none of them
    understands JSON beyond the depth counting spelled out here. */
module RecordingJson {
  import opened Wrappers
  import opened JavaString
  import opened Selection

  /** Which brackets a scanner counts: `field` counts `[`/`{` against `]`/`}`
      together, `extractArray` only square brackets, `splitTopLevel` only braces. */
  datatype Nesting = Square | Curly | Both

  predicate Opens(n: Nesting, c: char) {
    (c == '[' && n != Curly) || (c == '{' && n != Square)
  }

  predicate Closes(n: Nesting, c: char) {
    (c == ']' && n != Curly) || (c == '}' && n != Square)
  }

  function Delta(n: Nesting, c: char): int {
    if Opens(n, c) then 1 else if Closes(n, c) then -1 else 0
  }

  /** Net nesting depth at the end of `s`: openers minus closers. */
  function Depth(n: Nesting, s: string): int {
    if |s| == 0 then 0 else Depth(n, s[..|s| - 1]) + Delta(n, s[|s| - 1])
  }

  lemma {:induction false} DepthAppend(n: Nesting, a: string, b: string)
    ensures Depth(n, a + b) == Depth(n, a) + Depth(n, b)
    decreases |b|
  {
    if |b| == 0 {
      assert a + b == a;
    } else {
      assert (a + b)[..|a + b| - 1] == a + b[..|b| - 1];
      DepthAppend(n, a, b[..|b| - 1]);
    }
  }

  /** Extending a slice by one character moves its depth by that character's delta. */
  lemma DepthStep(n: Nesting, s: string, i: nat, j: nat)
    requires i <= j < |s|
    ensures Depth(n, s[i..j + 1]) == Depth(n, s[i..j]) + Delta(n, s[j])
  {
    assert s[i..j + 1][..j - i] == s[i..j];
  }

  /** Scan state of a bracket matcher that started at `start` on an opener:
      the depth carried so far is the depth of the text scanned, and no proper
      non-empty prefix has closed the group yet. */
  predicate StillOpen(n: Nesting, s: string, start: nat, end: nat) {
    start <= end <= |s| && forall k :: start < k <= end ==> Depth(n, s[start..k]) > 0
  }

  /** The matching loop shared by `field` (for `[`/`{` values) and
      `extractArray`: scanning from `end` with the running `depth`, the index of
      the closer that brings the depth back to 0, if any. */
  function CloseIndex(n: Nesting, s: string, start: nat, end: nat, depth: int): (r: Option<nat>)
    requires start < |s| && Opens(n, s[start])
    requires StillOpen(n, s, start, end) && depth == Depth(n, s[start..end])
    decreases |s| - end
    ensures r.Some? ==> end <= r.value < |s| && Closes(n, s[r.value])
    ensures r.Some? ==> Depth(n, s[start..r.value + 1]) == 0 && StillOpen(n, s, start, r.value)
    ensures r.None? ==> StillOpen(n, s, start, |s|)
  {
    if end == |s| then None
    else
      var c := s[end];
      var d := depth + Delta(n, c);
      DepthStep(n, s, start, end);
      if Closes(n, c) && d == 0 then Some(end)
      else
        StillOpenStep(n, s, start, end, depth, d);
        CloseIndex(n, s, start, end + 1, d)
  }

  /** One more character scanned without closing the group keeps it open. */
  lemma StillOpenStep(n: Nesting, s: string, start: nat, end: nat, depth: int, d: int)
    requires start < |s| && Opens(n, s[start]) && end < |s|
    requires StillOpen(n, s, start, end) && depth == Depth(n, s[start..end])
    requires d == depth + Delta(n, s[end]) && !(Closes(n, s[end]) && d == 0)
    requires d == Depth(n, s[start..end + 1])
    ensures StillOpen(n, s, start, end + 1)
  {
    if end == start {
      assert depth == 0 && Delta(n, s[end]) == 1;
    } else {
      assert Depth(n, s[start..end]) > 0;
    }
    assert d > 0;
  }

  /** The first closer of the group opened at `start` is unique: no later index
      also qualifies, since the depth has already returned to 0 there. */
  function MatchingClose(n: Nesting, s: string, start: nat): (r: Option<nat>)
    requires start < |s| && Opens(n, s[start])
    ensures r.Some? ==> start < r.value < |s| && Depth(n, s[start..r.value + 1]) == 0
    ensures r.Some? ==> forall k :: start < k <= r.value ==> Depth(n, s[start..k]) > 0
    ensures r.None? <==> forall k :: start < k <= |s| ==> Depth(n, s[start..k]) > 0
  {
    CloseIndex(n, s, start, start, 0)
  }

  /** A `"` that is not preceded by a backslash: the end of a string value. */
  predicate EndsString(s: string, e: int) {
    0 < e < |s| && s[e] == '"' && s[e - 1] != '\\'
  }

  /** The first unescaped `"` at or after `end`. */
  function StringEnd(s: string, end: nat): (r: Option<nat>)
    requires 0 < end
    decreases |s| - end
    ensures r.Some? ==> end <= r.value && EndsString(s, r.value)
    ensures forall e :: end <= e && (r.None? || e < r.value) ==> !EndsString(s, e)
  {
    if end >= |s| then None
    else if s[end] == '"' && s[end - 1] != '\\' then Some(end)
    else StringEnd(s, end + 1)
  }

  predicate EndsBare(c: char) {
    c == ',' || c == '}'
  }

  /** The first `,` or `}` at or after `end`; `]` does not end a bare value. */
  function BareEnd(s: string, end: nat): (r: Option<nat>)
    decreases |s| - end
    ensures r.Some? ==> end <= r.value < |s| && EndsBare(s[r.value])
    ensures forall e :: end <= e < |s| && (r.None? || e < r.value) ==> !EndsBare(s[e])
  {
    if end >= |s| then None
    else if EndsBare(s[end]) then Some(end)
    else BareEnd(s, end + 1)
  }

  /** The key written between double quotes, as `field` searches for it. */
  function Quoted(key: string): string {
    "\"" + key + "\""
  }

  /** First index at or after `i` that is not `Character.isWhitespace`, or `|s|`. */
  function SkipWhitespace(s: string, i: nat): (r: nat)
    decreases |s| - i
    ensures i <= r || (|s| < i && r == i)
    ensures r >= |s| || !IsWhitespace(s[r])
    ensures forall k :: i <= k < r && k < |s| ==> IsWhitespace(s[k])
  {
    if i >= |s| || !IsWhitespace(s[i]) then i else SkipWhitespace(s, i + 1)
  }

  /** Where the raw value of `key` begins: after the first occurrence of the
      quoted key, after the first `:` that follows it, after any whitespace. */
  function ValueStart(json: string, key: string): (r: Option<nat>)
    ensures (forall k :: !OccursAt(json, Quoted(key), k)) ==> r.None?
    ensures r.Some? ==> r.value < |json| && !IsWhitespace(json[r.value])
    ensures IndexOf(json, Quoted(key)).Some? ==>
              var i := IndexOf(json, Quoted(key)).value;
              (forall c :: i <= c < |json| ==> json[c] != ':') ==> r.None?
    ensures IndexOf(json, Quoted(key)).Some? ==>
              var i := IndexOf(json, Quoted(key)).value;
              IndexOfChar(json, ':', i).Some? ==>
              var c := IndexOfChar(json, ':', i).value;
              (forall k :: c < k < |json| ==> IsWhitespace(json[k])) ==> r.None?
    ensures r.Some? ==>
              && IndexOf(json, Quoted(key)).Some?
              && var i := IndexOf(json, Quoted(key)).value;
                 && IndexOfChar(json, ':', i).Some?
                 && var c := IndexOfChar(json, ':', i).value;
                    && c < r.value
                    && forall k :: c < k < r.value ==> IsWhitespace(json[k])
  {
    match IndexOf(json, Quoted(key))
    case None => None
    case Some(i) =>
      match IndexOfChar(json, ':', i)
      case None => None
      case Some(c) =>
        var start := SkipWhitespace(json, c + 1);
        if start >= |json| then None else Some(start)
  }

  /** `RecordingJson.field`: the raw text of the value of `key`, `None` (null)
      when the key, the colon after it or any value text is missing, or when
      the value is not terminated. */
  function Field(json: string, key: string): (r: Option<string>)
    ensures ValueStart(json, key).None? ==> r.None?
    ensures r.Some? ==> ValueStart(json, key).Some?
  {
    match ValueStart(json, key)
    case None => None
    case Some(start) =>
      var first := json[start];
      if first == '[' || first == '{' then GroupAt(json, start)
      else if first == '"' then StringAt(json, start)
      else BareAt(json, start)
  }

  /** `field`'s branch for a value that starts with `[` or `{`. */
  function GroupAt(json: string, start: nat): (r: Option<string>)
    requires start < |json| && Opens(Both, json[start])
    ensures GroupValue(json, start, r)
  {
    match MatchingClose(Both, json, start)
    case Some(e) =>
      var v := json[start..e + 1];
      assert forall k :: 0 < k < |v| ==> v[..k] == json[start..start + k];
      Some(v)
    case None => None
  }

  /** `field`'s branch for a value that starts with `"`. */
  function StringAt(json: string, start: nat): (r: Option<string>)
    requires start < |json| && json[start] == '"'
    ensures StringValue(json, start, r)
  {
    match StringEnd(json, start + 1)
    case Some(e) =>
      var v := json[start..e + 1];
      forall i | 0 < i < |v| - 1 ensures !(v[i] == '"' && v[i - 1] != '\\') {
        assert v[i] == json[start + i] && v[i - 1] == json[start + i - 1];
        assert !EndsString(json, start + i);
      }
      Some(v)
    case None => None
  }

  /** `field`'s branch for a bare number, boolean or `null`. */
  function BareAt(json: string, start: nat): (r: Option<string>)
    requires start < |json|
    ensures BareValue(json, start, r)
  {
    match BareEnd(json, start)
    case Some(e) => Some(Trim(json[start..e]))
    case None => None
  }

  /** What `field` returns, by the first character of the value: a complete
      bracket group, a complete string, or the trimmed bare text before the
      next `,` or `}`; `None` whenever the value is not terminated. */
  lemma FieldValueShape(json: string, key: string)
    requires ValueStart(json, key).Some?
    ensures var v := ValueStart(json, key).value;
            && (json[v] == '[' || json[v] == '{' ==> GroupValue(json, v, Field(json, key)))
            && (json[v] == '"' ==> StringValue(json, v, Field(json, key)))
            && (json[v] != '[' && json[v] != '{' && json[v] != '"' ==> BareValue(json, v, Field(json, key)))
  {
    FieldDispatch(json, key, ValueStart(json, key).value);
  }

  /** A group value is the shortest text from its opener whose combined
      `[{`/`]}` depth returns to 0; without such a point it is `None`. */
  predicate GroupValue(json: string, v: nat, r: Option<string>)
    requires v < |json| && Opens(Both, json[v])
  {
    && (r.None? <==> forall k :: v < k <= |json| ==> Depth(Both, json[v..k]) > 0)
    && (r.Some? ==>
          && r.value <= json[v..] && |r.value| >= 2
          && r.value[0] == json[v] && Closes(Both, r.value[|r.value| - 1])
          && Depth(Both, r.value) == 0
          && forall k :: 0 < k < |r.value| ==> Depth(Both, r.value[..k]) > 0)
  }

  /** A string value runs from its opening `"` to the first `"` not preceded
      by a backslash; without one it is `None`. */
  predicate StringValue(json: string, v: nat, r: Option<string>)
    requires v < |json| && json[v] == '"'
  {
    && (r.None? <==> forall e :: v < e < |json| ==> !EndsString(json, e))
    && (r.Some? ==>
          && r.value <= json[v..] && |r.value| >= 2
          && r.value[0] == '"' && r.value[|r.value| - 1] == '"'
          && r.value[|r.value| - 2] != '\\'
          && forall e :: 0 < e < |r.value| - 1 ==> !(r.value[e] == '"' && r.value[e - 1] != '\\'))
  }

  /** A bare value is the trimmed text up to the first `,` or `}`; without
      either terminator it is `None`. */
  predicate BareValue(json: string, v: nat, r: Option<string>)
    requires v < |json|
  {
    && (r.None? <==> forall e :: v <= e < |json| ==> !EndsBare(json[e]))
    && (r.Some? ==> exists e :: v <= e < |json| && EndsBare(json[e])
                      && (forall k :: v <= k < e ==> !EndsBare(json[k]))
                      && r.value == Trim(json[v..e]))
  }

  /** `stripQuotes` exactly as written: `null` stays `null`; after trimming,
      a text that starts and ends with `"` loses both. A lone `"` starts and
      ends with a quote, and `substring(1, 0)` then throws. */
  function StripQuotesAsWritten(s: Option<string>): (r: Result<Option<string>, string>)
    ensures s.None? ==> r == Success(None)
    ensures r.Failure? <==> s.Some? && Trim(s.value) == "\""
  {
    match s
    case None => Success(None)
    case Some(x) =>
      var t := Trim(x);
      if |t| > 0 && t[0] == '"' && t[|t| - 1] == '"' then
        if |t| < 2 then Failure("StringIndexOutOfBoundsException") else Success(Some(t[1..|t| - 1]))
      else Success(Some(t))
  }

  /** `stripQuotes` with the lone-quote case corrected: one surrounding pair
      of quotes is removed only when there are two quote characters to remove;
      a lone `"` is returned as it is. */
  function StripQuotes(s: Option<string>): (r: Option<string>)
    ensures r.None? <==> s.None?
    ensures s.Some? ==> r.value == Trim(s.value) || Trim(s.value) == "\"" + r.value + "\""
    ensures s.Some? && Trim(s.value) != "\"" ==> StripQuotesAsWritten(s) == Success(r)
  {
    match s
    case None => None
    case Some(x) =>
      var t := Trim(x);
      if |t| >= 2 && t[0] == '"' && t[|t| - 1] == '"' then Some(t[1..|t| - 1]) else Some(t)
  }

  /** A value that is a lone `"`: the code as written throws, the corrected
      reader keeps the quote. */
  lemma StripQuotesLoneQuote()
    ensures StripQuotesAsWritten(Some("\"")).Failure?
    ensures StripQuotes(Some("\"")) == Some("\"")
  {
    TrimUnpadded("\"");
  }

  /** Quoting and then stripping gives back the text, whatever it holds. */
  lemma StripQuotesOfQuoted(x: string)
    ensures StripQuotes(Some(Quoted(x))) == Some(x)
  {
    TrimUnpadded(Quoted(x));
  }

  /** `parseDouble`: `null`, and any text the number parser refuses, read as 0.
      `parse` stands for `Double.parseDouble`, `None` being its exception. */
  function ParseDouble(s: Option<string>, parse: string -> Option<real>): (r: real)
    ensures s.None? ==> r == 0.0
    ensures s.Some? && parse(StripQuotes(s).value).None? ==> r == 0.0
    ensures s.Some? && parse(StripQuotes(s).value).Some? ==> r == parse(StripQuotes(s).value).value
  {
    match StripQuotes(s)
    case None => 0.0
    case Some(t) => parse(t).GetOr(0.0)
  }

  /** `splitTopLevel`'s scan: `start` is where the current piece begins and
      `depth` counts braces only; a comma splits only at depth 0. */
  function SplitScan(arr: string, i: nat, depth: int, start: nat, acc: seq<string>): (r: seq<string>)
    requires start <= i <= |arr|
    decreases |arr| - i
    ensures acc <= r
  {
    if i == |arr| then (if start < |arr| then acc + [arr[start..]] else acc)
    else if arr[i] == '{' then SplitScan(arr, i + 1, depth + 1, start, acc)
    else if arr[i] == '}' then SplitScan(arr, i + 1, depth - 1, start, acc)
    else if arr[i] == ',' && depth == 0 then SplitScan(arr, i + 1, depth, i + 1, acc + [arr[start..i]])
    else SplitScan(arr, i + 1, depth, start, acc)
  }

  /** The trimmed pieces, empty ones dropped. */
  function Clean(ps: seq<string>): (r: seq<string>)
    ensures |r| <= |ps|
    ensures forall k :: 0 <= k < |r| ==> |r[k]| > 0 && Trim(r[k]) == r[k]
  {
    if |ps| == 0 then []
    else
      var t := Trim(ps[0]);
      TrimUnpadded(t);
      if |t| == 0 then Clean(ps[1..]) else [t] + Clean(ps[1..])
  }

  /** A piece that does not trim to nothing. */
  predicate NonBlank(p: string) {
    |Trim(p)| > 0
  }

  /** `Clean` is `map(String::trim).filter(s -> !s.isEmpty())`: exactly the
      trimmed non-blank pieces, in their order. */
  lemma {:induction false} CleanPicks(ps: seq<string>)
    ensures Clean(ps) == Pick(ps, Indices(ps, NonBlank), Trim)
    decreases |ps|
  {
    if |ps| > 0 {
      CleanPicks(ps[1..]);
      PickCons(ps, NonBlank, Trim);
    }
  }

  /** No comma of `p` sits at brace depth 0 of `p` (square brackets do not
      count towards the depth). */
  predicate NoTopComma(p: string) {
    forall k :: 0 <= k < |p| && p[k] == ',' ==> Depth(Curly, p[..k]) != 0
  }

  /** `ps` are the pieces of `arr` between its commas at brace depth 0: each
      piece followed by a separator is balanced, none holds a depth-0 comma,
      and joining them with commas gives `arr` back, but for a trailing
      separator whose empty piece is not kept. */
  predicate PiecesOf(ps: seq<string>, arr: string) {
    && (forall j :: 0 <= j < |ps| ==> NoTopComma(ps[j]))
    && (forall j :: 0 <= j < |ps| - 1 ==> Depth(Curly, ps[j]) == 0)
    && (|ps| == 0 <==> arr == "")
    && (|ps| > 0 ==>
          || (Join(ps, ",") == arr && |ps[|ps| - 1]| > 0)
          || (Join(ps, ",") + "," == arr && Depth(Curly, ps[|ps| - 1]) == 0))
  }

  /** The pieces `splitTopLevel` collects before trimming. */
  function RawPieces(arr: string): (ps: seq<string>)
    ensures PiecesOf(ps, arr)
  {
    assert arr[..0] == "" && arr[0..0] == "";
    var ps := SplitScan(arr, 0, 0, 0, []);
    ScanPieces(arr, 0, 0, 0, [], ps);
    ps
  }

  lemma JoinSnoc(ps: seq<string>, p: string, sep: string)
    requires |ps| > 0
    ensures Join(ps + [p], sep) == Join(ps, sep) + sep + p
    decreases |ps|
  {
    if |ps| > 1 {
      assert (ps + [p])[1..] == ps[1..] + [p];
      JoinSnoc(ps[1..], p, sep);
    } else {
      assert (ps + [p])[1..] == [p];
    }
  }

  /** The pieces closed so far: joined with a comma after each, they are the
      text before `start`. */
  predicate Closed(acc: seq<string>, prefix: string) {
    && (forall j :: 0 <= j < |acc| ==> NoTopComma(acc[j]) && Depth(Curly, acc[j]) == 0)
    && (|acc| == 0 ==> prefix == "")
    && (|acc| > 0 ==> Join(acc, ",") + "," == prefix)
  }

  /** The scan's invariant: closed pieces before `start`, and the open piece
      `arr[start..i]` has the carried depth and no depth-0 comma. */
  lemma {:induction false} ScanPieces(arr: string, i: nat, depth: int, start: nat, acc: seq<string>, ps: seq<string>)
    requires start <= i <= |arr|
    requires Closed(acc, arr[..start])
    requires depth == Depth(Curly, arr[start..i]) && NoTopComma(arr[start..i])
    requires ps == SplitScan(arr, i, depth, start, acc)
    ensures PiecesOf(ps, arr)
    decreases |arr| - i
  {
    if i == |arr| {
      assert arr[start..i] == arr[start..];
      assert ps == if start < |arr| then acc + [arr[start..]] else acc;
      ScanEnd(arr, start, acc);
    } else if arr[i] == ',' && depth == 0 {
      CutClosed(arr, start, i, acc);
      assert arr[i + 1..i + 1] == "";
      ScanPieces(arr, i + 1, depth, i + 1, acc + [arr[start..i]], ps);
    } else {
      var d := if arr[i] == '{' then depth + 1 else if arr[i] == '}' then depth - 1 else depth;
      OpenPieceStep(arr, start, i, depth);
      ScanPieces(arr, i + 1, d, start, acc, ps);
    }
  }

  /** At the end of the text the open piece is kept unless it is empty. */
  lemma ScanEnd(arr: string, start: nat, acc: seq<string>)
    requires start <= |arr| && Closed(acc, arr[..start]) && NoTopComma(arr[start..])
    ensures PiecesOf(if start < |arr| then acc + [arr[start..]] else acc, arr)
  {
    if start < |arr| {
      var p := arr[start..];
      var ps := acc + [p];
      assert ps[|ps| - 1] == p;
      if |acc| > 0 {
        JoinSnoc(acc, p, ",");
        assert arr[..start] + p == arr;
      } else {
        assert arr == p;
      }
    } else if |acc| > 0 {
      assert arr[..start] == arr;
    }
  }

  /** A comma at depth 0 closes the open piece. */
  lemma CutClosed(arr: string, start: nat, i: nat, acc: seq<string>)
    requires start <= i < |arr| && arr[i] == ',' && Closed(acc, arr[..start])
    requires Depth(Curly, arr[start..i]) == 0 && NoTopComma(arr[start..i])
    ensures Closed(acc + [arr[start..i]], arr[..i + 1])
  {
    var p := arr[start..i];
    assert arr[..i + 1] == arr[..start] + p + ",";
    if |acc| > 0 {
      JoinSnoc(acc, p, ",");
    }
  }

  /** Scanning one more character that is not a depth-0 comma keeps the open
      piece free of depth-0 commas. */
  lemma OpenPieceStep(arr: string, start: nat, i: nat, depth: int)
    requires start <= i < |arr|
    requires depth == Depth(Curly, arr[start..i]) && NoTopComma(arr[start..i])
    requires !(arr[i] == ',' && depth == 0)
    ensures NoTopComma(arr[start..i + 1])
    ensures Depth(Curly, arr[start..i + 1]) == if arr[i] == '{' then depth + 1 else if arr[i] == '}' then depth - 1 else depth
  {
    DepthStep(Curly, arr, start, i);
    var p := arr[start..i + 1];
    forall k | 0 <= k < |p| && p[k] == ','
      ensures Depth(Curly, p[..k]) != 0
    {
      assert p[..k] == arr[start..i][..k] || k == i - start;
      if k == i - start {
        assert p[..k] == arr[start..i];
      } else {
        assert p[k] == arr[start..i][k];
      }
    }
  }

  /** `splitTopLevel`: the array body cut at its commas at brace depth 0,
      each piece trimmed, blank pieces dropped. */
  function SplitTopLevel(arr: string): (r: seq<string>)
    ensures forall k :: 0 <= k < |r| ==> |r[k]| > 0 && Trim(r[k]) == r[k]
  {
    Clean(SplitScan(arr, 0, 0, 0, []))
  }

  /** What `splitTopLevel` returns: of the pieces between the commas at brace
      depth 0, exactly the non-blank ones, trimmed, in their order. */
  lemma SplitTopLevelPieces(arr: string)
    ensures var ps := RawPieces(arr);
            && PiecesOf(ps, arr)
            && SplitTopLevel(arr) == Pick(ps, Indices(ps, NonBlank), Trim)
  {
    CleanPicks(RawPieces(arr));
  }

  /** Without any comma the scan never splits: at most the one remaining piece. */
  lemma {:induction false} SplitScanNoComma(arr: string, i: nat, depth: int, start: nat, acc: seq<string>)
    requires start <= i <= |arr|
    requires forall k :: i <= k < |arr| ==> arr[k] != ','
    ensures SplitScan(arr, i, depth, start, acc) == acc + (if start < |arr| then [arr[start..]] else [])
    decreases |arr| - i
  {
    if i < |arr| {
      var d := if arr[i] == '{' then depth + 1 else if arr[i] == '}' then depth - 1 else depth;
      SplitScanNoComma(arr, i + 1, d, start, acc);
    }
  }

  /** Blank input yields no pieces at all. */
  lemma SplitTopLevelBlank(arr: string)
    requires AllBlank(arr)
    ensures SplitTopLevel(arr) == []
  {
    assert forall k :: 0 <= k < |arr| ==> arr[k] != ',' by {
      forall k | 0 <= k < |arr| ensures arr[k] != ',' { assert Blank(arr[k]); }
    }
    SplitScanNoComma(arr, 0, 0, 0, []);
    if |arr| > 0 {
      assert arr[0..] == arr;
      assert Trim(arr) == [];
      assert Clean([arr]) == [] by { assert [arr][1..] == []; }
    }
  }

  /** A brace-closed piece: its braces balance, never go negative, and every
      comma in it sits inside a brace group, so the scan never splits it. */
  predicate CurlyClosed(p: string) {
    && Depth(Curly, p) == 0
    && (forall k :: 0 <= k <= |p| ==> Depth(Curly, p[..k]) >= 0)
    && (forall k :: 0 <= k < |p| && p[k] == ',' ==> Depth(Curly, p[..k]) > 0)
  }

  /** Scanning across a closed piece that starts at depth 0 makes no split and
      ends at depth 0. */
  lemma {:induction false} ScanAcrossPiece(arr: string, i: nat, p: string, k: nat, start: nat, acc: seq<string>)
    requires start <= i && i + |p| <= |arr| && arr[i..i + |p|] == p
    requires CurlyClosed(p) && k <= |p|
    ensures SplitScan(arr, i + k, Depth(Curly, p[..k]), start, acc) == SplitScan(arr, i + |p|, 0, start, acc)
    decreases |p| - k
  {
    if k < |p| {
      assert arr[i + k] == p[k];
      assert p[..k + 1][..k] == p[..k];
      assert Depth(Curly, p[..k + 1]) == Depth(Curly, p[..k]) + Delta(Curly, p[k]);
      ScanAcrossPiece(arr, i, p, k + 1, start, acc);
    } else {
      assert p[..k] == p;
    }
  }

  lemma ConsAppend<T>(acc: seq<T>, ps: seq<T>)
    requires |ps| > 0
    ensures acc + [ps[0]] + ps[1..] == acc + ps
  {
    assert ps == [ps[0]] + ps[1..];
  }

  /** Scanning a comma-joined list of closed pieces yields exactly those pieces. */
  lemma {:induction false} ScanJoined(arr: string, i: nat, ps: seq<string>, acc: seq<string>)
    requires |ps| > 0 && forall j :: 0 <= j < |ps| ==> |ps[j]| > 0 && CurlyClosed(ps[j])
    requires i <= |arr| && arr[i..] == Join(ps, ",")
    ensures SplitScan(arr, i, 0, i, acc) == acc + ps
    decreases |ps|
  {
    var p := ps[0];
    assert arr[i..i + |p|] == p by {
      assert Join(ps, ",")[..|p|] == p;
    }
    assert p[..0] == [];
    ScanAcrossPiece(arr, i, p, 0, i, acc);
    if |ps| == 1 {
      assert arr[i..] == p;
    } else {
      assert Join(ps, ",") == p + "," + Join(ps[1..], ",");
      assert arr[i + |p|] == ',';
      assert arr[i + |p| + 1..] == Join(ps[1..], ",");
      assert arr[i..i + |p|] == p;
      ScanJoined(arr, i + |p| + 1, ps[1..], acc + [p]);
      ConsAppend(acc, ps);
    }
  }

  lemma {:induction false} CleanKeeps(ps: seq<string>)
    requires forall j :: 0 <= j < |ps| ==> |ps[j]| > 0 && Unpadded(ps[j])
    ensures Clean(ps) == ps
    decreases |ps|
  {
    if |ps| > 0 {
      TrimUnpadded(ps[0]);
      CleanKeeps(ps[1..]);
    }
  }

  /** Round trip of the entity list: splitting the comma-joined text of
      non-empty, trimmed, brace-closed pieces gives the pieces back. */
  lemma SplitTopLevelJoin(ps: seq<string>)
    requires forall j :: 0 <= j < |ps| ==> |ps[j]| > 0 && Unpadded(ps[j]) && CurlyClosed(ps[j])
    ensures SplitTopLevel(Join(ps, ",")) == ps
  {
    if |ps| > 0 {
      var arr := Join(ps, ",");
      assert arr[0..] == arr;
      ScanJoined(arr, 0, ps, []);
      assert [] + ps == ps;
      CleanKeeps(ps);
    }
  }

  /** `extractArray`: for a `[` at `startIdx`, the text strictly between it and
      its matching `]` (square brackets only); `""` otherwise. */
  function ExtractArray(json: string, startIdx: nat): (r: string)
    ensures startIdx >= |json| || json[startIdx] != '[' ==> r == ""
    ensures startIdx < |json| && json[startIdx] == '[' ==>
              match MatchingClose(Square, json, startIdx)
              case None => r == ""
              case Some(e) => json[e] == ']' && r == json[startIdx + 1..e]
  {
    if startIdx >= |json| || json[startIdx] != '[' then ""
    else
      match MatchingClose(Square, json, startIdx)
      case Some(e) => json[startIdx + 1..e]
      case None => ""
  }

  /** Square brackets balance and never go negative. */
  predicate SquareBalanced(body: string) {
    && Depth(Square, body) == 0
    && forall k :: 0 <= k <= |body| ==> Depth(Square, body[..k]) >= 0
  }

  /** Round trip of the array reader: the body written between `[` and `]`
      is read back from the position of the `[`. */
  lemma ExtractArrayOfBracketed(pre: string, body: string, post: string)
    requires SquareBalanced(body)
    ensures ExtractArray(pre + "[" + body + "]" + post, |pre|) == body
  {
    var json := pre + "[" + body + "]" + post;
    var s := |pre|;
    assert json[s] == '[';
    forall k | s < k <= s + |body| + 1
      ensures Depth(Square, json[s..k]) == 1 + Depth(Square, body[..k - s - 1])
    {
      assert json[s..k] == "[" + body[..k - s - 1];
      DepthAppend(Square, "[", body[..k - s - 1]);
      assert Depth(Square, "[") == 1 by { assert "["[..0] == ""; }
    }
    var e := s + |body| + 1;
    assert json[e] == ']';
    assert body[..|body|] == body;
    assert Depth(Square, json[s..e + 1]) == 0 by {
      DepthStep(Square, json, s, e);
    }
    var m := MatchingClose(Square, json, s);
    assert m.Some? by {
      assert !(Depth(Square, json[s..e + 1]) > 0);
    }
    assert m.value == e;
    assert json[s + 1..e] == body;
  }
  /** Text that `field` reads back unchanged as a bare value: non-empty, no
      blank or whitespace character, no `,` or `}`, not starting a string or
      a group. Formatted numbers, `true` and `false` are such tokens. */
  predicate BareToken(v: string) {
    && |v| > 0
    && (forall k :: 0 <= k < |v| ==> !Blank(v[k]) && !IsWhitespace(v[k]) && !EndsBare(v[k]))
    && v[0] != '[' && v[0] != '{' && v[0] != '"'
  }

  /** The quoted key is found where it is first written. */
  lemma IndexOfFirstOccurrence(json: string, pat: string, i: nat)
    requires OccursAt(json, pat, i)
    requires forall k :: 0 <= k < i ==> !OccursAt(json, pat, k)
    ensures IndexOf(json, pat) == Some(i)
  {
  }

  /** The quoted key, first written at `i` and followed by a colon. */
  predicate KeyAt(json: string, key: string, i: nat) {
    && OccursAt(json, Quoted(key), i)
    && (forall k :: 0 <= k < i ==> !OccursAt(json, Quoted(key), k))
    && i + |key| + 2 < |json| && json[i + |key| + 2] == ':'
  }

  /** Locating the value: when the first occurrence of the quoted key (with
      no `:` inside the key) is followed by a colon, the value starts right
      after that colon. */
  lemma ValueStartAt(json: string, key: string, i: nat)
    requires KeyAt(json, key, i) && ':' !in key
    requires i + |key| + 3 < |json| && !IsWhitespace(json[i + |key| + 3])
    ensures ValueStart(json, key) == Some(i + |key| + 3)
  {
    var q := Quoted(key);
    IndexOfFirstOccurrence(json, q, i);
    var c := i + |q|;
    forall k | i <= k < c ensures json[k] != ':' {
      assert json[i..i + |q|] == q;
      assert json[k] == q[k - i];
      if 0 < k - i < |q| - 1 { assert q[k - i] == key[k - i - 1]; }
    }
    assert IndexOfChar(json, ':', i) == Some(c);
  }

  /** Decoding a bare member: `field` returns exactly the token written after
      the first occurrence of `"key":`, as long as a `,` or `}` follows it. */
  lemma FieldOfBareMember(json: string, key: string, i: nat, v: string)
    requires KeyAt(json, key, i) && ':' !in key && BareToken(v)
    requires i + |key| + 3 + |v| < |json| && json[i + |key| + 3..i + |key| + 3 + |v|] == v
    requires EndsBare(json[i + |key| + 3 + |v|])
    ensures Field(json, key) == Some(v)
  {
    var start := i + |key| + 3;
    assert json[start] == v[0];
    ValueStartAt(json, key, i);
    BareTokenEnd(json, start, v);
    FieldDispatch(json, key, start);
  }

  /** `field` hands the value over to the scanner its first character selects. */
  lemma FieldDispatch(json: string, key: string, start: nat)
    requires ValueStart(json, key) == Some(start)
    ensures json[start] == '[' || json[start] == '{' ==> Field(json, key) == GroupAt(json, start)
    ensures json[start] == '"' ==> Field(json, key) == StringAt(json, start)
    ensures json[start] != '[' && json[start] != '{' && json[start] != '"' ==> Field(json, key) == BareAt(json, start)
  {
  }

  lemma BareTokenEnd(json: string, start: nat, v: string)
    requires BareToken(v) && start + |v| < |json| && json[start..start + |v|] == v
    requires EndsBare(json[start + |v|])
    ensures BareAt(json, start) == Some(v)
  {
    forall e | start <= e < start + |v| ensures !EndsBare(json[e]) {
      assert json[e] == v[e - start];
    }
    assert BareEnd(json, start) == Some(start + |v|);
    TrimUnpadded(v);
  }

  /** A string value without quotes or a trailing backslash inside. */
  predicate PlainText(s: string) {
    '"' !in s && (|s| == 0 || s[|s| - 1] != '\\')
  }

  /** Decoding a string member: `field` returns the quoted text written after
      the first occurrence of `"key":`, quotes included. */
  lemma FieldOfStringMember(json: string, key: string, i: nat, s: string)
    requires KeyAt(json, key, i) && ':' !in key && PlainText(s)
    requires i + |key| + 3 + |s| + 2 <= |json| && json[i + |key| + 3..i + |key| + 3 + |s| + 2] == Quoted(s)
    ensures Field(json, key) == Some(Quoted(s))
  {
    var start := i + |key| + 3;
    assert json[start] == '"';
    ValueStartAt(json, key, i);
    StringTokenEnd(json, start, s);
    FieldDispatch(json, key, start);
  }

  lemma StringTokenEnd(json: string, start: nat, s: string)
    requires PlainText(s)
    requires start + |s| + 2 <= |json| && json[start..start + |s| + 2] == Quoted(s)
    ensures StringAt(json, start) == Some(Quoted(s))
  {
    var v := Quoted(s);
    var e := start + |s| + 1;
    assert json[e] == v[|s| + 1] == '"';
    assert json[e - 1] != '\\' by {
      if |s| > 0 { assert json[e - 1] == v[|s|] == s[|s| - 1]; } else { assert json[e - 1] == v[0]; }
    }
    forall k | start + 1 <= k < e ensures !EndsString(json, k) {
      assert json[k] == v[k - start] == s[k - start - 1];
    }
    assert EndsString(json, e);
    assert StringEnd(json, start + 1) == Some(e);
  }

  /** A key with a character the text does not hold cannot be found in it,
      so `field` returns `null`. */
  lemma FieldOfAbsentKey(json: string, key: string, c: char)
    requires c in key && c !in json
    ensures Field(json, key) == None
  {
    var q := Quoted(key);
    var j :| 0 <= j < |key| && key[j] == c;
    assert q[j + 1] == c;
    forall k ensures !OccursAt(json, q, k) {
      if 0 <= k && k + |q| <= |json| {
        assert json[k + j + 1] != c;
        assert json[k..k + |q|][j + 1] != q[j + 1];
      }
    }
  }
}

=== FILE: recording_service.dfy ===
/** `RecordingService`: while recording, every frame may add an input line
    and a keyframe line to a bounded queue that a writer drains into the
    recording file. The writer thread is modelled by `Drain`, which moves
    lines from the head of the queue to the written log. */
module RecordingService {
  import opened Wrappers
  import opened JavaString
  import opened Geometry
  import opened RecordFormat
  import Health
  import EntityFactory
  import RecordingConfig

  /** `DecimalFormat.format` with at most the given number of fraction
      digits and no grouping. */
  type Format = (nat, real) -> string

  /** A game object as the recorder sees it: `pos` is its transform,
      `render` its render component, `health` its health component. */
  datatype SceneObject = SceneObject(
    name: string,
    uuid: string,
    active: bool,
    pos: Option<Vec2>,
    render: Option<EntityFactory.Render>,
    health: Option<Health.Health>)

  /** The four fields the recorder reads by reflection from a game scene;
      `None` when reading them fails. */
  datatype Globals = Globals(score: int, fireballCooldown: real, bombCooldown: real, gameOver: bool)

  datatype Scene = Scene(className: string, globals: Option<Globals>, objects: seq<SceneObject>)

  datatype Service = Service(
    config: RecordingConfig.Config,
    digits: nat,
    recording: bool,
    elapsed: real,
    keyframeElapsed: real,
    lastScene: Option<Scene>,
    queue: seq<string>,
    written: seq<string>)

  const WarmupSec: real := 0.1

  /** `new RecordingService(config)`: idle, both clocks at 0, an empty queue
      bounded by the configured capacity (which `ArrayBlockingQueue`
      refuses below 1) and `max(0, quantizeDecimals)` fraction digits. */
  function New(config: RecordingConfig.Config): (r: Result<Service, string>)
    ensures r.Failure? <==> config.queueCapacity < 1
    ensures r.Success? ==>
              && r.value.config == config && !r.value.recording
              && r.value.elapsed == 0.0 && r.value.keyframeElapsed == 0.0
              && r.value.queue == [] && r.value.written == [] && r.value.lastScene.None?
              && r.value.digits as int == (if config.quantizeDecimals < 0 then 0 else config.quantizeDecimals)
              && ServiceOk(r.value)
  {
    if config.queueCapacity < 1 then Failure("IllegalArgumentException")
    else
      var d: nat := if config.quantizeDecimals < 0 then 0 else config.quantizeDecimals;
      Success(Service(config, d, false, 0.0, 0.0, None, [], []))
  }

  /** The queue stays within its capacity. */
  predicate ServiceOk(s: Service) {
    s.config.queueCapacity >= 1 && |s.queue| <= s.config.queueCapacity
  }

  /** `enqueue`: `offer` never blocks; a full queue drops the line. */
  function Offer(s: Service, line: string): (r: Service)
    ensures |s.queue| < s.config.queueCapacity ==> r.queue == s.queue + [line]
    ensures |s.queue| >= s.config.queueCapacity ==> r.queue == s.queue
    ensures r == s.(queue := r.queue)
    ensures ServiceOk(s) ==> ServiceOk(r)
  {
    if |s.queue| < s.config.queueCapacity then s.(queue := s.queue + [line]) else s
  }

  function OfferAll(s: Service, lines: seq<string>): (r: Service)
    decreases |lines|
    ensures r == s.(queue := r.queue) && s.queue <= r.queue
    ensures ServiceOk(s) ==> ServiceOk(r)
    ensures |s.queue| + |lines| <= s.config.queueCapacity ==> r.queue == s.queue + lines
  {
    if |lines| == 0 then s
    else
      var r := OfferAll(Offer(s, lines[0]), lines[1..]);
      assert |s.queue| + |lines| <= s.config.queueCapacity ==> r.queue == s.queue + lines by {
        if |s.queue| + |lines| <= s.config.queueCapacity {
          assert s.queue + [lines[0]] + lines[1..] == s.queue + lines;
        }
      }
      r
  }

  /** The writer thread taking `k` lines off the head of the queue and
      appending them to the file, in order. */
  function Drain(s: Service, k: nat): (r: Service)
    requires k <= |s.queue|
    ensures r.written + r.queue == s.written + s.queue
    ensures r.written == s.written + s.queue[..k]
    ensures r == s.(queue := r.queue, written := r.written)
    ensures ServiceOk(s) ==> ServiceOk(r)
  {
    assert s.queue == s.queue[..k] + s.queue[k..];
    s.(written := s.written + s.queue[..k], queue := s.queue[k..])
  }

  /** `{"type":"header","version":1,"w":W,"h":H}`. */
  function HeaderLine(w: int, h: int): string {
    Render(Obj([Member("type", Str("header")), Member("version", Bare("1")),
                Member("w", Bare(IntToString(w))), Member("h", Bare(IntToString(h)))]))
  }

  /** `start`: nothing while already recording; if the writer cannot be
      opened the call throws and nothing changes; otherwise recording starts
      with the header as the next line and the keyframe clock at 0. The
      elapsed clock is not reset. */
  function Start(s: Service, w: int, h: int, writerOpens: bool): (r: Result<Service, string>)
    ensures s.recording ==> r == Success(s)
    ensures !s.recording && !writerOpens ==> r.Failure?
    ensures !s.recording && writerOpens ==>
              && r.Success? && r.value.recording
              && r.value.keyframeElapsed == 0.0 && r.value.elapsed == s.elapsed
              && r.value.queue == Offer(s, HeaderLine(w, h)).queue
              && r.value.written == s.written && r.value.lastScene == s.lastScene
    ensures r.Success? && ServiceOk(s) ==> ServiceOk(r.value)
  {
    if s.recording then Success(s)
    else if !writerOpens then Failure("IOException")
    else Success(Offer(s.(recording := true), HeaderLine(w, h)).(keyframeElapsed := 0.0))
  }

  /** `{"type":"input","t":T,"keys":[k1,...]}` for the keys just pressed,
      in the snapshot's iteration order. */
  function InputLine(t: string, keys: seq<int>): string {
    Render(Obj([Member("type", Str("input")), Member("t", Bare(t)),
                Member("keys", Arr(seq(|keys|, i requires 0 <= i < |keys| => Bare(IntToString(keys[i])))))]))
  }

  /** Objects that make it into a keyframe: active, with a transform. */
  predicate Recordable(o: SceneObject) {
    o.active && o.pos.Some?
  }

  function RecordableObjects(objs: seq<SceneObject>): (r: seq<SceneObject>)
    ensures |r| <= |objs|
    ensures forall i :: 0 <= i < |r| ==> Recordable(r[i]) && r[i] in objs
    ensures forall o :: o in objs && Recordable(o) ==> o in r
    ensures |r| == 0 <==> forall i :: 0 <= i < |objs| ==> !Recordable(objs[i])
  {
    if |objs| == 0 then []
    else
      var rest := RecordableObjects(objs[1..]);
      assert forall o :: o in objs[1..] ==> o in objs;
      if Recordable(objs[0]) then [objs[0]] + rest else rest
  }

  /** The id of a recorded entity: name, `_`, UUID. */
  function EntityId(o: SceneObject): string {
    o.name + "_" + o.uuid
  }

  /** The members of one entity: id, x and y, then the render part and the
      health part. */
  function EntityMembers(o: SceneObject, d: nat, format: Format): (ms: seq<Member>)
    requires o.pos.Some?
    ensures |ms| >= 4
    ensures ms[0] == Member("id", Str(EntityId(o)))
    ensures ms[1] == Member("x", Bare(format(d, o.pos.value.x)))
    ensures ms[2] == Member("y", Bare(format(d, o.pos.value.y)))
    ensures Keys(ms) == ["id", "x", "y"] + LookKeys(o.render) + LifeKeys(o.health)
    ensures o.render.None? ==> Member("rt", Str("CUSTOM")) in ms
    ensures o.render.Some? ==> Member("rt", Str(TypeName(o.render.value.kind))) in ms
  {
    var head := EntityHead(o, d, format);
    var look := LookMembers(o.render, d, format);
    var life := LifeMembers(o.health, d, format);
    KeysAppend(head, look);
    KeysAppend(head + look, life);
    assert Keys(head) == ["id", "x", "y"];
    var ms := head + look + life;
    assert forall m :: m in look ==> m in ms;
    ms
  }

  /** The id and the position of an entity. */
  function EntityHead(o: SceneObject, d: nat, format: Format): seq<Member>
    requires o.pos.Some?
  {
    [Member("id", Str(EntityId(o))), Member("x", Bare(format(d, o.pos.value.x))),
     Member("y", Bare(format(d, o.pos.value.y)))]
  }

  /** The keys of an entity's render part. */
  function LookKeys(render: Option<EntityFactory.Render>): seq<string> {
    match render
    case None => ["rt"]
    case Some(rc) => (if rc.visible then [] else ["v"]) + ["rt", "w", "h", "color"]
  }

  /** The keys of an entity's health part. */
  function LifeKeys(health: Option<Health.Health>): seq<string> {
    match health
    case None => []
    case Some(hc) => ["hp", "maxHp"] + (if hc.invincible then ["inv"] else [])
  }

  /** Which optional keys an entity carries: `"v"` only for an invisible
      render component, size and colour exactly with a render component, `hp`
      and `maxHp` exactly with a health component, and `inv` only when that
      component is invincible. */
  lemma EntityKeys(o: SceneObject, d: nat, format: Format)
    requires o.pos.Some?
    ensures var ks := Keys(EntityMembers(o, d, format));
            && "rt" in ks
            && ("v" in ks <==> o.render.Some? && !o.render.value.visible)
            && ("color" in ks <==> o.render.Some?)
            && ("w" in ks <==> o.render.Some?)
            && ("hp" in ks <==> o.health.Some?)
            && ("maxHp" in ks <==> o.health.Some?)
            && ("inv" in ks <==> o.health.Some? && o.health.value.invincible)
  {
    var ks := Keys(EntityMembers(o, d, format));
    var head: seq<string> := ["id", "x", "y"];
    assert ks == head + LookKeys(o.render) + LifeKeys(o.health);
    LookKeysHold(o.render);
    LifeKeysHold(o.health);
    assert "rt" in LookKeys(o.render);
    assert forall k :: k in ks <==> k in head || k in LookKeys(o.render) || k in LifeKeys(o.health);
  }

  lemma LookKeysHold(render: Option<EntityFactory.Render>)
    ensures var ks := LookKeys(render);
            && "rt" in ks && "hp" !in ks && "maxHp" !in ks && "inv" !in ks
            && ("v" in ks <==> render.Some? && !render.value.visible)
            && ("color" in ks <==> render.Some?) && ("w" in ks <==> render.Some?)
  {
    match render
    case None =>
    case Some(rc) =>
      if rc.visible {
        assert LookKeys(render) == ["rt", "w", "h", "color"];
      } else {
        assert LookKeys(render) == ["v", "rt", "w", "h", "color"];
      }
  }

  lemma LifeKeysHold(health: Option<Health.Health>)
    ensures var ks := LifeKeys(health);
            && "rt" !in ks && "v" !in ks && "color" !in ks && "w" !in ks
            && ("hp" in ks <==> health.Some?) && ("maxHp" in ks <==> health.Some?)
            && ("inv" in ks <==> health.Some? && health.value.invincible)
  {
    match health
    case None =>
    case Some(hc) =>
      if hc.invincible {
        assert LifeKeys(health) == ["hp", "maxHp", "inv"];
      } else {
        assert LifeKeys(health) == ["hp", "maxHp"];
      }
  }

  /** The render part of an entity: `"v":0` when invisible, then rt, w, h and
      color; just `"rt":"CUSTOM"` without a render component. */
  function LookMembers(render: Option<EntityFactory.Render>, d: nat, format: Format): (ms: seq<Member>)
    ensures render.None? ==> ms == [Member("rt", Str("CUSTOM"))]
    ensures Keys(ms) == LookKeys(render)
    ensures render.Some? ==> Member("rt", Str(TypeName(render.value.kind))) in ms
  {
    match render
    case Some(rc) =>
      var ms := (if rc.visible then [] else [Member("v", Bare("0"))])
        + [Member("rt", Str(TypeName(rc.kind))),
           Member("w", Bare(format(d, rc.size.x))), Member("h", Bare(format(d, rc.size.y))),
           Member("color", Arr([Bare(format(d, rc.color.r)), Bare(format(d, rc.color.g)),
                                Bare(format(d, rc.color.b)), Bare(format(d, rc.color.a))]))];
      assert ms[|ms| - 4] == Member("rt", Str(TypeName(rc.kind)));
      ms
    case None => [Member("rt", Str("CUSTOM"))]
  }

  /** The health part of an entity: hp and maxHp, then `"inv":1` when
      invincible; nothing without a health component. */
  function LifeMembers(health: Option<Health.Health>, d: nat, format: Format): (ms: seq<Member>)
    ensures health.None? ==> ms == []
    ensures Keys(ms) == LifeKeys(health)
  {
    match health
    case Some(hc) =>
      [Member("hp", Bare(format(d, hc.current))), Member("maxHp", Bare(format(d, hc.max)))]
      + (if hc.invincible then [Member("inv", Bare("1"))] else [])
    case None => []
  }

  /** The reflected global block appears only for a scene whose class name
      ends with "GameScene" and whose fields could be read. */
  function GlobalMembers(scene: Scene, d: nat, format: Format): (ms: seq<Member>)
    ensures |ms| <= 1
    ensures |ms| == 1 <==> EndsWith(scene.className, "GameScene") && scene.globals.Some?
    ensures |ms| == 1 ==> ms[0].key == "global"
  {
    if EndsWith(scene.className, "GameScene") && scene.globals.Some? then
      var g := scene.globals.value;
      [Member("global", Obj([Member("score", Bare(IntToString(g.score))),
                             Member("fcd", Bare(format(d, g.fireballCooldown))),
                             Member("bcd", Bare(format(d, g.bombCooldown))),
                             Member("over", Bare(BoolToString(g.gameOver)))]))]
    else []
  }

  /** The members of a keyframe line at time `t`: type, t, the optional
      global block, and the entities in scene order. */
  function KeyframeMembers(scene: Scene, t: real, d: nat, format: Format): (ms: seq<Member>)
    ensures |ms| >= 3
    ensures ms[0] == Member("type", Str("keyframe")) && ms[1] == Member("t", Bare(format(d, t)))
    ensures ms[|ms| - 1].key == "entities"
  {
    var ents := RecordableObjects(scene.objects);
    [Member("type", Str("keyframe")), Member("t", Bare(format(d, t)))]
    + GlobalMembers(scene, d, format)
    + [Member("entities", Arr(seq(|ents|, i requires 0 <= i < |ents| => Obj(EntityMembers(ents[i], d, format)))))]
  }

  /** `writeKeyframe` without the enqueue: the line for the scene at the
      current elapsed time, or `None` (it returns false) when no object is
      recordable. */
  function KeyframeLine(scene: Scene, t: real, d: nat, format: Format): (r: Option<string>)
    ensures r.None? <==> forall i :: 0 <= i < |scene.objects| ==> !Recordable(scene.objects[i])
    ensures r.Some? ==> r.value == Render(Obj(KeyframeMembers(scene, t, d, format)))
  {
    if |RecordableObjects(scene.objects)| == 0 then None
    else Some(Render(Obj(KeyframeMembers(scene, t, d, format))))
  }

  /** The lines one `update` tries to enqueue, in order: an input line iff
      keys were just pressed, then a keyframe iff both clocks passed their
      thresholds and the scene has a recordable object. */
  function Emitted(s: Service, keys: seq<int>, scene: Scene, format: Format): (lines: seq<string>)
    ensures |keys| > 0 ==> |lines| >= 1 && lines[0] == InputLine(format(s.digits, s.elapsed), keys)
    ensures |lines| == (if |keys| > 0 then 1 else 0) + (if KeyframeDue(s) && KeyframeLine(scene, s.elapsed, s.digits, format).Some? then 1 else 0)
    ensures KeyframeDue(s) && KeyframeLine(scene, s.elapsed, s.digits, format).Some? ==>
              lines[|lines| - 1] == KeyframeLine(scene, s.elapsed, s.digits, format).value
  {
    (if |keys| > 0 then [InputLine(format(s.digits, s.elapsed), keys)] else [])
    + (if KeyframeDue(s) then match KeyframeLine(scene, s.elapsed, s.digits, format) case Some(l) => [l] case None => [] else [])
  }

  /** Past the warm-up and a keyframe interval since the last keyframe. */
  predicate KeyframeDue(s: Service) {
    s.elapsed >= WarmupSec && s.keyframeElapsed >= s.config.keyframeIntervalSec
  }

  /** `update`: nothing while idle. Otherwise both clocks advance, the scene
      is remembered, and the lines of `Emitted` are offered in order. The
      keyframe clock restarts only when a keyframe line was produced, even
      if the full queue then dropped it. */
  function Update(s: Service, dt: real, scene: Scene, keys: seq<int>, format: Format): (r: Service)
    ensures !s.recording ==> r == s
    ensures s.recording ==>
              var s1 := s.(elapsed := s.elapsed + dt, keyframeElapsed := s.keyframeElapsed + dt, lastScene := Some(scene));
              && r.recording && r.elapsed == s.elapsed + dt && r.lastScene == Some(scene)
              && r.written == s.written && r.config == s.config && r.digits == s.digits
              && r.queue == OfferAll(s1, Emitted(s1, keys, scene, format)).queue
              && (KeyframeDue(s1) && KeyframeLine(scene, s1.elapsed, s.digits, format).Some? ==> r.keyframeElapsed == 0.0)
              && (!(KeyframeDue(s1) && KeyframeLine(scene, s1.elapsed, s.digits, format).Some?) ==> r.keyframeElapsed == s.keyframeElapsed + dt)
    ensures ServiceOk(s) ==> ServiceOk(r)
  {
    if !s.recording then s
    else
      var s1 := s.(elapsed := s.elapsed + dt, keyframeElapsed := s.keyframeElapsed + dt, lastScene := Some(scene));
      var s2 := OfferAll(s1, Emitted(s1, keys, scene, format));
      if KeyframeDue(s1) && KeyframeLine(scene, s1.elapsed, s.digits, format).Some? then s2.(keyframeElapsed := 0.0)
      else s2
  }

  /** `stop`: nothing while idle; otherwise one last keyframe of the last
      scene seen (if any, and if it has a recordable object) is offered and
      recording ends. The clocks are left as they are. */
  function Stop(s: Service, format: Format): (r: Service)
    ensures !s.recording ==> r == s
    ensures s.recording ==> !r.recording && r.elapsed == s.elapsed && r.keyframeElapsed == s.keyframeElapsed
    ensures s.recording ==>
              r.queue == (match s.lastScene
                          case None => s.queue
                          case Some(sc) =>
                            match KeyframeLine(sc, s.elapsed, s.digits, format)
                            case None => s.queue
                            case Some(l) => Offer(s, l).queue)
    ensures ServiceOk(s) ==> ServiceOk(r)
  {
    if !s.recording then s
    else
      var s1 := match s.lastScene
        case None => s
        case Some(sc) =>
          match KeyframeLine(sc, s.elapsed, s.digits, format)
          case None => s
          case Some(l) => Offer(s, l);
      s1.(recording := false)
  }

  /** One frame of the game loop as the recorder sees it. */
  datatype Frame = Frame(dt: real, scene: Scene, keys: seq<int>)

  /** The clock value `update` stamps on the keyframe line it produces for
      this frame, or `None` when it produces none. */
  function KeyframeStamp(s: Service, f: Frame, format: Format): (t: Option<real>)
    ensures t.Some? ==> s.recording && t.value == s.elapsed + f.dt
    ensures s.recording ==>
              var s1 := s.(elapsed := s.elapsed + f.dt, keyframeElapsed := s.keyframeElapsed + f.dt, lastScene := Some(f.scene));
              var lines := Emitted(s1, f.keys, f.scene, format);
              && (t.None? ==> |lines| == (if |f.keys| > 0 then 1 else 0))
              && (t.Some? ==>
                    && KeyframeLine(f.scene, t.value, s.digits, format).Some? && |lines| > 0
                    && lines[|lines| - 1] == KeyframeLine(f.scene, t.value, s.digits, format).value)
  {
    if !s.recording then None
    else
      var s1 := s.(elapsed := s.elapsed + f.dt, keyframeElapsed := s.keyframeElapsed + f.dt, lastScene := Some(f.scene));
      if KeyframeDue(s1) && KeyframeLine(f.scene, s1.elapsed, s.digits, format).Some? then Some(s1.elapsed) else None
  }

  predicate NonNegativeFrames(frames: seq<Frame>) {
    forall i :: 0 <= i < |frames| ==> frames[i].dt >= 0.0
  }

  /** `update` called once per frame, in order. */
  function Run(s: Service, frames: seq<Frame>, format: Format): (r: Service)
    decreases |frames|
    ensures NonNegativeFrames(frames) ==> r.elapsed >= s.elapsed
    ensures ServiceOk(s) ==> ServiceOk(r)
  {
    if |frames| == 0 then s
    else
      var f := frames[0];
      Run(Update(s, f.dt, f.scene, f.keys, format), frames[1..], format)
  }

  /** The clock values stamped on the keyframe lines offered during `Run`, in
      the order they were offered. */
  function Stamps(s: Service, frames: seq<Frame>, format: Format): seq<real>
    decreases |frames|
  {
    if |frames| == 0 then []
    else
      var f := frames[0];
      FrameStamps(s, f, format) + Stamps(Update(s, f.dt, f.scene, f.keys, format), frames[1..], format)
  }

  /** The stamp of one frame's keyframe line as a sequence of at most one. */
  function FrameStamps(s: Service, f: Frame, format: Format): seq<real> {
    match KeyframeStamp(s, f, format) case Some(t) => [t] case None => []
  }

  /** The clock value stamped on the final keyframe `stop` offers, if it
      offers one. */
  function StopStamp(s: Service, format: Format): (t: seq<real>)
    ensures |t| <= 1
    ensures |t| == 1 ==>
              && s.recording && t[0] == s.elapsed && s.lastScene.Some?
              && KeyframeLine(s.lastScene.value, t[0], s.digits, format).Some?
              && Stop(s, format).queue == Offer(s, KeyframeLine(s.lastScene.value, t[0], s.digits, format).value).queue
    ensures |t| == 0 ==> Stop(s, format).queue == s.queue
  {
    if !s.recording then []
    else match s.lastScene
      case None => []
      case Some(sc) => if KeyframeLine(sc, s.elapsed, s.digits, format).Some? then [s.elapsed] else []
  }

  predicate NonDecreasing(ts: seq<real>) {
    forall i, j :: 0 <= i < j < |ts| ==> ts[i] <= ts[j]
  }

  /** With non-negative frame times the keyframe stamps of a run never go
      backwards and lie between the clock values before and after it. */
  lemma {:induction false} StampsOrdered(s: Service, frames: seq<Frame>, format: Format)
    requires NonNegativeFrames(frames)
    ensures var ts := Stamps(s, frames, format);
            && NonDecreasing(ts)
            && forall i :: 0 <= i < |ts| ==> s.elapsed <= ts[i] <= Run(s, frames, format).elapsed
    decreases |frames|
  {
    if |frames| > 0 {
      var f := frames[0];
      var s' := Update(s, f.dt, f.scene, f.keys, format);
      StampStep(s, frames, format);
      StampsOrdered(s', frames[1..], format);
      OrderedConcat(FrameStamps(s, f, format), Stamps(s', frames[1..], format), s.elapsed, s'.elapsed, Run(s', frames[1..], format).elapsed);
    }
  }

  /** The first frame of a run: its stamp is the clock after it, which has
      not gone back. */
  lemma StampStep(s: Service, frames: seq<Frame>, format: Format)
    requires |frames| > 0 && NonNegativeFrames(frames)
    ensures var f := frames[0];
            var s' := Update(s, f.dt, f.scene, f.keys, format);
            && NonNegativeFrames(frames[1..])
            && Stamps(s, frames, format) == FrameStamps(s, f, format) + Stamps(s', frames[1..], format)
            && Run(s, frames, format) == Run(s', frames[1..], format)
            && s.elapsed <= s'.elapsed
            && (forall i :: 0 <= i < |FrameStamps(s, f, format)| ==> FrameStamps(s, f, format)[i] == s'.elapsed)
  {
    assert forall i :: 0 <= i < |frames| - 1 ==> frames[1..][i] == frames[i + 1];
    ClockStep(s, frames[0], format);
  }

  /** One frame with a non-negative time moves the clock forward, and its
      keyframe carries the new clock value. */
  lemma ClockStep(s: Service, f: Frame, format: Format)
    requires f.dt >= 0.0
    ensures var s' := Update(s, f.dt, f.scene, f.keys, format);
            && s.elapsed <= s'.elapsed
            && (forall i :: 0 <= i < |FrameStamps(s, f, format)| ==> FrameStamps(s, f, format)[i] == s'.elapsed)
  {
  }

  /** A run of stamps all equal to `mid`, followed by ordered stamps that lie
      between `mid` and `hi`, is ordered and lies between `lo` and `hi`. */
  lemma OrderedConcat(head: seq<real>, rest: seq<real>, lo: real, mid: real, hi: real)
    requires lo <= mid <= hi
    requires forall i :: 0 <= i < |head| ==> head[i] == mid
    requires NonDecreasing(rest) && forall i :: 0 <= i < |rest| ==> mid <= rest[i] <= hi
    ensures NonDecreasing(head + rest) && forall i :: 0 <= i < |head + rest| ==> lo <= (head + rest)[i] <= hi
  {
  }

  /** A whole recording, frames with non-negative times and then `stop`:
      the `t` of every keyframe line offered to the queue, the final one
      included, never decreases along the recording. */
  lemma RecordingStampsOrdered(s: Service, frames: seq<Frame>, format: Format)
    requires NonNegativeFrames(frames)
    ensures var ts := Stamps(s, frames, format) + StopStamp(Run(s, frames, format), format);
            NonDecreasing(ts) && forall i :: 0 <= i < |ts| ==> s.elapsed <= ts[i]
  {
    var r := Run(s, frames, format);
    StampsOrdered(s, frames, format);
    var ts := Stamps(s, frames, format);
    var last := StopStamp(r, format);
    assert forall i :: 0 <= i < |last| ==> last[i] == r.elapsed;
    OrderedConcat(last, [], s.elapsed, r.elapsed, r.elapsed);
    assert forall i :: 0 <= i < |ts| ==> ts[i] <= r.elapsed;
  }
}

=== FILE: replay_loader.dfy ===
/** `ReplayScene.loadRecording` and its `Keyframe`/`EntityInfo` records:
    the keyframe lines of a recording are parsed back into timed maps from
    entity id to what was recorded about that entity, and ordered by time. */
module ReplayLoader {
  import opened Wrappers
  import opened JavaString
  import opened Geometry
  import opened RecordingJson
  import opened Selection

  /** `Double.parseDouble` / `Float.parseFloat`: `None` is a
      `NumberFormatException`. */
  type Parse = string -> Option<real>

  /** `Keyframe.EntityInfo`. A missing id is Java's `null`; the colour
      channels default to 1 and the health fields to -1 (no health). */
  datatype EntityInfo = EntityInfo(
    id: Option<string>,
    pos: Vec2,
    rt: Option<string>,
    w: real,
    h: real,
    color: Color,
    hp: real,
    maxHp: real)

  /** A keyframe: its time and the entities it holds, by id. */
  datatype Keyframe = Keyframe(t: real, entities: map<string, EntityInfo>)

  const White: Color := Color(1.0, 1.0, 1.0, 1.0)

  /** The text between `[` and the first `]` after it (or nothing when
      there is none), split on commas; `None` when the colour is missing or
      does not start with `[`. */
  function ColorPieces(colorArr: Option<string>): (r: Option<seq<string>>)
    ensures colorArr.None? ==> r.None?
    ensures colorArr.Some? ==> (r.None? <==> |colorArr.value| == 0 || colorArr.value[0] != '[')
    ensures r.Some? ==> forall i :: 0 <= i < |r.value| ==> ',' !in r.value[i]
  {
    match colorArr
    case None => None
    case Some(s) =>
      if |s| == 0 || s[0] != '[' then None
      else
        var end := match IndexOfChar(s, ']', 1) case Some(e) => e case None => 1;
        Some(Split(s[1..end], ','))
  }

  /** The first `n` colour pieces all parse. */
  predicate ParsedUpTo(ps: seq<string>, parse: Parse, n: nat)
    requires n <= |ps|
  {
    forall k :: 0 <= k < n ==> parse(Trim(ps[k])).Some?
  }

  /** The colour of an entity (lines 214-226): with at least three pieces,
      the channels are parsed in order and the first failure leaves that
      channel and every later one at 1; alpha is read only from a fourth
      piece. Anything else keeps the default white. */
  function ParseColor(colorArr: Option<string>, parse: Parse): (c: Color)
    ensures ColorPieces(colorArr).None? || |ColorPieces(colorArr).value| < 3 ==> c == White
    ensures ColorPieces(colorArr).Some? && |ColorPieces(colorArr).value| >= 3 ==>
              c == ParseChannels(ColorPieces(colorArr).value, parse)
  {
    match ColorPieces(colorArr)
    case None => White
    case Some(ps) => if |ps| < 3 then White else ParseChannels(ps, parse)
  }

  /** The `try` block: red, green and blue, then alpha from a fourth piece;
      the first piece that does not parse ends the block, so it and every
      later channel stay at 1. */
  function ParseChannels(ps: seq<string>, parse: Parse): (c: Color)
    requires |ps| >= 3
    ensures c.r == (if ParsedUpTo(ps, parse, 1) then parse(Trim(ps[0])).value else 1.0)
    ensures c.g == (if ParsedUpTo(ps, parse, 2) then parse(Trim(ps[1])).value else 1.0)
    ensures c.b == (if ParsedUpTo(ps, parse, 3) then parse(Trim(ps[2])).value else 1.0)
    ensures c.a == (if |ps| >= 4 && ParsedUpTo(ps, parse, 4) then parse(Trim(ps[3])).value else 1.0)
  {
    match parse(Trim(ps[0]))
    case None => White
    case Some(r) =>
      match parse(Trim(ps[1]))
      case None => Color(r, 1.0, 1.0, 1.0)
      case Some(g) =>
        match parse(Trim(ps[2]))
        case None => Color(r, g, 1.0, 1.0)
        case Some(b) =>
          if |ps| >= 4 then
            match parse(Trim(ps[3]))
            case None => Color(r, g, b, 1.0)
            case Some(a) => Color(r, g, b, a)
          else Color(r, g, b, 1.0)
  }

  /** Reading a colour back: `[r,g,b,a]` written from four comma-free texts
      that each parse gives back those four values. */
  lemma ColorRoundTrip(texts: seq<string>, parse: Parse, c: Color)
    requires |texts| == 4 && forall i :: 0 <= i < 4 ==> ',' !in texts[i] && ']' !in texts[i]
    requires |texts[3]| > 0
    requires parse(Trim(texts[0])) == Some(c.r) && parse(Trim(texts[1])) == Some(c.g)
    requires parse(Trim(texts[2])) == Some(c.b) && parse(Trim(texts[3])) == Some(c.a)
    ensures ParseColor(Some("[" + Join(texts, ",") + "]"), parse) == c
  {
    var body := Join(texts, ",");
    NoCharInJoin(texts, ",", ']');
    ColorPiecesOfBracketed(body);
    assert [','] == ",";
    SplitJoin(texts, ',');
    assert ColorPieces(Some("[" + body + "]")) == Some(texts);
    ChannelsOfParsed(texts, parse, c);
  }

  /** Four unpadded channel texts that parse read back as the colour of their values. */
  lemma ColorOfTexts(texts: seq<string>, parse: Parse)
    requires |texts| == 4
    requires forall i :: 0 <= i < 4 ==> ',' !in texts[i] && ']' !in texts[i] && Trim(texts[i]) == texts[i]
    requires forall i :: 0 <= i < 4 ==> parse(texts[i]).Some? && |texts[i]| > 0
    ensures ParseColor(Some("[" + Join(texts, ",") + "]"), parse)
            == Color(parse(texts[0]).value, parse(texts[1]).value, parse(texts[2]).value, parse(texts[3]).value)
  {
    var c := Color(parse(texts[0]).value, parse(texts[1]).value, parse(texts[2]).value, parse(texts[3]).value);
    ColorRoundTrip(texts, parse, c);
  }

  lemma ChannelsOfParsed(ps: seq<string>, parse: Parse, c: Color)
    requires |ps| == 4
    requires parse(Trim(ps[0])) == Some(c.r) && parse(Trim(ps[1])) == Some(c.g)
    requires parse(Trim(ps[2])) == Some(c.b) && parse(Trim(ps[3])) == Some(c.a)
    ensures ParseChannels(ps, parse) == c
  {
  }

  /** A bracketed text without `]` inside yields its comma pieces. */
  lemma ColorPiecesOfBracketed(body: string)
    requires ']' !in body
    ensures ColorPieces(Some("[" + body + "]")) == Some(Split(body, ','))
  {
    var s := "[" + body + "]";
    assert s[1..|s| - 1] == body;
    forall k | 1 <= k < |s| - 1 ensures s[k] != ']' {
      assert s[k] == body[k - 1];
    }
    assert s[|s| - 1] == ']';
    assert IndexOfChar(s, ']', 1) == Some(|s| - 1);
  }


  /** One entity of a keyframe (lines 198-226): every field is read with
      `field`, strings lose their quotes, numbers missing or unreadable are
      0, and health is read only when an `hp` member is present. */
  function ParseEntity(p: string, parseD: Parse, parseF: Parse): (e: EntityInfo)
    ensures e.id == StripQuotes(Field(p, "id")) && e.rt == StripQuotes(Field(p, "rt"))
    ensures e.pos == Vec2(ParseDouble(Field(p, "x"), parseD), ParseDouble(Field(p, "y"), parseD))
    ensures e.w == ParseDouble(Field(p, "w"), parseD) && e.h == ParseDouble(Field(p, "h"), parseD)
    ensures Field(p, "hp").None? ==> e.hp == -1.0 && e.maxHp == -1.0
    ensures Field(p, "hp").Some? ==>
              e.hp == ParseDouble(Field(p, "hp"), parseD) && e.maxHp == ParseDouble(Field(p, "maxHp"), parseD)
    ensures e.color == ParseColor(Field(p, "color"), parseF)
  {
    var hpStr := Field(p, "hp");
    EntityInfo(
      StripQuotes(Field(p, "id")),
      Vec2(ParseDouble(Field(p, "x"), parseD), ParseDouble(Field(p, "y"), parseD)),
      StripQuotes(Field(p, "rt")),
      ParseDouble(Field(p, "w"), parseD),
      ParseDouble(Field(p, "h"), parseD),
      ParseColor(Field(p, "color"), parseF),
      if hpStr.Some? then ParseDouble(hpStr, parseD) else -1.0,
      if hpStr.Some? then ParseDouble(Field(p, "maxHp"), parseD) else -1.0)
  }

  /** Piece `j` is the last one whose entity carries the id `k`. */
  predicate LastWithId(infos: seq<EntityInfo>, k: string, j: int) {
    && 0 <= j < |infos| && infos[j].id == Some(k)
    && forall j' :: j < j' < |infos| ==> infos[j'].id != Some(k)
  }

  /** The entity map of a keyframe, corrected: `put` in order, so a later
      entity with the same id replaces an earlier one, and an entity without
      an id is skipped. */
  function EntityMap(infos: seq<EntityInfo>): (m: map<string, EntityInfo>)
    ensures forall k :: k in m <==> exists j :: 0 <= j < |infos| && infos[j].id == Some(k)
    ensures forall k, j :: k in m && LastWithId(infos, k, j) ==> m[k] == infos[j]
  {
    if |infos| == 0 then map[]
    else
      var m0 := EntityMap(infos[..|infos| - 1]);
      var last := infos[|infos| - 1];
      var m := match last.id
               case Some(k) => m0[k := last]
               case None => m0;
      EntityMapPut(infos, m0, m);
      m
  }

  /** Putting the last entity into the map of the others. */
  lemma EntityMapPut(infos: seq<EntityInfo>, m0: map<string, EntityInfo>, m: map<string, EntityInfo>)
    requires |infos| > 0
    requires var pre := infos[..|infos| - 1];
             && (forall k :: k in m0 <==> exists j :: 0 <= j < |pre| && pre[j].id == Some(k))
             && (forall k, j :: k in m0 && LastWithId(pre, k, j) ==> m0[k] == pre[j])
    requires m == match infos[|infos| - 1].id
                  case Some(k) => m0[k := infos[|infos| - 1]]
                  case None => m0
    ensures forall k :: k in m <==> exists j :: 0 <= j < |infos| && infos[j].id == Some(k)
    ensures forall k, j :: k in m && LastWithId(infos, k, j) ==> m[k] == infos[j]
  {
    var pre := infos[..|infos| - 1];
    assert forall j :: 0 <= j < |pre| ==> pre[j] == infos[j];
    assert forall k, j :: LastWithId(infos, k, j) && j < |pre| ==> LastWithId(pre, k, j);
  }

  /** The entity map exactly as written: `HashMap.put` with a `null` id
      stores the entity under the `null` key. */
  function EntityMapAsWritten(infos: seq<EntityInfo>): (m: map<Option<string>, EntityInfo>)
    ensures forall k :: k in m <==> exists j :: 0 <= j < |infos| && infos[j].id == k
  {
    if |infos| == 0 then map[]
    else
      var m0 := EntityMapAsWritten(infos[..|infos| - 1]);
      assert forall j :: 0 <= j < |infos| - 1 ==> infos[..|infos| - 1][j] == infos[j];
      m0[infos[|infos| - 1].id := infos[|infos| - 1]]
  }

  /** The two maps agree on every entity that has an id. */
  lemma {:induction false} EntityMapAgrees(infos: seq<EntityInfo>)
    ensures forall k :: k in EntityMap(infos) <==> Some(k) in EntityMapAsWritten(infos)
    ensures forall k :: k in EntityMap(infos) ==> EntityMap(infos)[k] == EntityMapAsWritten(infos)[Some(k)]
    decreases |infos|
  {
    if |infos| > 0 {
      EntityMapAgrees(infos[..|infos| - 1]);
    }
  }

  const EntitiesMarker: string := "\"entities\":["

  const KeyframeMarker: string := "\"type\":\"keyframe\""

  function ParseAll(parts: seq<string>, parseD: Parse, parseF: Parse): (r: seq<EntityInfo>)
    ensures |r| == |parts| && forall i :: 0 <= i < |parts| ==> r[i] == ParseEntity(parts[i], parseD, parseF)
  {
    seq(|parts|, i requires 0 <= i < |parts| => ParseEntity(parts[i], parseD, parseF))
  }

  /** The entity texts of a keyframe line: the top-level pieces of the array
      that follows the first `"entities":[`; none when it is missing. */
  function EntityTexts(line: string): (r: seq<string>)
    ensures IndexOf(line, EntitiesMarker).None? ==> r == []
    ensures IndexOf(line, EntitiesMarker).Some? ==>
              var idx := IndexOf(line, EntitiesMarker).value;
              r == SplitTopLevel(ExtractArray(line, idx + |EntitiesMarker| - 1))
  {
    match IndexOf(line, EntitiesMarker)
    case None => []
    case Some(idx) =>
      MarkerBracket(line, idx);
      match IndexOfChar(line, '[', idx)
      case Some(b) => SplitTopLevel(ExtractArray(line, b))
      case None => SplitTopLevel("")
  }

  /** The `[` searched for from the marker is the marker's own last character. */
  lemma MarkerBracket(line: string, idx: nat)
    requires OccursAt(line, EntitiesMarker, idx)
    ensures IndexOfChar(line, '[', idx) == Some(idx + |EntitiesMarker| - 1)
  {
    var m := line[idx..idx + 12];
    assert m == EntitiesMarker;
    assert line[idx + 11] == m[11] == '[';
    forall k | idx <= k < idx + 11 ensures line[k] != '[' {
      assert line[k] == m[k - idx];
    }
  }

  /** A keyframe line (lines 190-230): its time from `t` and its entities. */
  function ParseKeyframe(line: string, parseD: Parse, parseF: Parse): (k: Keyframe)
    ensures k.t == ParseDouble(Field(line, "t"), parseD)
    ensures forall id :: id in k.entities <==>
              exists j :: 0 <= j < |EntityTexts(line)| && ParseEntity(EntityTexts(line)[j], parseD, parseF).id == Some(id)
    ensures forall id, j :: id in k.entities && LastWithId(ParseAll(EntityTexts(line), parseD, parseF), id, j) ==>
              k.entities[id] == ParseEntity(EntityTexts(line)[j], parseD, parseF)
  {
    var infos := ParseAll(EntityTexts(line), parseD, parseF);
    Keyframe(ParseDouble(Field(line, "t"), parseD), EntityMap(infos))
  }

  /** The lines the loader takes as keyframes. */
  predicate IsKeyframeLine(line: string) {
    Contains(line, KeyframeMarker)
  }

  /** `ParseKeyframe` with the number parsers fixed. */
  function KeyframeReader(parseD: Parse, parseF: Parse): string -> Keyframe {
    line => ParseKeyframe(line, parseD, parseF)
  }

  /** Every keyframe line parsed, in file order: the `j`-th keyframe comes
      from the `j`-th line that carries the keyframe marker, and every other
      line is skipped. */
  function ParseLines(lines: seq<string>, parseD: Parse, parseF: Parse): (r: seq<Keyframe>)
    ensures |r| <= |lines|
    ensures r == Pick(lines, Indices(lines, IsKeyframeLine), KeyframeReader(parseD, parseF))
    ensures (forall i :: 0 <= i < |lines| ==> IsKeyframeLine(lines[i])) ==> |r| == |lines|
    ensures (forall i :: 0 <= i < |lines| ==> !IsKeyframeLine(lines[i])) ==> r == []
  {
    if |lines| == 0 then []
    else
      var rest := ParseLines(lines[1..], parseD, parseF);
      PickCons(lines, IsKeyframeLine, KeyframeReader(parseD, parseF));
      IndicesFromSize(lines, IsKeyframeLine, 0);
      if IsKeyframeLine(lines[0]) then [ParseKeyframe(lines[0], parseD, parseF)] + rest else rest
  }

  predicate Sorted(ks: seq<Keyframe>) {
    forall i, j :: 0 <= i < j < |ks| ==> ks[i].t <= ks[j].t
  }

  /** The keyframes of `ks` at time `t`, in order. */
  function AtTime(ks: seq<Keyframe>, t: real): (r: seq<Keyframe>)
    ensures |r| <= |ks|
  {
    if |ks| == 0 then [] else (if ks[0].t == t then [ks[0]] else []) + AtTime(ks[1..], t)
  }

  /** Places `k` after every keyframe not later than it. */
  function Insert(k: Keyframe, s: seq<Keyframe>): (r: seq<Keyframe>)
    requires Sorted(s)
    ensures Sorted(r) && multiset(r) == multiset(s) + multiset{k}
    ensures |r| == |s| + 1
    ensures forall j :: 0 <= j < |r| ==> r[j] == k || r[j] in s
  {
    if |s| == 0 then [k]
    else if k.t < s[0].t then [k] + s
    else
      var tail := Insert(k, s[1..]);
      InsertBehind(k, s, tail);
      [s[0]] + tail
  }

  /** The head of `s`, not later than `k`, stays in front of `k` inserted into the rest. */
  lemma InsertBehind(k: Keyframe, s: seq<Keyframe>, tail: seq<Keyframe>)
    requires Sorted(s) && |s| > 0 && s[0].t <= k.t
    requires Sorted(tail) && multiset(tail) == multiset(s[1..]) + multiset{k} && |tail| == |s|
    requires forall j :: 0 <= j < |tail| ==> tail[j] == k || tail[j] in s[1..]
    ensures var r := [s[0]] + tail;
            && Sorted(r) && multiset(r) == multiset(s) + multiset{k}
            && forall j :: 0 <= j < |r| ==> r[j] == k || r[j] in s
  {
    assert s == [s[0]] + s[1..];
    forall j | 0 <= j < |tail| ensures s[0].t <= tail[j].t {
      if tail[j] != k {
        var i :| 0 <= i < |s[1..]| && s[1..][i] == tail[j];
        assert s[i + 1] == tail[j];
      }
    }
  }

  /** `List.sort` by time, as an insertion sort: each keyframe goes after
      every earlier one that is not later than it. */
  function SortByTime(ks: seq<Keyframe>): (r: seq<Keyframe>)
    ensures Sorted(r) && multiset(r) == multiset(ks) && |r| == |ks|
  {
    if |ks| == 0 then []
    else
      assert ks == ks[..|ks| - 1] + [ks[|ks| - 1]];
      Insert(ks[|ks| - 1], SortByTime(ks[..|ks| - 1]))
  }

  lemma {:induction false} AtTimeAppend(a: seq<Keyframe>, b: seq<Keyframe>, t: real)
    ensures AtTime(a + b, t) == AtTime(a, t) + AtTime(b, t)
    decreases |a|
  {
    if |a| == 0 {
      assert a + b == b;
    } else {
      var c := a + b;
      assert c[0] == a[0];
      assert c[1..] == a[1..] + b;
      AtTimeAppend(a[1..], b, t);
      var h := if a[0].t == t then [a[0]] else [];
      assert AtTime(c, t) == h + AtTime(c[1..], t);
      assert AtTime(a, t) == h + AtTime(a[1..], t);
    }
  }

  lemma {:induction false} AtTimeLater(s: seq<Keyframe>, t: real)
    requires forall j :: 0 <= j < |s| ==> s[j].t > t
    ensures AtTime(s, t) == []
    decreases |s|
  {
    if |s| > 0 {
      AtTimeLater(s[1..], t);
    }
  }

  /** Insertion keeps keyframes of equal time in their order: the new one
      comes after those already there. */
  lemma {:induction false} InsertStable(k: Keyframe, s: seq<Keyframe>, t: real)
    requires Sorted(s)
    ensures AtTime(Insert(k, s), t) == AtTime(s, t) + AtTime([k], t)
    decreases |s|
  {
    if |s| == 0 {
    } else if k.t < s[0].t {
      InsertFront(k, s, t);
    } else {
      assert Sorted(s[1..]);
      InsertStable(k, s[1..], t);
      InsertUnfold(k, s);
      ConsKeeps(s[0], Insert(k, s[1..]), s[1..], [k], t);
      assert [s[0]] + s[1..] == s;
    }
  }

  /** Putting the same keyframe in front of two sequences keeps a relation
      between their keyframes at time `t`. */
  lemma ConsKeeps(x: Keyframe, a: seq<Keyframe>, b: seq<Keyframe>, c: seq<Keyframe>, t: real)
    requires AtTime(a, t) == AtTime(b, t) + AtTime(c, t)
    ensures AtTime([x] + a, t) == AtTime([x] + b, t) + AtTime(c, t)
  {
    AtTimeAppend([x], a, t);
    AtTimeAppend([x], b, t);
  }

  lemma InsertUnfold(k: Keyframe, s: seq<Keyframe>)
    requires Sorted(s) && |s| > 0 && k.t >= s[0].t
    ensures Insert(k, s) == [s[0]] + Insert(k, s[1..])
  {
  }

  lemma InsertFront(k: Keyframe, s: seq<Keyframe>, t: real)
    requires Sorted(s) && |s| > 0 && k.t < s[0].t
    ensures AtTime([k] + s, t) == AtTime(s, t) + AtTime([k], t)
  {
    AtTimeAppend([k], s, t);
    if k.t == t {
      AtTimeLater(s, t);
    }
  }

  /** The sort is stable: the keyframes of any one time keep their file order. */
  lemma {:induction false} SortStable(ks: seq<Keyframe>, t: real)
    ensures AtTime(SortByTime(ks), t) == AtTime(ks, t)
    decreases |ks|
  {
    if |ks| > 0 {
      var init := ks[..|ks| - 1];
      SortStable(init, t);
      InsertStable(ks[|ks| - 1], SortByTime(init), t);
      AtTimeAppend(init, [ks[|ks| - 1]], t);
      assert init + [ks[|ks| - 1]] == ks;
    }
  }

  /** `loadRecording` with the corrected entity map: the keyframe lines,
      parsed and stably ordered by time. */
  function Load(lines: seq<string>, parseD: Parse, parseF: Parse): (r: seq<Keyframe>)
    ensures Sorted(r)
    ensures multiset(r) == multiset(ParseLines(lines, parseD, parseF))
    ensures forall t :: AtTime(r, t) == AtTime(ParseLines(lines, parseD, parseF), t)
  {
    var ks := ParseLines(lines, parseD, parseF);
    forall t ensures AtTime(SortByTime(ks), t) == AtTime(ks, t) {
      SortStable(ks, t);
    }
    SortByTime(ks)
  }
}

=== FILE: replay_scene.dfy ===
/** `ReplayScene` at play: proxies are created for recorded entities,
    placed by linear interpolation between the two keyframes around the
    replay clock, and removed when the current keyframe no longer holds
    them; the clock loops back to 0 past the last keyframe. Without a
    recording the scene is a file menu. */
module ReplayScene {
  import opened Wrappers
  import opened JavaString
  import opened Geometry
  import Health
  import opened EntityFactory
  import opened ReplayLoader

  /** The name a recorded id stood for: the text before its last `_`, or
      the whole id when it has none. */
  function RawId(id: string): (r: string)
    ensures '_' !in id ==> r == id
    ensures '_' in id ==> |r| < |id| && id[|r|] == '_' && r == id[..|r|] && '_' !in id[|r| + 1..]
  {
    match LastIndexOfChar(id, '_')
    case None => id
    case Some(i) =>
      id[..i]
  }

  /** The recorder writes `name_uuid`; with a UUID free of `_` the replayer
      recovers the name, whatever the name holds. */
  lemma RawIdOfEntityId(name: string, uuid: string)
    requires '_' !in uuid
    ensures RawId(name + "_" + uuid) == name
  {
    var id := name + "_" + uuid;
    assert id[|name|] == '_';
    assert forall k :: |name| < k < |id| ==> id[k] == uuid[k - |name| - 1];
    assert LastIndexOfChar(id, '_') == Some(|name|);
  }

  /** `createVisualFor` for an entity with an id (lines 237-259): the player
      figure for "Player", otherwise a shape built from the recorded type,
      size and colour; named with the full id, placed at the recorded
      position, and given a fresh health component exactly when health was
      recorded (`hp >= 0`). */
  function CreateVisualFor(id: string, ei: EntityInfo): (v: Visual)
    ensures v.name == id && v.pos == Some(ei.pos)
    ensures RawId(id) == "Player" ==> v.body == PlayerFigure
    ensures RawId(id) != "Player" ==> v.body == CreateRenderableVisual(RawId(id), ei.rt, ei.w, ei.h, ei.color).body
    ensures v.health.Some? <==> ei.hp >= 0.0
    ensures v.health.Some? ==> v.health.value == Health.New(ei.maxHp)
  {
    var base := if RawId(id) == "Player" then CreatePlayerVisual()
                else CreateRenderableVisual(RawId(id), ei.rt, ei.w, ei.h, ei.color);
    base.(name := id, pos := Some(ei.pos),
          health := if ei.hp >= 0.0 then Some(Health.New(ei.maxHp)) else None)
  }

  /** `createVisualFor` exactly as written: a `null` id makes
      `ei.id.contains("_")` throw a `NullPointerException`. */
  function CreateVisualForAsWritten(ei: EntityInfo): (r: Result<Visual, string>)
    ensures r.Failure? <==> ei.id.None?
    ensures r.Success? ==> r.value == CreateVisualFor(ei.id.value, ei)
  {
    match ei.id
    case None => Failure("NullPointerException")
    case Some(id) => Success(CreateVisualFor(id, ei))
  }

  /** An entity written without an id, `{"x":1}`, is stored under the null
      key by the loader as written, and building its proxy then throws. */
  lemma NullIdCrashes(parseD: Parse, parseF: Parse)
    ensures var ei := ParseEntity("{\"x\":1}", parseD, parseF);
            && None in EntityMapAsWritten([ei])
            && CreateVisualForAsWritten(EntityMapAsWritten([ei])[None]).Failure?
  {
    var p := "{\"x\":1}";
    RecordingJson.FieldOfAbsentKey(p, "id", 'i');
    var ei := ParseEntity(p, parseD, parseF);
    assert ei.id == None;
    assert [ei][0].id == None;
  }

  /** The corrected map leaves such an entity out, so no proxy is built for it. */
  lemma NullIdSkipped(parseD: Parse, parseF: Parse)
    ensures EntityMap([ParseEntity("{\"x\":1}", parseD, parseF)]) == map[]
  {
    RecordingJson.FieldOfAbsentKey("{\"x\":1}", "id", 'i');
  }

  /** One proxy after `syncObjects` (lines 270-298): the existing proxy, or a
      new one from frame A; its position interpolated from A towards B (B
      falls back to A when the entity is missing there); its health, if it
      has a component, set to A's recorded values. */
  function SyncOne(proxies: map<string, Visual>, id: string, a: Keyframe, b: Keyframe, u: real): (v: Visual)
    requires id in a.entities
  {
    var infoA := a.entities[id];
    var base := if id in proxies then proxies[id] else CreateVisualFor(id, infoA);
    Retarget(base, infoA, if id in b.entities then b.entities[id].pos else infoA.pos, u)
  }

  /** The body of the first loop of `syncObjects` for one id, reading the
      proxy from the map being built. */
  function Resync(active: map<string, Visual>, id: string, a: Keyframe, b: Keyframe, u: real): (v: Visual)
    requires id in a.entities
    ensures id !in active ==> v == SyncOne(map[], id, a, b, u)
    ensures id in active ==> v == SyncOne(map[id := active[id]], id, a, b, u)
  {
    var infoA := a.entities[id];
    var obj := if id in active then active[id] else CreateVisualFor(id, infoA);
    var posB := if id in b.entities then b.entities[id].pos else infoA.pos;
    Retarget(obj, infoA, posB, u)
  }

  /** A proxy moved to the interpolated position (when it has a transform)
      and given A's health values (when it has a health component). */
  function Retarget(obj: Visual, infoA: EntityInfo, posB: Vec2, u: real): Visual {
    obj.(pos := if obj.pos.Some? then Some(LerpVec(infoA.pos, posB, u)) else None,
         health := match obj.health
                   case Some(h) => Some(h.(current := infoA.hp, max := infoA.maxHp))
                   case None => None)
  }

  /** The proxies after `syncObjects`: exactly the entities of frame A. */
  function Sync(proxies: map<string, Visual>, a: Keyframe, b: Keyframe, u: real): (r: map<string, Visual>)
    ensures r.Keys == a.entities.Keys
  {
    map id | id in a.entities :: SyncOne(proxies, id, a, b, u)
  }

  /** What a synchronised proxy looks like: kept or newly built, at the
      interpolated position, with A's health values, nothing else changed. */
  lemma SyncedProxy(proxies: map<string, Visual>, a: Keyframe, b: Keyframe, u: real, id: string)
    requires id in a.entities
    ensures var v := Sync(proxies, a, b, u)[id];
            var infoA := a.entities[id];
            var posB := if id in b.entities then b.entities[id].pos else infoA.pos;
            && (id in proxies ==> v.name == proxies[id].name && v.body == proxies[id].body
                                  && (v.pos.Some? <==> proxies[id].pos.Some?)
                                  && (v.health.Some? <==> proxies[id].health.Some?))
            && (id !in proxies ==> v.name == id && v.pos.Some? && (v.health.Some? <==> infoA.hp >= 0.0))
            && (v.pos.Some? ==> v.pos.value == LerpVec(infoA.pos, posB, u))
            && (v.health.Some? ==> v.health.value.current == infoA.hp && v.health.value.max == infoA.maxHp)
            && (0.0 <= u <= 1.0 && v.pos.Some? ==>
                  Min(infoA.pos.x, posB.x) <= v.pos.value.x <= Max(infoA.pos.x, posB.x)
                  && Min(infoA.pos.y, posB.y) <= v.pos.value.y <= Max(infoA.pos.y, posB.y))
  {
  }

  /** `syncObjects` as the loops are written: every id of frame A is synced
      in turn and recorded as present, then every proxy not present is
      removed. The order the ids are visited in does not matter. */
  method SyncObjects(proxies: map<string, Visual>, a: Keyframe, b: Keyframe, u: real) returns (active: map<string, Visual>)
    ensures active == Sync(proxies, a, b, u)
  {
    var present;
    active, present := SyncPresent(proxies, a, b, u);
    active := RemoveAbsent(active, present);
    OverlayCut(active, proxies, Sync(proxies, a, b, u));
  }

  /** The first loop of `syncObjects` (lines 270-299): each id of frame A is
      synced, creating its proxy if need be, and recorded as present; the
      proxies of other ids are left alone. */
  method SyncPresent(proxies: map<string, Visual>, a: Keyframe, b: Keyframe, u: real)
    returns (active: map<string, Visual>, present: set<string>)
    ensures present == a.entities.Keys
    ensures active == proxies + Sync(proxies, a, b, u)
  {
    active := proxies;
    present := {};
    var todo := a.entities.Keys;
    ghost var all := Sync(proxies, a, b, u);
    OverlaidNone(proxies, all);
    while todo != {}
      invariant todo <= all.Keys && present == all.Keys - todo
      invariant Overlaid(active, proxies, all, present)
      decreases |todo|
    {
      var id :| id in todo;
      var obj := Resync(active, id, a, b, u);
      SyncStep(proxies, a, b, u, active, present, id, obj);
      MoveOne(all.Keys, todo, present, id);
      active := active[id := obj];
      present := present + {id};
      todo := todo - {id};
    }
    NoneLeft(all.Keys, todo, present);
    OverlaidAll(active, proxies, all, present);
  }

  /** One turn of the loop: syncing a further id of frame A, reading its
      proxy from the map built so far, extends the synced part by that id. */
  lemma SyncStep(proxies: map<string, Visual>, a: Keyframe, b: Keyframe, u: real,
                 active: map<string, Visual>, present: set<string>, id: string, obj: Visual)
    requires present <= a.entities.Keys && id in a.entities && id !in present
    requires Overlaid(active, proxies, Sync(proxies, a, b, u), present)
    requires obj == Resync(active, id, a, b, u)
    ensures Overlaid(active[id := obj], proxies, Sync(proxies, a, b, u), present + {id})
  {
    var all := Sync(proxies, a, b, u);
    OverrideMiss(proxies, Restrict(all, present), id);
    assert obj == all[id];
    RestrictAdd(all, present, id);
    OverrideUpdate(proxies, Restrict(all, present), id, obj);
  }

  /** Moving one element from the to-do set to the done set keeps the two
      a partition of `all` and shrinks the to-do set. */
  lemma MoveOne<T>(all: set<T>, todo: set<T>, done: set<T>, x: T)
    requires todo <= all && done == all - todo && x in todo
    ensures todo - {x} <= all && done + {x} == all - (todo - {x})
    ensures |todo - {x}| < |todo|
  {
  }

  lemma NoneLeft<T>(all: set<T>, todo: set<T>, done: set<T>)
    requires todo == {} && done == all - todo
    ensures done == all
  {
  }

  /** `active` is `base` with the entries of `all` for the keys in `done` laid over it. */
  predicate Overlaid<K, V(==)>(active: map<K, V>, base: map<K, V>, all: map<K, V>, done: set<K>) {
    done <= all.Keys && active == base + Restrict(all, done)
  }

  lemma OverlaidNone<K, V>(base: map<K, V>, all: map<K, V>)
    ensures Overlaid(base, base, all, {})
  {
    RestrictNone(all);
  }

  lemma OverlaidAll<K, V>(active: map<K, V>, base: map<K, V>, all: map<K, V>, done: set<K>)
    requires Overlaid(active, base, all, done) && done == all.Keys
    ensures active == base + all
  {
    RestrictAll(all);
  }

  /** `m` cut down to the keys in `s`. */
  function Restrict<K, V>(m: map<K, V>, s: set<K>): (r: map<K, V>)
    requires s <= m.Keys
    ensures r.Keys == s && forall k :: k in r ==> r[k] == m[k]
  {
    map k | k in s :: m[k]
  }

  lemma RestrictNone<K, V>(m: map<K, V>)
    ensures Restrict(m, {}) == map[]
  {
  }

  lemma RestrictAll<K, V>(m: map<K, V>)
    ensures Restrict(m, m.Keys) == m
  {
  }

  lemma RestrictAdd<K, V>(m: map<K, V>, s: set<K>, k: K)
    requires s <= m.Keys && k in m
    ensures Restrict(m, s + {k}) == Restrict(m, s)[k := m[k]]
  {
  }

  /** Laying `top` over `base` and keeping only the keys of `top` gives `top` back. */
  lemma OverlayCut<K, V>(r: map<K, V>, base: map<K, V>, top: map<K, V>)
    requires r.Keys == (base + top).Keys * top.Keys
    requires forall k :: k in r ==> r[k] == (base + top)[k]
    ensures r == top
  {
  }

  /** A key the overriding map lacks is looked up in the base map. */
  lemma OverrideMiss<K, V>(m: map<K, V>, n: map<K, V>, k: K)
    requires k !in n
    ensures (k in m + n <==> k in m) && (k in m ==> (m + n)[k] == m[k])
  {
  }

  /** Updating the union is updating the overriding map. */
  lemma OverrideUpdate<K, V>(m: map<K, V>, n: map<K, V>, k: K, v: V)
    ensures (m + n)[k := v] == m + n[k := v]
  {
  }

  /** The removal loop of `syncObjects` (lines 303-311): every proxy whose id
      is not present is dropped, the others are kept as they are. */
  method RemoveAbsent(m: map<string, Visual>, present: set<string>) returns (r: map<string, Visual>)
    ensures r.Keys == m.Keys * present
    ensures forall id :: id in r ==> r[id] == m[id]
  {
    r := m;
    var keys := m.Keys;
    while keys != {}
      invariant keys <= r.Keys <= m.Keys
      invariant forall id :: id in m && id !in keys ==> (id in r <==> id in present)
      invariant forall id :: id in r ==> r[id] == m[id]
      decreases |keys|
    {
      var k :| k in keys;
      if k !in present {
        r := r - {k};
      }
      keys := keys - {k};
    }
  }

  /** The first pair of consecutive keyframes whose times enclose `time`. */
  function BracketIndex(ks: seq<Keyframe>, time: real, from: nat): (r: Option<nat>)
    decreases |ks| - from
    ensures r.Some? ==> from <= r.value && r.value + 1 < |ks| && ks[r.value].t <= time <= ks[r.value + 1].t
    ensures forall i :: from <= i && i + 1 < |ks| && (r.None? || i < r.value) ==> !(ks[i].t <= time <= ks[i + 1].t)
  {
    if from + 1 >= |ks| then None
    else if ks[from].t <= time <= ks[from + 1].t then Some(from)
    else BracketIndex(ks, time, from + 1)
  }

  /** Keyframes A and B for `time` (lines 95-101): the first enclosing pair,
      or the first and the last keyframe when no pair encloses it. */
  function Bracket(ks: seq<Keyframe>, time: real): (r: (Keyframe, Keyframe))
    requires |ks| > 0
    ensures BracketIndex(ks, time, 0).None? ==> r == (ks[0], ks[|ks| - 1])
    ensures BracketIndex(ks, time, 0).Some? ==>
              var i := BracketIndex(ks, time, 0).value;
              r == (ks[i], ks[i + 1]) && r.0.t <= time <= r.1.t
  {
    match BracketIndex(ks, time, 0)
    case None => (ks[0], ks[|ks| - 1])
    case Some(i) => (ks[i], ks[i + 1])
  }

  /** On a time-ordered recording with at least two keyframes, any time
      within the recording lies between two consecutive keyframes. */
  lemma {:induction false} BracketFound(ks: seq<Keyframe>, time: real, from: nat)
    requires Sorted(ks) && from + 1 < |ks|
    requires ks[from].t <= time <= ks[|ks| - 1].t
    ensures BracketIndex(ks, time, from).Some?
    decreases |ks| - from
  {
    if !(ks[from].t <= time <= ks[from + 1].t) {
      assert time > ks[from + 1].t;
      if from + 2 < |ks| {
        BracketFound(ks, time, from + 1);
      }
    }
  }

  /** The interpolation factor (lines 103-104): the time since A over the
      span A to B (at least 1e-6), clamped to [0, 1]. */
  function Factor(time: real, ta: real, tb: real): (u: real)
    ensures 0.0 <= u <= 1.0
    ensures time <= ta ==> u == 0.0
    ensures tb - ta >= 0.000001 && ta <= time <= tb ==> u == (time - ta) / (tb - ta)
    ensures tb - ta >= 0.000001 && time >= tb ==> u == 1.0
  {
    var span := Max(0.000001, tb - ta);
    assert tb - ta >= 0.000001 && time >= tb ==> (time - ta) / span >= 1.0 by {
      if tb - ta >= 0.000001 && time >= tb {
        assert time - ta >= span;
        DivAtLeastOne(time - ta, span);
      }
    }
    assert tb - ta >= 0.000001 && ta <= time <= tb ==> (time - ta) / span <= 1.0 by {
      if tb - ta >= 0.000001 && ta <= time <= tb {
        assert time - ta <= span;
        DivAtMostOne(time - ta, span);
      }
    }
    Min(1.0, Max(0.0, (time - ta) / span))
  }

  lemma DivAtLeastOne(x: real, y: real)
    requires y > 0.0 && x >= y
    ensures x / y >= 1.0
  {
  }

  lemma DivAtMostOne(x: real, y: real)
    requires y > 0.0 && 0.0 <= x <= y
    ensures 0.0 <= x / y <= 1.0
  {
  }

  /** The replay scene: the recording path (none while the file menu is
      shown), the files listed, the menu cursor, the replay clock, the
      loaded keyframes and the proxies by recorded id. */
  datatype Replay = Replay(
    path: Option<string>,
    files: seq<string>,
    selected: int,
    time: real,
    keyframes: seq<Keyframe>,
    proxies: map<string, Visual>)

  /** The menu cursor stays on a listed file. */
  predicate ReplayOk(st: Replay) {
    |st.files| == 0 || 0 <= st.selected < |st.files|
  }

  /** One replay step with a recording (lines 83-106): nothing without
      keyframes; otherwise the clock advances and, past the last keyframe,
      restarts at 0 with every proxy removed; then the proxies are synced to
      the keyframes around the clock. */
  function Advance(st: Replay, dt: real): (r: Replay)
    ensures |st.keyframes| == 0 ==> r == st
    ensures |st.keyframes| > 0 ==>
              var lastT := st.keyframes[|st.keyframes| - 1].t;
              var looped := st.time + dt > lastT;
              && r.time == (if looped then 0.0 else st.time + dt)
              && var (a, b) := Bracket(st.keyframes, r.time);
                 r.proxies == Sync(if looped then map[] else st.proxies, a, b, Factor(r.time, a.t, b.t))
    ensures r.path == st.path && r.files == st.files && r.selected == st.selected && r.keyframes == st.keyframes
  {
    if |st.keyframes| == 0 then st
    else
      var lastT := st.keyframes[|st.keyframes| - 1].t;
      var looped := st.time + dt > lastT;
      var time := if looped then 0.0 else st.time + dt;
      var proxies := if looped then map[] else st.proxies;
      var (a, b) := Bracket(st.keyframes, time);
      st.(time := time, proxies := Sync(proxies, a, b, Factor(time, a.t, b.t)))
  }

  /** The replay clock never leaves the recording: on a time-ordered
      recording whose last keyframe is not before 0, a step with a
      non-negative frame time from a non-negative clock lands in
      [0, last time]; from the first keyframe on, it lies between two
      consecutive keyframes. */
  lemma AdvanceStaysInRecording(st: Replay, dt: real)
    requires |st.keyframes| >= 2 && Sorted(st.keyframes)
    requires 0.0 <= st.keyframes[|st.keyframes| - 1].t && 0.0 <= st.time && 0.0 <= dt
    ensures var r := Advance(st, dt);
            && 0.0 <= r.time <= st.keyframes[|st.keyframes| - 1].t
            && (st.keyframes[0].t <= r.time ==> BracketIndex(st.keyframes, r.time, 0).Some?)
  {
    var lastT := st.keyframes[|st.keyframes| - 1].t;
    var time := if st.time + dt > lastT then 0.0 else st.time + dt;
    assert Advance(st, dt).time == time;
    if st.keyframes[0].t <= time {
      BracketFound(st.keyframes, time, 0);
    }
  }

  /** Before the first keyframe (a recording starts after a warm-up, so the
      looped clock spends its first moments there), no pair encloses the
      clock, the factor is 0, and every proxy stands where the first
      keyframe put it. */
  lemma BeforeFirstKeyframe(st: Replay, dt: real, id: string)
    requires |st.keyframes| > 0 && Sorted(st.keyframes)
    requires Advance(st, dt).time < st.keyframes[0].t
    requires id in st.keyframes[0].entities
    ensures var r := Advance(st, dt);
            && id in r.proxies
            && (r.proxies[id].pos.Some? ==> r.proxies[id].pos.value == st.keyframes[0].entities[id].pos)
  {
    var r := Advance(st, dt);
    var ks := st.keyframes;
    assert BracketIndex(ks, r.time, 0).None?;
    var (a, b) := Bracket(ks, r.time);
    assert a == ks[0];
    assert Factor(r.time, a.t, b.t) == 0.0;
  }

  const KeyEnter := 10
  const KeySpace := 32
  const KeyUp := 38
  const KeyDown := 40
  const KeyEscape := 27

  /** The file menu (lines 152-163): up wins over down, and down over
      choosing; the cursor wraps around the list. Choosing a file loads it
      and starts the replay from 0. */
  function HandleFileSelection(st: Replay, keys: set<int>, readLines: string -> seq<string>, parseD: Parse, parseF: Parse): (r: Replay)
    requires ReplayOk(st)
    ensures ReplayOk(r) && r.files == st.files
    ensures |st.files| == 0 ==> r == st
    ensures |st.files| > 0 && KeyUp in keys ==>
              r == st.(selected := if st.selected == 0 then |st.files| - 1 else st.selected - 1)
    ensures |st.files| > 0 && KeyUp !in keys && KeyDown in keys ==>
              r == st.(selected := if st.selected == |st.files| - 1 then 0 else st.selected + 1)
    ensures |st.files| > 0 && KeyUp !in keys && KeyDown !in keys && (KeyEnter in keys || KeySpace in keys) ==>
              r == Initialize(st.(path := Some(st.files[st.selected])), st.files, readLines, parseD, parseF)
    ensures KeyUp !in keys && KeyDown !in keys && KeyEnter !in keys && KeySpace !in keys ==> r == st
  {
    var n := |st.files|;
    if n == 0 then st
    else if KeyUp in keys then
      WrapDown(st.selected, n);
      st.(selected := (st.selected - 1 + n) % n)
    else if KeyDown in keys then
      WrapUp(st.selected, n);
      st.(selected := (st.selected + 1) % n)
    else if KeyEnter in keys || KeySpace in keys then Initialize(st.(path := Some(st.files[st.selected])), st.files, readLines, parseD, parseF)
    else st
  }

  lemma WrapDown(i: int, n: int)
    requires 0 <= i < n
    ensures (i - 1 + n) % n == if i == 0 then n - 1 else i - 1
  {
    if i == 0 {
      assert (n - 1) % n == n - 1;
    } else {
      assert (i - 1 + n) % n == ((i - 1) + n) % n;
      assert (i - 1 + n) == (i - 1) + 1 * n;
    }
  }

  lemma WrapUp(i: int, n: int)
    requires 0 <= i < n
    ensures (i + 1) % n == if i == n - 1 then 0 else i + 1
  {
  }

  /** Up and then down brings the cursor back. */
  lemma UpThenDown(st: Replay, readLines: string -> seq<string>, parseD: Parse, parseF: Parse)
    requires ReplayOk(st) && |st.files| > 0
    ensures HandleFileSelection(HandleFileSelection(st, {KeyUp}, readLines, parseD, parseF), {KeyDown}, readLines, parseD, parseF) == st
  {
  }

  /** `initialize` (lines 53-67): the clock at 0 and no proxies; with a
      recording path the recording is loaded, and without one the file menu
      lists `listed`, the recordings the storage finds. */
  function Initialize(st: Replay, listed: seq<string>, readLines: string -> seq<string>, parseD: Parse, parseF: Parse): (r: Replay)
    ensures r.time == 0.0 && r.proxies == map[] && Sorted(r.keyframes)
    ensures st.path.Some? ==> r.keyframes == Load(readLines(st.path.value), parseD, parseF) && r.files == st.files
    ensures st.path.None? ==> r.keyframes == [] && r.files == listed
    ensures r.path == st.path && r.selected == st.selected
  {
    match st.path
    case Some(path) => st.(time := 0.0, proxies := map[], keyframes := Load(readLines(path), parseD, parseF))
    case None => st.(time := 0.0, proxies := map[], keyframes := [], files := listed)
  }

  datatype Outcome = Stay(replay: Replay) | ToMenu

  /** `update` (lines 70-107): ESC returns to the menu; without a recording
      the file menu handles the keys; otherwise the replay advances. */
  function Update(st: Replay, dt: real, keys: set<int>, readLines: string -> seq<string>, parseD: Parse, parseF: Parse): (r: Outcome)
    requires ReplayOk(st)
    ensures r.ToMenu? <==> KeyEscape in keys
    ensures r.Stay? ==> ReplayOk(r.replay)
    ensures r.Stay? && st.path.Some? ==> r.replay == Advance(st, dt)
    ensures r.Stay? && st.path.None? ==> r.replay == HandleFileSelection(st, keys, readLines, parseD, parseF)
  {
    if KeyEscape in keys then ToMenu
    else if st.path.None? then Stay(HandleFileSelection(st, keys, readLines, parseD, parseF))
    else Stay(Advance(st, dt))
  }
}

=== FILE: selection.dfy ===
/** Order-preserving selection: the positions of a sequence whose elements
    pass a test, in increasing order. The stream filters of the reader
    (`filter(s -> !s.isEmpty())`, the keyframe-line test) are stated through it. */
module Selection {

  /** The indices `k >= from` with `keep(s[k])`, ascending, each exactly once. */
  function IndicesFrom<T>(s: seq<T>, keep: T -> bool, from: nat): (idx: seq<nat>)
    requires from <= |s|
    decreases |s| - from
    ensures forall j :: 0 <= j < |idx| ==> from <= idx[j] < |s| && keep(s[idx[j]])
    ensures forall j, j' :: 0 <= j < j' < |idx| ==> idx[j] < idx[j']
    ensures forall k :: from <= k < |s| && keep(s[k]) ==> k in idx
  {
    if from == |s| then []
    else
      var rest := IndicesFrom(s, keep, from + 1);
      if keep(s[from]) then [from] + rest else rest
  }

  /** All the indices of `s` whose element passes `keep`. */
  function Indices<T>(s: seq<T>, keep: T -> bool): (idx: seq<nat>)
    ensures forall j :: 0 <= j < |idx| ==> idx[j] < |s| && keep(s[idx[j]])
    ensures forall j, j' :: 0 <= j < j' < |idx| ==> idx[j] < idx[j']
    ensures forall k :: 0 <= k < |s| && keep(s[k]) ==> k in idx
  {
    IndicesFrom(s, keep, 0)
  }

  /** No more indices than elements; all of them when every element is
      kept, none when no element is. */
  lemma {:induction false} IndicesFromSize<T>(s: seq<T>, keep: T -> bool, from: nat)
    requires from <= |s|
    ensures |IndicesFrom(s, keep, from)| <= |s| - from
    ensures (forall k :: from <= k < |s| ==> keep(s[k])) ==> |IndicesFrom(s, keep, from)| == |s| - from
    ensures (forall k :: from <= k < |s| ==> !keep(s[k])) ==> IndicesFrom(s, keep, from) == []
    decreases |s| - from
  {
    if from < |s| {
      IndicesFromSize(s, keep, from + 1);
    }
  }

  /** The elements at `idx`, each passed through `f`. */
  function Pick<T, U>(s: seq<T>, idx: seq<nat>, f: T -> U): (r: seq<U>)
    requires forall j :: 0 <= j < |idx| ==> idx[j] < |s|
    ensures |r| == |idx| && forall j :: 0 <= j < |idx| ==> r[j] == f(s[idx[j]])
  {
    seq(|idx|, j requires 0 <= j < |idx| => f(s[idx[j]]))
  }

  /** Selecting from the first element on: the first element, when kept,
      comes first and the rest are the selection from the next position. */
  lemma PickFrom<T, U>(s: seq<T>, keep: T -> bool, f: T -> U, from: nat)
    requires from < |s|
    ensures var rest := Pick(s, IndicesFrom(s, keep, from + 1), f);
            Pick(s, IndicesFrom(s, keep, from), f) == (if keep(s[from]) then [f(s[from])] + rest else rest)
  {
  }

  /** Selecting from position `k` of the suffix `s[from..]` is selecting
      from position `from + k` of `s`. */
  lemma {:induction false} PickShift<T, U>(s: seq<T>, keep: T -> bool, f: T -> U, from: nat, k: nat)
    requires from + k <= |s|
    ensures Pick(s, IndicesFrom(s, keep, from + k), f) == Pick(s[from..], IndicesFrom(s[from..], keep, k), f)
    decreases |s| - from - k
  {
    if from + k < |s| {
      var t := s[from..];
      PickShift(s, keep, f, from, k + 1);
      PickFrom(s, keep, f, from + k);
      PickFrom(t, keep, f, k);
      assert t[k] == s[from + k];
    }
  }

  /** The selection from a non-empty sequence: its head when kept, then the
      selection from its tail. */
  lemma PickCons<T, U>(s: seq<T>, keep: T -> bool, f: T -> U)
    requires |s| > 0
    ensures Pick(s, Indices(s, keep), f)
            == (if keep(s[0]) then [f(s[0])] else []) + Pick(s[1..], Indices(s[1..], keep), f)
  {
    PickShift(s, keep, f, 1, 0);
    PickFrom(s, keep, f, 0);
  }
}

=== FILE: wrappers.dfy ===
/** Failure-compatible wrappers used throughout the model: `Option` stands for
    a Java reference that may be null, `Result` for a call that may throw. */
module Wrappers {

  /** `None` is Java's `null`. */
  datatype Option<+T> = None | Some(value: T) {

    /** The wrapped value, or `default` when this is `None`. */
    function GetOr(default: T): T {
      match this
      case Some(v) => v
      case None => default
    }
  }

  /** `Failure` is a Java exception escaping the call. */
  datatype Result<+R, +E> = Success(value: R) | Failure(error: E)
}
